=== FILE: README.md ===
# Browser desktop shell, modelled in Dafny

The system is a desktop-style shell that runs in the browser. It has a window manager that
keeps one state record (position, size, z-order, maximised and minimised flags) for every open
window. A launch dispatcher turns an app key into a new window: built-in apps come from a
static catalog, and installed apps come from a registry kept in browser storage. A start menu
lists both kinds, and an App Store installs apps from a manifest url or a dropped file. A web
browser app normalises typed text into urls. A set of small apps ships with it: tic-tac-toe,
snake, a calendar, a phone dialler, a todo list, notes, external shortcuts, a calculator, a
timer, a stopwatch and a pomodoro timer. The desktop icons also launch apps on a touch double
tap.

The model keeps every piece of state as an immutable value and every event handler as a
function from the old state to the new one. Some things the shell gets from outside are passed
in as parameters:

- the clock reading;
- fresh window ids;
- `fetch`;
- evaluating a module of code;
- `encodeURIComponent` and `JSON.stringify`;
- the `URL` parse;
- the calculator's JavaScript evaluation.

Browser storage is a `Slot` value with four cases: nothing stored, text that does not parse,
JSON that is not an array, or an array.

Modules, one per source file or component:

- `WindowManager` and `Shell` (the dispatcher, the start-menu launch and the taskbar);
- `Registry`, `Entries` (how a stored entry is read back), `Catalog`, `StartMenu`;
- `AppStore`, `ImportStrip` and `FileNames` (the file installer);
- `Urls` and `WebApp`;
- one module per mini-app.

Shared helpers live in `Wrappers`, `Storage`, `Seqs`, `Text`, `Clock`, `Content` and
`JsValue`.

Where the code's behaviour looks unintended, the model follows the code as written:

- Minimising or closing a window leaves the focus and the top z-order where they were. No
  other window is focused or raised.
- An operation on a window id that the manager has never seen falls back to
  `windows.find(id)!`, which throws in the code. The model therefore requires the id to be
  known.
- A component file dropped on the App Store is installed with the generated manifest's
  literal icon, which is a mis-decoded emoji (`AppStore.InstallFromFile` uses
  `ShimManifestAsWritten`).
- A dropped file is preprocessed with the two import patterns as written, so a React import
  on its first line is not stripped (`AppStore.Preprocess` uses `StripImportsAsWritten`).

The corrected definitions (`AppStore.ShimManifest`, `ImportStrip.StripImports`) are kept
beside them, with the intended property proved; see "## Findings".

## Model

| member | source | states |
|---|---|---|
| WindowManager.IndexOf | src/ui/WindowManager.tsx:70 | the index found holds the id and no earlier descriptor does |
| WindowManager.Base | src/ui/WindowManager.tsx:70 | (definition, used by every per-window operation) the stored state, or for a listed window not yet synced the initial state at cascade slot 0 |
| WindowManager.InitialState | src/ui/WindowManager.tsx:33-48 | a new window is cascaded to one of three slots 24/48/72 with y 40 below x, gets the requested or the 320 x 420 default size, z 1, not maximised, minimised exactly when its descriptor says so |
| WindowManager.CascadeCycle | src/ui/WindowManager.tsx:36-37 | the cascade repeats every three windows and its three slots differ |
| WindowManager.CascadeStart | src/ui/WindowManager.tsx:36-37 | the first two windows open at (24, 64) and (48, 88) |
| WindowManager.SyncFromValues | src/ui/WindowManager.tsx:51-63 | the sync loop gives each listed window its old state (minimised flag following the descriptor) or its initial state |
| WindowManager.SyncFrom | src/ui/WindowManager.tsx:51-63 | the loop over the list from an index on adds exactly the ids listed from there to the map it starts from |
| WindowManager.SyncValues | src/ui/WindowManager.tsx:51-63 | with unique ids, the sync loop from the start gives every listed window its settled state |
| WindowManager.Sync | src/ui/WindowManager.tsx:51-63 | after a sync, the state map has exactly the listed ids; known windows keep their state and new ones get the initial state |
| WindowManager.SyncStable | src/ui/WindowManager.tsx:51-63 | syncing a synced desk whose minimised flags agree with the states changes nothing |
| WindowManager.MaxZ | src/ui/WindowManager.tsx:68 | the value is at least 0, no window is above it, and it is 0 or some window's z |
| WindowManager.MaxExists | src/ui/WindowManager.tsx:68 | a non-empty set of z values has a largest element |
| WindowManager.FocusFlags | src/ui/WindowManager.tsx:73 | only the chosen window is focused and it is unminimised; every other descriptor keeps its minimised flag and its identity |
| WindowManager.BringToFront | src/ui/WindowManager.tsx:67-74 | the window rises strictly above every other window, is unminimised and is the only focused one; the other states are unchanged, and a synced desk stays synced |
| WindowManager.FocusRequest | src/ui/WindowManager.tsx:93-98 | an absent or empty request, or one for an unlisted window, changes nothing; otherwise the window is brought to the front |
| WindowManager.Close | src/ui/WindowManager.tsx:76-83 | the window leaves both the list and the map; every other window and state stays, and a synced desk stays synced |
| WindowManager.CloseKeepsOrder | src/ui/WindowManager.tsx:79 | the list is filtered in place: closing distributes over a split of the list, and a one-window list is emptied exactly when it holds the closed id, so the other windows keep their order and multiplicity |
| WindowManager.CloseKeepsSynced | src/ui/WindowManager.tsx:76-83 | the filtered list's ids are the old state keys minus the closed id |
| WindowManager.ToggleMaximize | src/ui/WindowManager.tsx:85-90 | only the window's maximised flag flips |
| WindowManager.ToggleMaximizeTwice | src/ui/WindowManager.tsx:85-90 | maximising twice restores the desk |
| WindowManager.Minimize | src/ui/WindowManager.tsx:100-103 | the window is hidden and unfocused, keeps its state otherwise, stays listed, and nothing else changes |
| WindowManager.MinimizeKeepsSynced | src/ui/WindowManager.tsx:100-103 | minimising lists and drops no window, so a synced desk stays synced |
| WindowManager.Drag | src/ui/WindowManager.tsx:105-110 | the window moves by exactly the delta, without clamping, and nothing else changes |
| WindowManager.DragBack | src/ui/WindowManager.tsx:105-110 | dragging back by the opposite delta restores the desk |
| WindowManager.Resize | src/ui/WindowManager.tsx:112-124 | the new size is the old size plus the delta, floored at 260 x 220; nothing else changes |
| WindowManager.ResizeAll | src/ui/WindowManager.tsx:112-124 | a gesture of resizes keeps the window's state |
| WindowManager.ResizeFloorsHold | src/ui/WindowManager.tsx:112-124 | any sequence of resizes leaves the window at least 260 x 220 |
| WindowManager.CrashText | src/ui/WindowManager.tsx:256-269 | a crashed app shows 'Error: ' with the error's message, or 'App crashed' when there is none |
| Registry.EntryFor | src/apps/registry.ts:25-32 | the recorded entry carries the manifest's key, title, icon and size, the url and the inline code |
| Registry.List | src/apps/registry.ts:43-52 | the stored array is listed; a missing, unparsable or non-array value lists as empty |
| Registry.ReplaceKey | src/apps/registry.ts:35 | every entry with the key is replaced where it stands and the others are untouched |
| Registry.Install | src/apps/registry.ts:24-38 | an upsert by key: an existing key is replaced in place, a new key is appended, and every other entry survives |
| Registry.InstallNewKeyAppends | src/apps/registry.ts:33-35 | a new key grows the list by one entry, at the end |
| Registry.InstallKeepsKeysUnique | src/apps/registry.ts:33-35 | installing keeps the stored keys unique |
| Registry.InstallTwice | src/apps/registry.ts:24-38 | installing one key twice leaves one entry for it, holding the second manifest |
| Registry.Uninstall | src/apps/registry.ts:39-42 | every entry with the key goes and nothing else does |
| Registry.UninstallIdempotent | src/apps/registry.ts:39-42 | uninstalling twice is uninstalling once |
| Registry.UninstallKeepsOrder | src/apps/registry.ts:39-42 | removing from two concatenated lists removes from each part, so the order is kept |
| Registry.InstallSamples | public/apps/hello-world.manifest.mjs:1-8 | two sample apps installed into an empty store are listed in install order |
| Entries.PlanFor | src/ui/App.tsx:67-84 | an entry without a url uses its stored manifest's loader or the placeholder; inline code is used when present; otherwise the url is fetched after being made absolute |
| Entries.EntryKey | src/ui/App.tsx:60 | the entry's own key, else its nested manifest's key, else none |
| Entries.EntryTitle | src/ui/App.tsx:62 | the entry's own title, else its nested manifest's title, else 'App' |
| Entries.EntryIcon | src/ui/App.tsx:63 | the entry's own icon, else its nested manifest's icon, else the jigsaw emoji |
| Entries.EntrySize | src/ui/App.tsx:64 | the entry's own size, else its nested manifest's size, else none |
| Entries.InstalledEntryReadsBack | src/ui/App.tsx:62-84 | an entry written by the registry reads back the installed key, title, icon and size, with the defaults for an absent title or icon, and loads from its inline code or its url |
| Entries.TopLevelWins | src/ui/App.tsx:60-64 | an entry's own field wins over the nested manifest's, field by field |
| Entries.FindEntry | src/ui/App.tsx:60-61 | the first entry whose effective key matches, or none exactly when no entry matches |
| Catalog.Find | src/ui/App.tsx:42 | the app found is in the catalog and has the key; none exactly when no entry has it |
| Catalog.FindIn | src/ui/App.tsx:42 | the same search over any list |
| Catalog.KeysDistinct | src/apps/catalog.tsx:26-132 | the fifteen catalog keys are pairwise distinct |
| Catalog.SizesRespectFloors | src/apps/catalog.tsx:31-129 | every catalog app has a size at or above the resize floors |
| Catalog.AppStorePresent | src/apps/catalog.tsx:76-82 | 'app-store' finds the App Store component |
| Catalog.FindFirst | src/ui/App.tsx:42 | the search returns the first entry with the key |
| Catalog.UnknownKeyNotFound | src/ui/App.tsx:42-43 | a key outside the catalog is not found |
| Shell.NewWindow | src/ui/App.tsx:44-53 | a freshly launched window carries no focus or minimised flag |
| Shell.Launch | src/ui/App.tsx:37-97 | an empty key does nothing; a catalog key opens that app; otherwise the first matching installed entry opens, and nothing opens when none matches or the store is unreadable; existing windows are untouched |
| Shell.CatalogShadowsInstalled | src/ui/App.tsx:42-55 | a catalog key launches the same window whatever is installed |
| Shell.LaunchKeepsIdsUnique | src/ui/App.tsx:37-97 | with a fresh id, window ids stay unique |
| Shell.LaunchAppStore | src/apps/catalog.tsx:76-82 | 'app-store' opens the App Store window |
| Shell.InstallThenLaunch | src/apps/registry.ts:24-38 | an app installed under a non-catalog key then launches by that key with the installed title, icon, size and loader |
| Shell.MenuLaunch | src/ui/App.tsx:109-120 | the menu appends exactly one new window for the item |
| Shell.MenuMatchesDispatch | src/ui/App.tsx:126-138 | launching a catalog item from the menu opens the same window as dispatching its key |
| Shell.TaskbarClick | src/ui/App.tsx:145-151 | the chosen window is focused and unminimised, the desk is synced, and a listed window ends above all others |
| Shell.TaskbarFocusesOne | src/ui/App.tsx:145-151 | after a taskbar click exactly the chosen window is focused, and it is unminimised in the descriptors and the states |
| StartMenu.BlobKey | src/ui/StartMenu.tsx:67 | the cache key is the entry key followed by ':manifest' |
| StartMenu.BlobKeyInjective | src/ui/StartMenu.tsx:67 | different keys never share a cache slot |
| StartMenu.MenuApps | src/ui/StartMenu.tsx:48-80 | the menu lists the catalog and then every stored entry, with the dispatcher's fallbacks |
| StartMenu.UnreadableStoreListsCatalog | src/ui/StartMenu.tsx:77-79 | an unreadable store lists exactly the fifteen catalog apps |
| StartMenu.CatalogFirst | src/ui/StartMenu.tsx:76 | the catalog part of the menu is the same whatever is stored |
| StartMenu.Expire | src/ui/StartMenu.tsx:42-45 | the cache keeps exactly the entries whose timer has not yet fired |
| StartMenu.GetCachedBlobUrl | src/ui/StartMenu.tsx:31-46 | a live entry's url is returned and its timer restarted; otherwise the fresh url is stored with a new one-minute timer |
| StartMenu.ReusedWithinTtl | src/ui/StartMenu.tsx:36-41 | a second request within a minute returns the same url |
| StartMenu.EvictedAfterTtl | src/ui/StartMenu.tsx:42-45 | a request a minute or more later gets a new url |
| StartMenu.OtherKeysUntouched | src/ui/StartMenu.tsx:31-46 | requests for one key change no other key's entry, apart from eviction |
| JsValue.Coalesce | src/ui/App.tsx:62 | a non-nullish left side wins, otherwise the right side |
| JsValue.Get | src/ui/App.tsx:60 | a record's property, undefined for a missing property or a non-record |
| JsValue.ExportedManifest | src/apps/AppStore.tsx:27 | the module's default export, else its manifest export, else the module |
| AppStore.ErrorText | src/apps/AppStore.tsx:35 | a non-empty message is shown, otherwise the fallback |
| AppStore.ToManifest | src/apps/AppStore.tsx:29 | each of the key, title and icon is recorded as the object's string, or as absent when the field is not a string; the size is recorded when its width and height are numbers |
| AppStore.ValidManifest | src/apps/AppStore.tsx:28 | the url path's truthiness check; whatever passes it is also a manifest object in the file path's sense |
| AppStore.InstallFromUrl | src/apps/AppStore.tsx:16-37 | a blank url does nothing; the install succeeds exactly when the response is ok and the export passes the check, and then the manifest is written with its code inline and the box clears; 'HTTP status' and 'Invalid manifest' errors; a failure changes neither store nor box |
| AppStore.InstallFetched | src/apps/AppStore.tsx:19-36 | once the url is absolute: success exactly when the response is ok and the export passes the check, then the manifest is written with its code inline and the box clears; the HTTP status and invalid-manifest errors; a failure changes neither store nor box |
| AppStore.UrlInstallListsExport | src/apps/AppStore.tsx:27-29 | after a url install that writes, the launcher reads back an entry with the export's string key, title and icon |
| AppStore.UrlInstallRecordsAbsoluteUrl | src/apps/AppStore.tsx:18-29 | a successful url install lists its entry under an absolute url |
| AppStore.Prelude | src/apps/AppStore.tsx:48-50 | the result mentions globalThis.React, and text already mentioning it is kept |
| AppStore.PreludeMentionsMarker | src/apps/AppStore.tsx:48-50 | the prelude itself mentions globalThis.React |
| AppStore.PreludeIdempotent | src/apps/AppStore.tsx:48-50 | adding the prelude twice is adding it once |
| AppStore.Preprocess | src/apps/AppStore.tsx:43-52 | the text evaluated is the file with the two React import patterns removed as written, unchanged when it already mentions globalThis.React and otherwise behind the one-line prelude |
| AppStore.ImportLineNotEvaluated | src/apps/AppStore.tsx:46-52 | a React import on any line but the first is absent from the evaluated text, which is the prelude applied to the file without that line |
| AppStore.FirstLineImportEvaluated | src/apps/AppStore.tsx:45-52 | a file whose first line imports React, and which never mentions globalThis.React, is evaluated with the prelude followed by its own React import |
| AppStore.ShimManifestAsWritten | src/apps/AppStore.tsx:74-75 | the generated manifest carries the derived key and title, the literal mis-decoded icon and a 360 x 420 size |
| AppStore.ShimManifest | src/apps/AppStore.tsx:71-75 | the generated manifest carries the derived key and title, the jigsaw icon and a 360 x 420 size |
| AppStore.Utf8Four | src/apps/AppStore.tsx:75 | a four-byte UTF-8 encoding: one lead byte and three continuation bytes |
| AppStore.ShimIconIsMojibake | src/apps/AppStore.tsx:75 | the literal icon is the jigsaw emoji's UTF-8 bytes read as Windows-1252, not the emoji |
| AppStore.InstallFromFile | src/apps/AppStore.tsx:39-89 | an evaluation error shows its message or the fallback and installs nothing; a manifest object is installed as it is under file://name; any other export installs the generated manifest as written, named from the file and carrying the literal icon; the url box is untouched |
| AppStore.IsManifestObject | src/apps/AppStore.tsx:58-59 | the file path's check: a non-null object with load, key, title and icon properties, whatever their values |
| AppStore.ComponentFileInstallsSlug | src/apps/AppStore.tsx:71-81 | a component file is listed under a slug key with the generated manifest's literal icon, a 360 x 420 size and a file:// url |
| AppStore.FileManifestNotChecked | src/apps/AppStore.tsx:60-68 | the file path installs an object whose key is undefined, which the url path would reject |
| ImportStrip.Replace | src/apps/AppStore.tsx:46-47 | one global replacement of a newline-anchored pattern never lengthens the text |
| ImportStrip.StripImportsAsWritten | src/apps/AppStore.tsx:46-47 | stripping the imports never lengthens the text |
| ImportStrip.ImportLineRemoved | src/apps/AppStore.tsx:46 | a React import line after a newline is removed together with its own newline, and the lines around it are kept |
| ImportStrip.FirstLineKept | src/apps/AppStore.tsx:46-47 | text before the first newline passes through the replacement unchanged |
| ImportStrip.FirstLineImportKept | src/apps/AppStore.tsx:46-47 | as written, a React import on the first line survives |
| ImportStrip.UsualHeaderKept | src/apps/AppStore.tsx:46-47 | the usual first line `import React from 'react';` survives |
| ImportStrip.PassFromStart | src/apps/AppStore.tsx:46-47 | a replacement pass that also matches at the start never lengthens the text |
| ImportStrip.StripImports | src/apps/AppStore.tsx:46-47 | the corrected stripping never lengthens the text |
| ImportStrip.FirstLineImportRemoved | src/apps/AppStore.tsx:46-47 | corrected, a first-line React import and its newline are gone: the result is no longer than the rest, and a newline-free rest is exactly what remains |
| FileNames.LastDot | src/apps/AppStore.tsx:71 | the position of the last '.', or -1 |
| FileNames.BaseName | src/apps/AppStore.tsx:71 | the base name is a prefix of the name; exactly a final extension of at least one character is dropped |
| FileNames.DropRun | src/apps/AppStore.tsx:72-73 | a maximal leading run of class characters is removed |
| FileNames.CollapseRuns | src/apps/AppStore.tsx:72-73 | collapsing runs never lengthens the text, empties only the empty text, and agrees with the per-character reading: characters outside the class are copied in order and each maximal run of class characters becomes one replacement |
| FileNames.DropRunRunwise | src/apps/AppStore.tsx:72-73 | inside a run, reading on character by character is the same as skipping to the run's end |
| FileNames.RunwiseNoRuns | src/apps/AppStore.tsx:72-73 | text without class characters reads through unchanged |
| FileNames.RunwiseOneGap | src/apps/AppStore.tsx:72-73 | one class character between two stretches of other text becomes one replacement |
| FileNames.CollapseKeepsSlugChars | src/apps/AppStore.tsx:72 | the key's collapse keeps every letter and digit, in order |
| FileNames.CollapseRunsShape | src/apps/AppStore.tsx:72-73 | after collapsing, class characters are isolated copies of the replacement |
| FileNames.CollapseIsolated | src/apps/AppStore.tsx:72-73 | text that is already collapsed is unchanged |
| FileNames.CollapseNoRuns | src/apps/AppStore.tsx:72-73 | text without class characters is unchanged |
| FileNames.TrimDash | src/apps/AppStore.tsx:72 | the result is the text with a leading '-' removed exactly when there is one, a trailing '-' removed exactly when there is one, and the middle kept |
| FileNames.TrimDashKeepsSlugChars | src/apps/AppStore.tsx:72 | trimming the edge dashes keeps every letter and digit, in order |
| FileNames.TrimDashSlug | src/apps/AppStore.tsx:72 | a collapsed string with its edge dashes trimmed is a slug or empty |
| FileNames.DeriveKey | src/apps/AppStore.tsx:72 | the derived key is a slug (non-empty, `[a-z0-9-]`, no edge or doubled '-') holding the lower-cased name's letters and digits in order, or 'my-app' when the name has none; when it has some, the key is the per-character collapse of the lower-cased name (one '-' for each maximal run of other characters) with an edge '-' trimmed at each end |
| FileNames.SampleDeriveKey | src/apps/AppStore.tsx:72 | 'Hello World' gets the key 'hello-world' |
| FileNames.DeriveKeyOfSlug | src/apps/AppStore.tsx:72 | a slug is its own key |
| FileNames.DeriveKeyIdempotent | src/apps/AppStore.tsx:72 | deriving a key twice is deriving it once |
| FileNames.DeriveKeyFallback | src/apps/AppStore.tsx:72 | a name with nothing usable gets 'my-app' |
| FileNames.CapitalizeWords | src/apps/AppStore.tsx:73 | a word character that starts a word is upper-cased and everything else is kept |
| FileNames.DeriveTitle | src/apps/AppStore.tsx:73 | the title has no '-' or '_', every word starts upper-case, it matches the collapsed name ignoring case and in length, and every character of the collapsed name that does not start a word is kept as it is |
| FileNames.CapitalizeCollapsed | src/apps/AppStore.tsx:73 | capitalising text whose separators are already collapsed leaves no '-' or '_', starts every word upper-case and changes only case |
| FileNames.SampleDeriveTitle | src/apps/AppStore.tsx:73 | 'hi_there' gets the title 'Hi There' |
| FileNames.DeriveTitleIdempotent | src/apps/AppStore.tsx:73 | a title derived from a title is unchanged |
| FileNames.SampleBaseName | src/apps/AppStore.tsx:71 | 'hi_there.js' has the base name 'hi_there' |
| Urls.Absolutize | src/ui/App.tsx:75 | a url with a scheme is kept; any other url is put under the origin with exactly one '/' between |
| Urls.HasScheme | src/apps/AppStore.tsx:18 | (definition) `/^https?:\/\//i`: the text starts with http:// or https://, ignoring ASCII case |
| Urls.AbsolutizeIdempotent | src/apps/AppStore.tsx:18 | against an origin with a scheme the result has a scheme, so making it absolute twice changes nothing |
| Urls.EnsureHttpUrl | src/ui/StartMenu.tsx:14-18 | blank gives ''; the result otherwise has a scheme and is the trimmed input, prefixed with https:// when it had no scheme |
| Urls.EnsureHttpUrlIdempotent | src/apps/WebApp.tsx:3-7 | ensuring a scheme twice is ensuring it once |
| WebApp.IsProbablyUrl | src/apps/WebApp.tsx:9-15 | blank is not a url and a scheme makes one; otherwise text without a space is a url exactly when it has a '.' past its first character |
| WebApp.BuildSearchUrl | src/apps/WebApp.tsx:17-19 | the Google search prefix followed by the encoded trimmed query |
| WebApp.OpenTarget | src/apps/WebApp.tsx:95-96 | a probable url is opened with a scheme ensured; anything else becomes a search |
| WebApp.OpenTargetHasScheme | src/apps/WebApp.tsx:103-104 | the new-tab target always has a scheme, so blank input opens an empty search |
| WebApp.NormalizeInput | src/apps/WebApp.tsx:40-46 | blank gives ''; text with a scheme or a '.' gets a scheme ensured; anything else becomes a DuckDuckGo query |
| WebApp.NormalizeInputHasScheme | src/apps/WebApp.tsx:40-46 | the normalised input is empty exactly for blank input and has a scheme otherwise |
| WebApp.ProbableUrlNormalizesAlike | src/apps/WebApp.tsx:9-46 | any probable url normalises to the same url as the new-tab target |
| WebApp.NormalizeUrlStable | src/apps/WebApp.tsx:40-46 | a normalised url normalises to itself |
| WebApp.TrimIsHttp | src/apps/WebApp.tsx:3-7 | a url with a scheme ensured is already trimmed |
| WebApp.MapToSupported | src/apps/WebApp.tsx:21-38 | a Google url goes to DuckDuckGo's search for its query, bare when the query is empty; any other url is the url with a scheme ensured |
| WebApp.ToProxyUrl | src/apps/WebApp.tsx:48-53 | '' for an empty url, else the reader proxy's prefix followed by the supported url |
| WebApp.ProxyOfPlainUrl | src/apps/WebApp.tsx:48-53 | away from Google, the proxy url is empty exactly for blank input and otherwise proxies a url with a scheme |
| TicTacToe.WinnerFrom | public/apps/tic-tac-toe.mjs:39-49 | the mark of the first won line from a given line on, with every line before it not won, or none when none of them is won |
| TicTacToe.GetWinner | public/apps/tic-tac-toe.mjs:39-49 | a mark exactly when some line holds three of it, and then the mark of the first such line in scan order |
| TicTacToe.Status | public/apps/tic-tac-toe.mjs:7 | the status names the winner, a draw on a full board, or the player to move |
| TicTacToe.Click | public/apps/tic-tac-toe.mjs:8-14 | a filled cell or a decided game ignores the click; otherwise only that cell gets the current mark and the turn passes |
| TicTacToe.Reset | public/apps/tic-tac-toe.mjs:15 | nine empty cells with X to move |
| TicTacToe.CountUpdate | public/apps/tic-tac-toe.mjs:10-13 | writing one cell changes each mark's count by what was taken out and put in |
| TicTacToe.CountEmpty | public/apps/tic-tac-toe.mjs:15 | the empty board holds no marks |
| TicTacToe.ResetBalanced | public/apps/tic-tac-toe.mjs:15 | a new game is balanced: X has as many marks as O, and it is X's turn |
| TicTacToe.ClickBalanced | public/apps/tic-tac-toe.mjs:8-14 | every click keeps X at O's count or one more, with the turn following the counts |
| TicTacToe.WonGameFrozen | public/apps/tic-tac-toe.mjs:9 | once a line is won no click changes the game |
| TicTacToe.FullBoardFrozen | public/apps/tic-tac-toe.mjs:9 | a full board accepts no click |
| Snake.GridSize | public/apps/snake.mjs:9 | the grid holds only whole 16-pixel cells |
| Snake.CanvasGrid | public/apps/snake.mjs:9 | the 300 x 300 canvas is 18 x 18 cells |
| Snake.WrapOnGrid | public/apps/snake.mjs:19-21 | a head one step off the grid wraps back onto it |
| Snake.Wrap | public/apps/snake.mjs:20-21 | a coordinate on the grid is kept; below 0 it becomes the last cell, at or past the edge it becomes 0 |
| Snake.NextHead | public/apps/snake.mjs:19-21 | the head moves one cell along the heading, is unchanged by wrapping when it stays on the grid, and from a cell on the grid with a unit heading lands on the grid |
| Snake.Initial | public/apps/snake.mjs:10-13 | one segment, running, score 0, heading in a unit direction |
| Snake.Tick | public/apps/snake.mjs:17-30 | a stopped game stays; a head on any segment stops it; food grows the snake and the score, otherwise the tail follows |
| Snake.TickLength | public/apps/snake.mjs:23-25 | a tick adds one segment and one point, or keeps both |
| Snake.TickKeepsShape | public/apps/snake.mjs:17-30 | the snake stays on the grid and never overlaps itself |
| Snake.OnKey | public/apps/snake.mjs:31-36 | ArrowUp heads up unless the snake moves down, ArrowDown down unless it moves up, ArrowLeft left unless it moves right, ArrowRight right unless it moves left; any other key, or a blocked arrow, keeps the heading |
| Snake.KeyNeverReverses | public/apps/snake.mjs:31-36 | from a unit direction a key press never reverses it |
| Calendar.CellAt | src/apps/CalendarApp.tsx:7-8 | the leading blanks, then the days 1 to n in order, then blanks |
| Calendar.GetMonthMatrix | src/apps/CalendarApp.tsx:3-12 | rows of seven cells, each the flattened grid's cell, with just enough rows for the month |
| Calendar.DayOnce | src/apps/CalendarApp.tsx:3-12 | every day of the month sits in exactly one cell |
| Calendar.DayPosition | src/apps/CalendarApp.tsx:3-12 | each day sits at the row and column given by its offset from the first weekday |
| Calendar.ViewMonth | src/apps/CalendarApp.tsx:17 | the month shown is the current month plus the offset, with month overflow carried into the year |
| Calendar.ArrowsStepOneMonth | src/apps/CalendarApp.tsx:24-27 | the arrows step one month each way and undo each other; Today returns to the current month |
| Calendar.Prev | src/apps/CalendarApp.tsx:24 | (definition) the offset one month back |
| Calendar.Next | src/apps/CalendarApp.tsx:26 | (definition) the offset one month on |
| Calendar.Today | src/apps/CalendarApp.tsx:27 | (definition) the offset back to 0 |
| Calendar.IsToday | src/apps/CalendarApp.tsx:19 | a blank cell is never today |
| Calendar.TodayHighlightedOnce | src/apps/CalendarApp.tsx:19 | exactly today's cell is highlighted in today's month, and none in any other month |
| Phone.AppendDigit | src/apps/PhoneApp.tsx:50-52 | the typed number is extended by the key and cut to its first 32 characters: unchanged when it fits, otherwise exactly the first 32 |
| Phone.Backspace | src/apps/PhoneApp.tsx:54 | the last character goes; an empty number stays empty |
| Phone.ClearAll | src/apps/PhoneApp.tsx:55 | the number is emptied: backspace has nothing left to remove and the next keys start a new number |
| Phone.AppendThenBackspace | src/apps/PhoneApp.tsx:50-54 | typing a key and pressing backspace gives the number back while there is room |
| Phone.LoadRecents | src/apps/PhoneApp.tsx:11-21 | the stored list, or empty when it is missing, unparsable or not a list |
| Phone.PlaceCall | src/apps/PhoneApp.tsx:62-66 | blank input changes nothing; otherwise the trimmed number goes first and the list keeps the 20 newest |
| Phone.PlaceCallBounded | src/apps/PhoneApp.tsx:62-66 | the recents never exceed 20 |
| Phone.DeleteRecent | src/apps/PhoneApp.tsx:80-82 | exactly the entries with the id go |
| Phone.DeleteRecentKeepsOrder | src/apps/PhoneApp.tsx:80-82 | deleting distributes over concatenation and a single entry goes exactly when it has the id, so the kept entries stay in order with their multiplicity |
| Phone.DeleteRecentMissing | src/apps/PhoneApp.tsx:80-82 | deleting an unlisted id changes nothing, and deleting twice is deleting once |
| Phone.IsMacIgnoresCase | src/apps/PhoneApp.tsx:69 | the Mac test gives the same answer for a user agent and its lower-case form |
| Phone.IsMac | src/apps/PhoneApp.tsx:70 | (definition) the user agent contains Macintosh or Mac OS X, ignoring ASCII case |
| Phone.CallTarget | src/apps/PhoneApp.tsx:69-73 | a Mac calls through FaceTime audio, anything else through a tel: link, with the trimmed number encoded |
| Todo.Add | src/apps/TodoApp.tsx:21-26 | blank text changes nothing; otherwise an open item with the trimmed text goes first and the box clears |
| Todo.Toggle | src/apps/TodoApp.tsx:27 | exactly the items with the id flip their done flag |
| Todo.ToggleTwice | src/apps/TodoApp.tsx:27 | toggling twice restores the list |
| Todo.Remove | src/apps/TodoApp.tsx:28 | exactly the items with the id go |
| Todo.RemoveKeepsOrder | src/apps/TodoApp.tsx:28 | removing distributes over concatenation and a single item goes exactly when it has the id, so the kept items stay in order with their multiplicity |
| Todo.Remaining | src/apps/TodoApp.tsx:29 | the count equals the number of positions holding an item that is not done, so it is 0 exactly when every item is done |
| Todo.AddOpensOne | src/apps/TodoApp.tsx:21-29 | adding an item raises the open count by one |
| Todo.ToggleClosesOne | src/apps/TodoApp.tsx:27-29 | closing one open item lowers the open count by one |
| NotesPlus.Add | src/apps/NotesPlusApp.tsx:15-19 | an empty 'Untitled' note goes first and is selected |
| NotesPlus.Remove | src/apps/NotesPlusApp.tsx:20-23 | exactly the notes with the id go; the selection clears only when it was that note |
| NotesPlus.RemoveKeepsOrder | src/apps/NotesPlusApp.tsx:20-23 | removing distributes over concatenation and a single note goes exactly when it has the id, so the kept notes stay in order with their multiplicity |
| NotesPlus.Update | src/apps/NotesPlusApp.tsx:24 | the patch is merged into the notes with the id and their time refreshed; other notes are untouched |
| NotesPlus.Current | src/apps/NotesPlusApp.tsx:25 | the shown note is the first listed note with the selected id, or none when no note has it |
| NotesPlus.AddSelectsNew | src/apps/NotesPlusApp.tsx:15-25 | after an add the editor shows the new note |
| NotesPlus.RemoveSelectedShowsNothing | src/apps/NotesPlusApp.tsx:20-25 | after removing the selected note nothing is shown |
| NotesPlus.UpdateKeepsCurrent | src/apps/NotesPlusApp.tsx:24-25 | an edit never changes which note is shown |
| Shortcuts.InitialItems | src/apps/ShortcutsApp.tsx:6-8 | the stored list, or empty when nothing readable is stored; a non-list value has no list |
| Shortcuts.Initial | src/apps/ShortcutsApp.tsx:6-11 | the first state shows the stored list with empty boxes and the rocket icon |
| Shortcuts.Save | src/apps/ShortcutsApp.tsx:13-16 | the list shown and the list stored both become the new list |
| Shortcuts.Add | src/apps/ShortcutsApp.tsx:18-23 | nothing unless both trimmed boxes are non-empty; then the shortcut goes last, is saved, and the boxes clear |
| Shortcuts.Remove | src/apps/ShortcutsApp.tsx:31 | exactly the shortcuts with the id go, and the list is saved |
| Shortcuts.RemoveKeepsOrder | src/apps/ShortcutsApp.tsx:31 | removing distributes over concatenation and a single shortcut goes exactly when it has the id, so the kept shortcuts stay in order with their multiplicity |
| Shortcuts.ChangesPersist | src/apps/ShortcutsApp.tsx:13-31 | after an add or a remove, a reload reads back the list shown |
| Calculator.Append | src/apps/CalculatorApp.tsx:7-9 | the expression is extended by the key and cut to 64 characters: unchanged when it fits, otherwise exactly the first 64 |
| Calculator.Backspace | src/apps/CalculatorApp.tsx:11 | the last character goes; an empty expression stays empty |
| Calculator.Allowed | src/apps/CalculatorApp.tsx:15 | (definition) a character that `[^0-9+\-*/().%\s]` does not match: a digit, one of + - * / ( ) . %, or JavaScript whitespace |
| Calculator.ClearAll | src/apps/CalculatorApp.tsx:10 | both lines clear |
| Calculator.Evaluate | src/apps/CalculatorApp.tsx:12-23 | a character outside the alphabet, or a rejected expression, shows 'Error' and keeps the expression; otherwise the value replaces it |
| Calculator.RejectedNotEvaluated | src/apps/CalculatorApp.tsx:15 | an expression the check rejects never reaches the evaluator |
| Calculator.ButtonsAllowed | src/apps/CalculatorApp.tsx:25-27 | every keypad button types characters the check allows |
| Calculator.EditsKeepAllowed | src/apps/CalculatorApp.tsx:7-15 | typing allowed text and deleting keep an expression the check accepts |
| Text.Trim | src/apps/TodoApp.tsx:22 | the result has no whitespace at its ends and sits inside the text with only whitespace before and after it |
| Text.TrimAround | src/apps/TodoApp.tsx:22 | what the trim cuts from the front and from the back is whitespace |
| Text.TrimIdempotent | src/apps/TodoApp.tsx:22 | trimming twice is trimming once |
| Text.TrimEmptyIffBlank | src/apps/TodoApp.tsx:22 | text trims to empty exactly when it is all whitespace |
| Text.Lower | src/apps/AppStore.tsx:72 | ASCII letters are lower-cased and nothing else changes |
| Text.NatToString | src/apps/TimerApp.tsx:29 | the decimal digits of a number, with no leading zero |
| Text.DecimalOfNatToString | src/apps/TimerApp.tsx:29 | the rendered digits read back as the number |
| Text.PadStart2 | src/apps/TimerApp.tsx:29-30 | a string padded on the left with '0' to two characters |
| Text.Pad2 | src/apps/TimerApp.tsx:29-30 | at least two digits reading back as the number, exactly two below 100 |
| Text.Pad2IsPadStart | src/apps/TimerApp.tsx:29-30 | the padded number is its rendering padded to two characters |
| Clock.MinSec | src/apps/TimerApp.tsx:29-30 | the read-out has a ':' three from the end and is five characters below 100 minutes |
| Clock.MinSecReadsBack | public/apps/pomodoro.mjs:17-18 | the read-out parses back to minutes and seconds below 60 that make up the count |
| Clock.MinSecCenti | src/apps/StopwatchApp.tsx:22-24 | the read-out has a ':' six from the end and a '.' three from the end |
| Clock.MinSecCentiReadsBack | src/apps/StopwatchApp.tsx:22-24 | the read-out parses back to minutes, seconds below 60 and hundredths below 100 that make up the count in hundredths |
| Timer.Initial | src/apps/TimerApp.tsx:4-8 | the first render is 00:30, stopped, with no end time |
| Timer.Settle | src/apps/TimerApp.tsx:27 | a stopped timer shows its whole duration; a running one is untouched |
| Timer.Display | src/apps/TimerApp.tsx:29-30 | the read-out parses back to the seconds still to go: minutes before the colon, seconds below 60 after it |
| Timer.SetMinutes | src/apps/TimerApp.tsx:37 | a negative entry becomes 0 |
| Timer.SetSeconds | src/apps/TimerApp.tsx:38 | the entry is clamped to 0 .. 59 |
| Timer.CeilSeconds | src/apps/TimerApp.tsx:18 | the milliseconds rounded up to whole seconds, 0 exactly for 0 |
| Timer.Tick | src/apps/TimerApp.tsx:13-25 | a stopped timer ignores the frame; before the end it shows the time left rounded up; at the end it stops and shows the whole duration |
| Timer.StartAsWritten | src/apps/TimerApp.tsx:44 | starting a stopped timer sets the end a whole duration ahead; starting a running one leaves no end |
| Timer.StartWhileRunningStops | src/apps/TimerApp.tsx:13-25 | pressing Start while running stops the timer at the next frame |
| Timer.Start | src/apps/TimerApp.tsx:44 | every press sets the end a whole duration ahead and runs |
| Timer.StartCountsDown | src/apps/TimerApp.tsx:13-25 | after Start, frames before the end keep it running between 1 and the whole duration, and a frame at the end stops it |
| Timer.Pause | src/apps/TimerApp.tsx:45 | the timer stops and shows the whole duration |
| Timer.Reset | src/apps/TimerApp.tsx:32 | stopped, no end time, the whole duration shown |
| Timer.PauseThenStartRestarts | src/apps/TimerApp.tsx:27-45 | pausing and starting again shows the whole duration: progress is not kept |
| Stopwatch.Initial | src/apps/StopwatchApp.tsx:4-6 | zero, stopped, no anchor |
| Stopwatch.Tick | src/apps/StopwatchApp.tsx:9-18 | a stopped stopwatch ignores the frame; the first frame fixes the anchor so the time carries on; later frames show the time since the anchor |
| Stopwatch.ToggleAsWritten | src/apps/StopwatchApp.tsx:30 | only the running flag flips; the anchor stays |
| Stopwatch.Toggle | src/apps/StopwatchApp.tsx:30 | pausing also drops the anchor |
| Stopwatch.Reset | src/apps/StopwatchApp.tsx:20 | back to the first state |
| Stopwatch.PausedTimeCounted | src/apps/StopwatchApp.tsx:12-30 | with the app's button, the time spent paused is counted after a restart |
| Stopwatch.PausedTimeNotCounted | src/apps/StopwatchApp.tsx:9-18 | with the intended button, the read-out holds while paused and then grows only by the time since the restart |
| Stopwatch.TickTwice | src/apps/StopwatchApp.tsx:13 | once the anchor is fixed the read-out grows exactly as the clock does |
| Pomodoro.Initial | public/apps/pomodoro.mjs:4-5 | 25:00, stopped |
| Pomodoro.Tick | public/apps/pomodoro.mjs:7-16 | a paused timer ignores the tick; otherwise one second goes and the timer stops on reaching 0, but a running timer at 0 stays as it is |
| Pomodoro.Display | public/apps/pomodoro.mjs:17-18 | the read-out parses back to the seconds left: minutes before the colon, seconds below 60 after it |
| Pomodoro.Toggle | public/apps/pomodoro.mjs:22 | only the running flag flips |
| Pomodoro.Reset | public/apps/pomodoro.mjs:23 | back to 25:00, stopped |
| Pomodoro.RunCountsDown | public/apps/pomodoro.mjs:7-16 | n ticks from s > 0 seconds leave s - n, still running exactly while time is left |
| Pomodoro.SessionLength | public/apps/pomodoro.mjs:4-16 | a session from 25:00 ends after exactly 1500 ticks |
| Pomodoro.StartAtZeroRunsOn | public/apps/pomodoro.mjs:14-16 | started at 00:00 the timer never stops by itself |
| Desktop.PointerUp | src/ui/Desktop.tsx:10-19 | a mouse event changes nothing; any other event records the tap and launches exactly on a second tap of the same icon within 450 ms |
| Desktop.IsDoubleTap | src/ui/Desktop.tsx:13-16 | (definition) the same icon as the last tap, less than 450 ms after it |
| Desktop.TwoTapsLaunch | src/ui/Desktop.tsx:10-19 | two taps on one icon launch it exactly when the second is less than 450 ms after the first |
| Desktop.OtherIconInterrupts | src/ui/Desktop.tsx:13-15 | a tap on another icon in between breaks a double tap |
| Desktop.MouseIsTransparent | src/ui/Desktop.tsx:11 | a mouse event in between does not affect the detector |
| Desktop.TripleTapLaunchesTwice | src/ui/Desktop.tsx:15-18 | three quick taps launch twice |
| Storage.LoadList | src/ui/App.tsx:58-59 | the stored list, or empty when nothing readable is stored |
| Storage.StoreLoad | src/apps/registry.ts:36 | a written list reads back unchanged |
| Seqs.Take | src/apps/PhoneApp.tsx:51 | the first n elements, or all of them when there are fewer |
| Seqs.Filter | src/apps/registry.ts:40 | the kept elements are exactly those passing the test, and nothing is dropped when all pass |
| Seqs.FilterConcat | src/apps/registry.ts:40 | filtering distributes over concatenation |
| Seqs.FilterIdempotent | src/apps/registry.ts:40 | filtering twice is filtering once |
| Seqs.FilterSingle | src/apps/registry.ts:40 | a one-element list keeps its element exactly when it passes the test |
| Seqs.FilterCountsPositions | src/apps/TodoApp.tsx:29 | the filtered list is as long as the set of positions whose element passes the test |

## Left out

- Rendering, styling, pointer capture and the React effect scheduling are not modelled. Each effect is folded into the operation that triggers it.
- WindowManager: an id the manager has never seen falls back to `windows.find(id)!`, which throws in the code. BringToFront, ToggleMaximize, Drag and Resize require the id to be known.
- WindowManager.Minimize: requires the id to be in the state map. For an unknown id the code writes a partial record, which is not modelled.
- Registry: JSON cannot store a manifest's `load` function, so the nested manifest records only whether it has one (`hasLoad`).
- AppStore.ToManifest: a manifest's key, title or icon that is not a string is recorded as absent. JSON storage would keep a number or a boolean as such, and the launcher would show it, but the stored entry's fields are string-typed here.
- Storage write failures (quota, private mode) are not modelled. Every write succeeds.
- Storage: a stored array element that is `null` or not an object is not modelled. `Items(seq<T>)` holds only well-formed entries, while in the code such an element makes `a.key` throw when installing (src/apps/registry.ts:34) and `it.key` or `entry.key` throw inside the `try` of the launch (src/ui/App.tsx:60) and of the start menu's list (src/ui/StartMenu.tsx:53).
- AppStore.InstallFromFile: evaluating the generated shim is not modelled. The entry written is the literal manifest the shim contains (`ShimManifestAsWritten`: derived key and title, the mis-decoded icon, 360 x 420), so the contract names the generated code only by existence.
- AppStore: `fetchCatalog` (src/apps/AppStore.tsx:91-103) is not modelled. It only fills a display list from the network, and nothing else reads that list.
- Text.Lower: only ASCII letters are case-mapped. The non-ASCII special cases of `toLowerCase` and `toUpperCase` are not modelled.
- WebApp.MapToSupported: the `URL` parse, its host test and query decoding are a parameter.
- Calculator.Evaluate: JavaScript's evaluation of the expression and its floating-point result are a parameter.
- Todo and NotesPlus: loading the list from storage is not modelled. The code parses any stored JSON without checking that it is a list.
- Timer: `Number(...)` of a non-numeric or fractional input is not modelled. The boxes are whole numbers, and the clock is whole milliseconds.
- Stopwatch: the clock is whole milliseconds. The frame timestamps `requestAnimationFrame` passes are fractional, and the read-out floors them (src/apps/StopwatchApp.tsx:22-24); the model's `int` clock covers only whole-millisecond readings. The read-out of a negative elapsed time, which only a clock going backwards gives, is not modelled either. The one-frame lag before the first anchor is kept as the model's first Tick.
- Desktop: the mouse's native double-click launches directly and has no state. It is not a separate member.
- Shortcuts: opening a link in a new tab is not modelled, because it has no state.
- Phone: the `window.open` call and the `tel:` fallback navigation are not modelled. CallTarget gives the url they use.
- The other apps of the repository (paint, music, files, weather and so on) and the server code are not part of this model.

## Findings

| source | as written | input that shows it | evidently intended | confidence | as-written member | corrected member |
|---|---|---|---|---|---|---|
| src/apps/AppStore.tsx:75 | the generated manifest's icon literal is the jigsaw emoji's UTF-8 bytes read as Windows-1252 ('ðŸ§©') | any dropped component file, e.g. `hi_there.js` exporting a function | the jigsaw emoji U+1F9E9 that the launcher uses for installed apps | high, not executed | AppStore.ShimManifestAsWritten | AppStore.ShimManifest |
| src/apps/AppStore.tsx:46-47 | both import-stripping patterns start with `\n`, so an import on the first line is never matched | a file starting `import React from 'react';\n` | React imports are removed wherever they stand, the first line included | medium, not executed | ImportStrip.FirstLineImportKept | ImportStrip.FirstLineImportRemoved |
| src/apps/StopwatchApp.tsx:12-30 | pausing keeps the time anchor, so after a restart the read-out jumps by the time spent paused | start, tick at t, pause, start, tick at now > t | a paused stopwatch does not count the paused time | high, not executed | Stopwatch.PausedTimeCounted | Stopwatch.PausedTimeNotCounted |
| src/apps/TimerApp.tsx:13-44 | Start clears the end time, and the effect that sets a new end runs only when the running flag changes | press Start while the timer is running | a press of Start restarts the countdown | medium, not executed | Timer.StartWhileRunningStops | Timer.StartCountsDown |

=== FILE: app_store.dfy ===
/** The App Store's two installers: from a manifest url, and from a dropped file. The fetch,
    the module evaluation and `JSON.stringify` are parameters; the registry slot is part of
    the state. */
module AppStore {
  import opened Wrappers
  import opened Content
  import opened Text
  import opened Urls
  import opened JsValue
  import opened Storage
  import opened Registry
  import FileNames
  import ImportStrip
  import Entries

  /** The installer's visible state: the url box, the error banner, and the registry slot. */
  datatype Ui = Ui(url: string, error: Option<string>, store: Store)

  /** What `fetch` gives: a rejected promise with its message, or a response. */
  datatype Response = NetworkError(message: string) | Http(ok: bool, status: nat, body: string)

  /** What importing a blob of code gives: a thrown error's message, or the module. */
  datatype Evaluation = Threw(message: string) | Exports(mod: Val)

  const InvalidManifest := "Invalid manifest"
  const InstallFailed := "Install failed"
  const FileInstallFailed := "Install from file failed"

  /** `e?.message || fallback`. */
  function ErrorText(message: string, fallback: string): (r: string)
    ensures message != "" ==> r == message
    ensures message == "" ==> r == fallback
  {
    if message != "" then message else fallback
  }

  /** The check before every url install: the export and its key, title, icon and load are
      all truthy. */
  predicate ValidManifest(v: Val)
    ensures ValidManifest(v) ==> IsManifestObject(v)
  {
    Truthy(v) && Truthy(Get(v, "key")) && Truthy(Get(v, "title")) && Truthy(Get(v, "icon")) && Truthy(Get(v, "load"))
  }

  /** The fields of a manifest object that the registry records. A string field is kept and any
      other value is recorded as absent: `JSON.stringify` drops a function or `undefined`, and
      the stored entry's fields are string-typed. The size is kept when both its `width` and
      its `height` are numbers. */
  function ToManifest(v: Val): (m: Manifest)
    ensures Get(v, "key").Text? ==> m.key == Some(Get(v, "key").s)
    ensures m.key.Some? ==> Get(v, "key") == Text(m.key.value)
    ensures !Get(v, "key").Text? ==> m.key.None?
    ensures Get(v, "title").Text? ==> m.title == Some(Get(v, "title").s)
    ensures !Get(v, "title").Text? ==> m.title.None?
    ensures Get(v, "icon").Text? ==> m.icon == Some(Get(v, "icon").s)
    ensures !Get(v, "icon").Text? ==> m.icon.None?
    ensures var size := Get(v, "initialSize");
      Get(size, "width").Num? && Get(size, "height").Num? ==>
        m.initialSize == Some(Size(Get(size, "width").n, Get(size, "height").n))
    ensures var size := Get(v, "initialSize");
      !(Get(size, "width").Num? && Get(size, "height").Num?) ==> m.initialSize.None?
  {
    Manifest(AsString(Get(v, "key")), AsString(Get(v, "title")), AsString(Get(v, "icon")), AsSize(Get(v, "initialSize")))
  }

  /** The url text an install works on: the override (a catalog item's url) or the box. */
  function RawUrl(ui: Ui, override: Option<string>): string {
    Trim(override.GetOr(ui.url))
  }

  /** The url fetched and recorded: absolute against the page origin. */
  function SafeUrl(ui: Ui, override: Option<string>, origin: string): string {
    Absolutize(origin, RawUrl(ui, override))
  }

  /** The url install succeeds: the response is ok and its body evaluates to a module whose
      exported manifest passes the check. */
  predicate UrlInstallSucceeds(safe: string, fetch: string -> Response, evaluate: string -> Evaluation) {
    && fetch(safe).Http? && fetch(safe).ok
    && evaluate(fetch(safe).body).Exports?
    && ValidManifest(ExportedManifest(evaluate(fetch(safe).body).mod))
  }

  /** `installFromUrl`. A blank url does nothing. Otherwise the url is absolutised, fetched and
      evaluated; a non-ok status fails with 'HTTP <status>', an export failing the check fails
      with 'Invalid manifest', any other error shows its message (or 'Install failed'); only
      a manifest that passes the check is written, with the fetched code saved inline, and
      then the url box is cleared. A failure leaves the registry and the url box alone. */
  function InstallFromUrl(ui: Ui, override: Option<string>, origin: string,
                          fetch: string -> Response, evaluate: string -> Evaluation): (r: Ui)
    ensures RawUrl(ui, override) == "" ==> r == ui
    ensures RawUrl(ui, override) != "" ==>
      (r.error.None? <==> UrlInstallSucceeds(SafeUrl(ui, override, origin), fetch, evaluate))
    ensures r.error.Some? ==> r.store == ui.store && r.url == ui.url
    ensures RawUrl(ui, override) != "" && r.error.None? ==>
      var body := fetch(SafeUrl(ui, override, origin)).body;
      var m := ToManifest(ExportedManifest(evaluate(body).mod));
      r.url == "" && r.store == Install(ui.store, m, SafeUrl(ui, override, origin), Some(body)).1
    ensures (RawUrl(ui, override) != "" && fetch(SafeUrl(ui, override, origin)).Http?
      && !fetch(SafeUrl(ui, override, origin)).ok) ==>
      r.error == Some("HTTP " + NatToString(fetch(SafeUrl(ui, override, origin)).status))
    ensures (RawUrl(ui, override) != "" && fetch(SafeUrl(ui, override, origin)).Http? && fetch(SafeUrl(ui, override, origin)).ok
      && evaluate(fetch(SafeUrl(ui, override, origin)).body).Exports?
      && !ValidManifest(ExportedManifest(evaluate(fetch(SafeUrl(ui, override, origin)).body).mod))) ==>
      r.error == Some(InvalidManifest)
  {
    if RawUrl(ui, override) == "" then ui
    else InstallFetched(ui, SafeUrl(ui, override, origin), fetch, evaluate)
  }

  /** The fetch, evaluation, check and write of a url install, once the url is absolute. */
  function InstallFetched(ui: Ui, safe: string, fetch: string -> Response, evaluate: string -> Evaluation): (r: Ui)
    ensures r.error.None? <==> UrlInstallSucceeds(safe, fetch, evaluate)
    ensures r.error.Some? ==> r.store == ui.store && r.url == ui.url
    ensures r.error.None? ==>
      var body := fetch(safe).body;
      r.url == "" && r.store == Install(ui.store, ToManifest(ExportedManifest(evaluate(body).mod)), safe, Some(body)).1
    ensures fetch(safe).Http? && !fetch(safe).ok ==> r.error == Some("HTTP " + NatToString(fetch(safe).status))
    ensures (fetch(safe).Http? && fetch(safe).ok && evaluate(fetch(safe).body).Exports?
      && !ValidManifest(ExportedManifest(evaluate(fetch(safe).body).mod))) ==>
      r.error == Some(InvalidManifest)
  {
    match fetch(safe)
    case NetworkError(msg) => ui.(error := Some(ErrorText(msg, InstallFailed)))
    case Http(ok, status, body) =>
      if !ok then ui.(error := Some("HTTP " + NatToString(status)))
      else
        match evaluate(body)
        case Threw(msg) => ui.(error := Some(ErrorText(msg, InstallFailed)))
        case Exports(mod) =>
          var m := ExportedManifest(mod);
          if !ValidManifest(m) then ui.(error := Some(InvalidManifest))
          else Ui("", None, Install(ui.store, ToManifest(m), safe, Some(body)).1)
  }

  /** After a url install that writes, the launcher's reading of the registry finds an entry
      carrying the export's key, title and icon, whenever the three are strings. */
  lemma UrlInstallListsExport(ui: Ui, override: Option<string>, origin: string,
                              fetch: string -> Response, evaluate: string -> Evaluation)
    requires RawUrl(ui, override) != ""
    requires InstallFromUrl(ui, override, origin, fetch, evaluate).error.None?
    ensures var v := ExportedManifest(evaluate(fetch(SafeUrl(ui, override, origin)).body).mod);
      Get(v, "key").Text? && Get(v, "title").Text? && Get(v, "icon").Text? ==>
        exists e :: e in List(InstallFromUrl(ui, override, origin, fetch, evaluate).store)
          && Entries.EntryKey(e) == Some(Get(v, "key").s)
          && Entries.EntryTitle(e) == Get(v, "title").s
          && Entries.EntryIcon(e) == Get(v, "icon").s
  {
    var safe := SafeUrl(ui, override, origin);
    var body := fetch(safe).body;
    var v := ExportedManifest(evaluate(body).mod);
    var m := ToManifest(v);
    var after := Install(ui.store, m, safe, Some(body));
    var all := List(after.1);
    assert HasKey(all, m.key);
    var i :| 0 <= i < |all| && all[i].key == m.key;
    assert all[i] == after.0;
    Entries.InstalledEntryReadsBack(m, safe, Some(body), origin);
  }

  /** A url install that writes records the export's string key, and its url carries a
      scheme whenever the page origin does. */
  lemma UrlInstallRecordsAbsoluteUrl(ui: Ui, override: Option<string>, origin: string,
                                     fetch: string -> Response, evaluate: string -> Evaluation)
    requires HasScheme(origin)
    requires RawUrl(ui, override) != ""
    requires InstallFromUrl(ui, override, origin, fetch, evaluate).error.None?
    ensures HasScheme(SafeUrl(ui, override, origin))
    ensures var e := EntryFor(ToManifest(ExportedManifest(evaluate(fetch(SafeUrl(ui, override, origin)).body).mod)),
                              SafeUrl(ui, override, origin), Some(fetch(SafeUrl(ui, override, origin)).body));
      e in List(InstallFromUrl(ui, override, origin, fetch, evaluate).store)
  {
    AbsolutizeIdempotent(origin, RawUrl(ui, override));
    var safe := SafeUrl(ui, override, origin);
    var body := fetch(safe).body;
    var m := ToManifest(ExportedManifest(evaluate(body).mod));
    var after := Install(ui.store, m, safe, Some(body));
    var all := List(after.1);
    assert HasKey(all, m.key);
    var i :| 0 <= i < |all| && all[i].key == m.key;
    assert all[i] == after.0;
  }

  /** The check for a dropped file's export: a non-null object that has `load`, `key`,
      `title` and `icon` properties, whatever their values. */
  predicate IsManifestObject(v: Val)
    ensures IsManifestObject(v) ==> Truthy(v) && !Nullish(v)
  {
    v.Record? && Has(v, "load") && Has(v, "key") && Has(v, "title") && Has(v, "icon")
  }

  const ReactPrelude := "const React = globalThis.React;\n"
  const ReactMarker := "globalThis.React"

  /** The `globalThis.React` prelude: prepended exactly when the text does not mention it. */
  function Prelude(txt: string): (r: string)
    ensures Contains(r, ReactMarker)
    ensures Contains(txt, ReactMarker) ==> r == txt
    ensures !Contains(txt, ReactMarker) ==> r == ReactPrelude + txt
  {
    if Contains(txt, ReactMarker) then txt
    else
      PreludeMentionsMarker(txt);
      ReactPrelude + txt
  }

  lemma PreludeMentionsMarker(txt: string)
    ensures Contains(ReactPrelude + txt, ReactMarker)
  {
    assert ReactPrelude[14..14 + |ReactMarker|] == ReactMarker;
    assert OccursAt(ReactPrelude, ReactMarker, 14);
    ContainsInPrefix(ReactPrelude, txt, ReactMarker);
  }

  /** Preprocessing twice is preprocessing once. */
  lemma PreludeIdempotent(txt: string)
    ensures Prelude(Prelude(txt)) == Prelude(txt)
  {
  }

  /** The file's text as evaluated: React imports stripped as written, then the prelude. */
  function Preprocess(raw: string): (r: string)
    ensures Contains(r, ReactMarker)
    ensures var s := ImportStrip.StripImportsAsWritten(raw); |r| >= |s| && r[|r| - |s|..] == s
    ensures var s := ImportStrip.StripImportsAsWritten(raw); Contains(s, ReactMarker) ==> r == s
    ensures var s := ImportStrip.StripImportsAsWritten(raw); !Contains(s, ReactMarker) ==> r == ReactPrelude + s
  {
    Prelude(ImportStrip.StripImportsAsWritten(raw))
  }

  /** A React import on any line but the first is gone from the evaluated text: the file is
      evaluated as if the line and its newline had never been there. */
  lemma ImportLineNotEvaluated(pre: string, line: string, post: string)
    requires StartsWith(line, "import React") && forall k :: 0 <= k < |line| ==> line[k] != '\n'
    requires forall k :: 0 <= k < |pre| ==> pre[k] != '\n'
    requires forall k :: 0 <= k < |post| ==> post[k] != '\n'
    ensures Preprocess(pre + "\n" + line + "\n" + post) == Prelude(pre + "\n" + post)
  {
    ImportStrip.ImportLineRemoved(pre, line, post);
  }

  /** A file whose first line imports React and which never mentions `globalThis.React` is
      evaluated with the prelude's `React` declaration followed by its own React import. */
  lemma FirstLineImportEvaluated(line: string, rest: string)
    requires StartsWith(line, "import React") && forall k :: 0 <= k < |line| ==> line[k] != '\n'
    requires !Contains(ImportStrip.StripImportsAsWritten(line + "\n" + rest), ReactMarker)
    ensures StartsWith(Preprocess(line + "\n" + rest), ReactPrelude + line)
  {
    var stripped := ImportStrip.StripImportsAsWritten(line + "\n" + rest);
    ImportStrip.FirstLineImportKept(line, rest);
    assert stripped == line + stripped[|line|..];
    assert ReactPrelude + stripped == (ReactPrelude + line) + stripped[|line|..];
  }

  /** The icon the generated manifest carries, as written: the UTF-8 bytes of the jigsaw
      emoji read back as Windows-1252 text. */
  const ShimIconAsWritten := "\U{F0}\U{178}\U{A7}\U{A9}"

  /** The generated manifest as written, for a component file. */
  function ShimManifestAsWritten(key: string, title: string): (m: Manifest)
    ensures m.key == Some(key) && m.title == Some(title)
    ensures m.icon == Some(ShimIconAsWritten) && m.initialSize == Some(Size(360, 420))
  {
    Manifest(Some(key), Some(title), Some(ShimIconAsWritten), Some(Size(360, 420)))
  }

  /** The generated manifest with the icon the rest of the shell uses for installed apps. */
  function ShimManifest(key: string, title: string): (m: Manifest)
    ensures m.key == Some(key) && m.title == Some(title)
    ensures m.icon == Some(Entries.DefaultIcon) && m.initialSize == Some(Size(360, 420))
  {
    Manifest(Some(key), Some(title), Some(Entries.DefaultIcon), Some(Size(360, 420)))
  }

  /** UTF-8 encoding of a code point outside the Basic Multilingual Plane. */
  function Utf8Four(cp: int): (bytes: seq<int>)
    requires 0x10000 <= cp <= 0x10FFFF
    ensures |bytes| == 4 && 0xF0 <= bytes[0] <= 0xF4
    ensures forall i :: 1 <= i < 4 ==> 0x80 <= bytes[i] < 0xC0
  {
    [0xF0 + cp / 0x40000, 0x80 + (cp / 0x1000) % 64, 0x80 + (cp / 64) % 64, 0x80 + cp % 64]
  }

  /** Decoding one byte as Windows-1252; the five unassigned bytes decode to the C1 control
      of the same value, as browsers do. */
  function Cp1252(b: int): (c: char)
    requires 0 <= b < 256
  {
    match b
    case 0x80 => '\U{20AC}' case 0x82 => '\U{201A}' case 0x83 => '\U{192}' case 0x84 => '\U{201E}'
    case 0x85 => '\U{2026}' case 0x86 => '\U{2020}' case 0x87 => '\U{2021}' case 0x88 => '\U{2C6}'
    case 0x89 => '\U{2030}' case 0x8A => '\U{160}' case 0x8B => '\U{2039}' case 0x8C => '\U{152}'
    case 0x8E => '\U{17D}' case 0x91 => '\U{2018}' case 0x92 => '\U{2019}' case 0x93 => '\U{201C}'
    case 0x94 => '\U{201D}' case 0x95 => '\U{2022}' case 0x96 => '\U{2013}' case 0x97 => '\U{2014}'
    case 0x98 => '\U{2DC}' case 0x99 => '\U{2122}' case 0x9A => '\U{161}' case 0x9B => '\U{203A}'
    case 0x9C => '\U{153}' case 0x9E => '\U{17E}' case 0x9F => '\U{178}'
    case _ => b as char
  }

  /** The as-written icon is exactly the jigsaw emoji (U+1F9E9) encoded as UTF-8 and decoded
      as Windows-1252, and it is not the emoji itself. */
  lemma ShimIconIsMojibake()
    ensures Utf8Four(0x1F9E9) == [0xF0, 0x9F, 0xA7, 0xA9]
    ensures ShimIconAsWritten == [Cp1252(0xF0), Cp1252(0x9F), Cp1252(0xA7), Cp1252(0xA9)]
    ensures ShimIconAsWritten != Entries.DefaultIcon
    ensures Entries.DefaultIcon == "\U{1F9E9}"
  {
  }

  /** The generated module's fixed text after the icon, up to the quoted component code. */
  const ShimLoad := "',\n  initialSize: { width: 360, height: 420 },\n  load: async () => {\n    const url = URL.createObjectURL(new Blob(["
  /** The generated module's fixed text after the quoted component code. */
  const ShimTail := "], { type: 'text/javascript' }));\n    const mod = await import(url);\n    URL.revokeObjectURL(url);\n    return { default: mod.default || mod };\n  }\n};"

  /** The manifest module generated for a component file: `quote` is `JSON.stringify` of a
      string. */
  function ShimCode(key: string, title: string, icon: string, component: string, quote: string -> string): string {
    "export default {\n  key: " + quote(key) + ",\n  title: " + quote(title) + ",\n  icon: '" + icon
    + ShimLoad + quote(component) + ShimTail
  }

  /** `installFromFile`. The text is preprocessed and evaluated; an export that looks like a
      manifest object is installed as it is, recorded under 'file://<name>' with the
      preprocessed text inline. Any other export is taken as a bare component: a manifest is
      generated with the key and title derived from the file name, and installed with the
      generated code inline. An evaluation error shows its message, or
      'Install from file failed'. The url box is not touched. */
  function InstallFromFile(ui: Ui, fileName: string, text: string,
                           evaluate: string -> Evaluation, quote: string -> string): (r: Ui)
    ensures r.url == ui.url
    ensures r.error.Some? <==> evaluate(Preprocess(text)).Threw?
    ensures r.error.Some? ==> r.store == ui.store
    ensures r.error.Some? ==> r.error == Some(ErrorText(evaluate(Preprocess(text)).message, FileInstallFailed))
    ensures evaluate(Preprocess(text)).Exports? && IsManifestObject(ExportedManifest(evaluate(Preprocess(text)).mod)) ==>
      r.store == Install(ui.store, ToManifest(ExportedManifest(evaluate(Preprocess(text)).mod)),
                         "file://" + fileName, Some(Preprocess(text))).1
    ensures evaluate(Preprocess(text)).Exports? && !IsManifestObject(ExportedManifest(evaluate(Preprocess(text)).mod)) ==>
      var base := FileNames.BaseName(fileName);
      exists code :: r.store == Install(ui.store, ShimManifestAsWritten(FileNames.DeriveKey(base), FileNames.DeriveTitle(base)),
                                        "file://" + fileName, Some(code)).1
  {
    var pre := Preprocess(text);
    match evaluate(pre)
    case Threw(msg) => ui.(error := Some(ErrorText(msg, FileInstallFailed)))
    case Exports(mod) =>
      var maybe := ExportedManifest(mod);
      if IsManifestObject(maybe) then
        ui.(error := None, store := Install(ui.store, ToManifest(maybe), "file://" + fileName, Some(pre)).1)
      else
        var base := FileNames.BaseName(fileName);
        var key := FileNames.DeriveKey(base);
        var title := FileNames.DeriveTitle(base);
        var code := ShimCode(key, title, ShimIconAsWritten, pre, quote);
        ui.(error := None, store := Install(ui.store, ShimManifestAsWritten(key, title), "file://" + fileName, Some(code)).1)
  }

  /** A component file is installed under a slug key: non-empty, `[a-z0-9-]` only, no edge or
      doubled '-'; the entry carries the generated manifest's literal icon and a 360 x 420
      size. */
  lemma ComponentFileInstallsSlug(ui: Ui, fileName: string, text: string,
                                  evaluate: string -> Evaluation, quote: string -> string)
    requires evaluate(Preprocess(text)).Exports?
    requires !IsManifestObject(ExportedManifest(evaluate(Preprocess(text)).mod))
    ensures var all := List(InstallFromFile(ui, fileName, text, evaluate, quote).store);
      exists i :: 0 <= i < |all| && all[i].key.Some? && FileNames.IsSlug(all[i].key.value)
        && all[i].icon == Some(ShimIconAsWritten) && all[i].initialSize == Some(Size(360, 420))
        && all[i].manifestUrl == Some("file://" + fileName)
  {
    var base := FileNames.BaseName(fileName);
    var key := FileNames.DeriveKey(base);
    var title := FileNames.DeriveTitle(base);
    var code := ShimCode(key, title, ShimIconAsWritten, Preprocess(text), quote);
    var after := Install(ui.store, ShimManifestAsWritten(key, title), "file://" + fileName, Some(code));
    var all := List(after.1);
    assert HasKey(all, Some(key));
    var i :| 0 <= i < |all| && all[i].key == Some(key);
    assert all[i] == after.0;
  }

  /** The file path installs whatever a manifest object carries, without the url path's
      truthiness check: an object whose key is undefined is still written, keyless. */
  lemma FileManifestNotChecked(ui: Ui, fileName: string, text: string,
                               evaluate: string -> Evaluation, quote: string -> string)
    requires evaluate(Preprocess(text)).Exports?
    requires IsManifestObject(ExportedManifest(evaluate(Preprocess(text)).mod))
    requires Get(ExportedManifest(evaluate(Preprocess(text)).mod), "key") == Undefined
    ensures !ValidManifest(ExportedManifest(evaluate(Preprocess(text)).mod))
    ensures var all := List(InstallFromFile(ui, fileName, text, evaluate, quote).store);
      exists i :: 0 <= i < |all| && all[i].key.None? && all[i].manifestUrl == Some("file://" + fileName)
  {
    var m := ExportedManifest(evaluate(Preprocess(text)).mod);
    var after := Install(ui.store, ToManifest(m), "file://" + fileName, Some(Preprocess(text)));
    var all := List(after.1);
    assert ToManifest(m).key == None;
    assert HasKey(all, None);
    var i :| 0 <= i < |all| && all[i].key == None;
    assert all[i] == after.0;
  }
}

=== FILE: calculator.dfy ===
/** The calculator mini-app: the expression typed so far (at most 64 characters), the error
    line, and `=`, which rejects any character outside the arithmetic alphabet before handing
    the expression to JavaScript. JavaScript's evaluation of the expression is a parameter:
    `None` when it throws, otherwise the `String` of its value. */
module Calculator {
  import opened Wrappers
  import opened Text
  import Seqs

  datatype State = State(expr: string, error: string)

  const MaxLength := 64
  const ErrorText := "Error"

  /** The keypad, row by row. */
  const Buttons: seq<string> := ["7", "8", "9", "/", "4", "5", "6", "*", "1", "2", "3", "-", "0", ".", "%", "+"]

  /** A character the `=` check lets through: digits, `+ - * / ( ) . %` and JavaScript
      whitespace. */
  predicate Allowed(c: char) {
    IsDigit(c) || c in "+-*/()." || c == '%' || IsSpace(c)
  }

  predicate AllAllowed(s: string) {
    forall i :: 0 <= i < |s| ==> Allowed(s[i])
  }

  /** A key press: the text is appended and the expression cut to 64 characters. */
  function Append(st: State, t: string): (r: State)
    ensures |r.expr| <= MaxLength
    ensures StartsWith(st.expr + t, r.expr)
    ensures |st.expr + t| <= MaxLength ==> r.expr == st.expr + t
    ensures |st.expr + t| > MaxLength ==> |r.expr| == MaxLength
    ensures r.error == st.error
  {
    st.(expr := Seqs.Take(st.expr + t, MaxLength))
  }

  /** Backspace: the last character goes; an empty expression stays empty. */
  function Backspace(st: State): (r: State)
    ensures st.expr == "" ==> r.expr == ""
    ensures st.expr != "" ==> r.expr + [st.expr[|st.expr| - 1]] == st.expr
    ensures r.error == st.error
  {
    st.(expr := if st.expr == "" then "" else st.expr[..|st.expr| - 1])
  }

  /** C: both lines clear. */
  function ClearAll(): (r: State)
    ensures r.expr == "" && r.error == ""
  {
    State("", "")
  }

  /** `=`: a character outside the alphabet, or an expression JavaScript rejects, shows
      "Error" and keeps the expression; otherwise the value replaces the expression and the
      error line clears. The empty expression is evaluated as "0". */
  function Evaluate(st: State, compute: string -> Option<string>): (r: State)
    ensures !AllAllowed(st.expr) ==> r == st.(error := ErrorText)
    ensures AllAllowed(st.expr) && compute(if st.expr == "" then "0" else st.expr).None? ==> r == st.(error := ErrorText)
    ensures AllAllowed(st.expr) && compute(if st.expr == "" then "0" else st.expr).Some? ==>
      r == State(compute(if st.expr == "" then "0" else st.expr).value, "")
  {
    if !AllAllowed(st.expr) then st.(error := ErrorText)
    else
      match compute(if st.expr == "" then "0" else st.expr)
      case None => st.(error := ErrorText)
      case Some(v) => State(v, "")
  }

  /** A rejected expression never reaches JavaScript: the outcome is the same whatever the
      evaluator would do. */
  lemma RejectedNotEvaluated(st: State, f: string -> Option<string>, g: string -> Option<string>)
    requires !AllAllowed(st.expr)
    ensures Evaluate(st, f) == Evaluate(st, g)
  {
  }

  /** Every keypad button types allowed characters. */
  lemma ButtonsAllowed()
    ensures forall i :: 0 <= i < |Buttons| ==> AllAllowed(Buttons[i])
  {
  }

  /** Typing allowed text and deleting keep an expression the `=` check accepts. */
  lemma EditsKeepAllowed(st: State, t: string)
    requires AllAllowed(st.expr) && AllAllowed(t)
    ensures AllAllowed(Append(st, t).expr)
    ensures AllAllowed(Backspace(st).expr)
  {
    var all := st.expr + t;
    assert forall i :: 0 <= i < |all| ==> Allowed(all[i]) by {
      forall i | 0 <= i < |all|
        ensures Allowed(all[i])
      {
        if i < |st.expr| {
          assert all[i] == st.expr[i];
        } else {
          assert all[i] == t[i - |st.expr|];
        }
      }
    }
  }
}

=== FILE: calendar.dfy ===
/** The calendar mini-app: the month grid built from the month's first weekday and its day
    count (both come from the JavaScript `Date` in the app and are parameters here), the
    month offset the arrows move, and the highlight test for today's cell. */
module Calendar {
  import opened Wrappers

  /** What the flattened grid holds at position `i`: the leading blanks, the days 1 to
      `days` in order, then blanks. */
  function CellAt(startDay: nat, days: nat, i: nat): (r: Option<nat>)
    ensures r.Some? <==> startDay <= i < startDay + days
    ensures r.Some? ==> 1 <= r.value <= days && i == startDay + r.value - 1
  {
    if startDay <= i < startDay + days then Some(i - startDay + 1) else None
  }

  /** `getMonthMatrix`: rows of seven cells. */
  method GetMonthMatrix(startDay: nat, days: nat) returns (rows: seq<seq<Option<nat>>>)
    ensures forall r :: 0 <= r < |rows| ==> |rows[r]| == 7
    ensures forall r, c :: 0 <= r < |rows| && 0 <= c < 7 ==> rows[r][c] == CellAt(startDay, days, 7 * r + c)
    ensures startDay + days <= 7 * |rows| < startDay + days + 7
  {
    var cells: seq<Option<nat>> := [];
    while |cells| < startDay
      invariant |cells| <= startDay
      invariant forall k :: 0 <= k < |cells| ==> cells[k] == None
    {
      cells := cells + [None];
    }
    var d := 0;
    while d < days
      invariant d <= days && |cells| == startDay + d
      invariant forall k :: 0 <= k < |cells| ==> cells[k] == CellAt(startDay, days, k)
    {
      d := d + 1;
      cells := cells + [Some(d)];
    }
    ghost var full := ((startDay + days + 6) / 7) * 7;
    while |cells| % 7 != 0
      invariant startDay + days <= |cells| <= full
      invariant forall k :: 0 <= k < |cells| ==> cells[k] == CellAt(startDay, days, k)
      decreases full - |cells|
    {
      cells := cells + [None];
    }
    rows := [];
    var i := 0;
    while i < |cells|
      invariant i <= |cells| && i == 7 * |rows|
      invariant forall r :: 0 <= r < |rows| ==> rows[r] == cells[7 * r..7 * r + 7]
    {
      rows := rows + [cells[i..i + 7]];
      i := i + 7;
    }
    forall r, c | 0 <= r < |rows| && 0 <= c < 7 ensures rows[r][c] == CellAt(startDay, days, 7 * r + c) {
      assert rows[r][c] == cells[7 * r + c];
    }
  }

  /** Every day of the month sits in exactly one cell. */
  lemma DayOnce(startDay: nat, days: nat, day: nat, i: nat, j: nat)
    requires CellAt(startDay, days, i) == Some(day) && CellAt(startDay, days, j) == Some(day)
    ensures i == j
  {
  }

  /** Day `day` of the month sits in row `(startDay + day - 1) / 7`, column
      `(startDay + day - 1) % 7`. */
  lemma DayPosition(startDay: nat, days: nat, day: nat)
    requires 1 <= day <= days
    ensures CellAt(startDay, days, 7 * ((startDay + day - 1) / 7) + (startDay + day - 1) % 7) == Some(day)
  {
  }

  /** The month shown: the offset arrows step the month, and the `Date` constructor carries
      month overflow into the year. Months are 0 to 11. */
  function ViewMonth(year: int, month: int, offset: int): (r: (int, int))
    ensures 0 <= r.1 < 12
    ensures r.0 * 12 + r.1 == year * 12 + month + offset
  {
    (year + (month + offset) / 12, (month + offset) % 12)
  }

  function Prev(offset: int): int {
    offset - 1
  }

  function Next(offset: int): int {
    offset + 1
  }

  function Today(offset: int): int {
    0
  }

  /** The arrows step one month each way and undo each other. */
  lemma ArrowsStepOneMonth(year: int, month: int, offset: int)
    requires 0 <= month < 12
    ensures var n := ViewMonth(year, month, Next(offset)); var v := ViewMonth(year, month, offset);
      n.0 * 12 + n.1 == v.0 * 12 + v.1 + 1
    ensures Prev(Next(offset)) == offset && Next(Prev(offset)) == offset
    ensures ViewMonth(year, month, Today(offset)) == (year, month)
  {
  }

  /** `isToday`: a blank cell is never today; a day is today when the view shows today's
      month and the day number matches. */
  function IsToday(cell: Option<nat>, today: (int, int, nat), view: (int, int)): (r: bool)
    ensures cell.None? ==> !r
  {
    cell.Some? && today.0 == view.0 && today.1 == view.1 && today.2 == cell.value
  }

  /** In the grid of today's month exactly one cell is highlighted, the one holding today's
      date; in any other month none is. */
  lemma TodayHighlightedOnce(startDay: nat, days: nat, today: (int, int, nat), view: (int, int), i: nat)
    requires 1 <= today.2 <= days
    ensures IsToday(CellAt(startDay, days, i), today, view) <==>
      (view == (today.0, today.1) && i == startDay + today.2 - 1)
  {
  }
}

=== FILE: catalog.dfy ===
/** The static catalog of built-in apps. */
module Catalog {
  import opened Wrappers
  import opened Content

  /** A launchable built-in app. */
  datatype CatalogApp = CatalogApp(key: string, title: string, icon: string, initialSize: Option<Size>, content: Content)

  function App(key: string, title: string, icon: string, w: int, h: int, component: string): CatalogApp {
    CatalogApp(key, title, icon, Some(Size(w, h)), Builtin(component))
  }

  /** `appsCatalog`, in declaration order. */
  const Apps: seq<CatalogApp> := [
    App("notes", "Notes", "\U{1F4DD}", 320, 420, "NotesApp"),
    App("calc", "Calculator", "\U{1F522}", 300, 420, "CalculatorApp"),
    App("clock", "Clock", "\U{23F0}", 320, 280, "ClockApp"),
    App("phone", "Phone", "\U{1F4DE}", 340, 520, "PhoneApp"),
    App("google", "Google", "\U{1F50E}", 360, 520, "GoogleApp"),
    App("weather", "Weather", "\U{1F324}\U{FE0F}", 360, 580, "WeatherApp"),
    App("settings", "Settings", "\U{2699}\U{FE0F}", 340, 360, "SettingsApp"),
    App("app-store", "App Store", "\U{1F6CD}\U{FE0F}", 380, 560, "AppStore"),
    App("todo", "To-Do", "\U{2705}", 340, 520, "TodoApp"),
    App("files", "Files", "\U{1F5C2}\U{FE0F}", 360, 480, "FilesApp"),
    App("stopwatch", "Stopwatch", "\U{23F1}\U{FE0F}", 320, 320, "StopwatchApp"),
    App("timer", "Timer", "\U{23F2}\U{FE0F}", 320, 360, "TimerApp"),
    App("sketch", "Sketch", "\U{270F}\U{FE0F}", 360, 520, "SketchApp"),
    App("angry-birds", "Angry Birds", "\U{1F426}", 360, 520, "AngryBirdsApp"),
    App("shortcuts", "External Shortcuts", "\U{1F517}", 380, 520, "ShortcutsApp")
  ]

  /** `appsCatalog.find(a => a.key === key)`: the first entry with the key. */
  function Find(key: string): (r: Option<CatalogApp>)
    ensures r.Some? ==> r.value in Apps && r.value.key == key
    ensures r.None? <==> forall i :: 0 <= i < |Apps| ==> Apps[i].key != key
  {
    FindIn(Apps, key)
  }

  function FindIn(apps: seq<CatalogApp>, key: string): (r: Option<CatalogApp>)
    ensures r.Some? ==> r.value in apps && r.value.key == key
    ensures r.None? <==> forall i :: 0 <= i < |apps| ==> apps[i].key != key
  {
    if apps == [] then None
    else if apps[0].key == key then Some(apps[0])
    else FindIn(apps[1..], key)
  }

  /** The fifteen catalog keys are pairwise distinct. */
  lemma KeysDistinct()
    ensures |Apps| == 15
    ensures forall i, j | 0 <= i < j < |Apps| :: Apps[i].key != Apps[j].key
  {
  }

  /** Every entry has an initial size, and every size already respects the resize floors. */
  lemma SizesRespectFloors()
    ensures forall i | 0 <= i < |Apps| ::
      Apps[i].initialSize.Some? && Apps[i].initialSize.value.width >= 260 && Apps[i].initialSize.value.height >= 220
  {
  }

  /** The key 'app-store' finds the App Store component. */
  lemma AppStorePresent()
    ensures Find("app-store").Some?
    ensures Find("app-store").value.content == Builtin("AppStore")
    ensures Find("app-store").value.title == "App Store"
  {
    assert forall i | 0 <= i < 7 :: Apps[i].key != "app-store";
    FindFirst(Apps, "app-store", 7);
  }

  /** The search returns the first entry carrying the key. */
  lemma {:induction false} FindFirst(apps: seq<CatalogApp>, key: string, j: nat)
    requires j < |apps| && apps[j].key == key
    requires forall i | 0 <= i < j :: apps[i].key != key
    ensures FindIn(apps, key) == Some(apps[j])
  {
    if j > 0 {
      FindFirst(apps[1..], key, j - 1);
    }
  }

  /** A key outside the catalog is not found. */
  lemma UnknownKeyNotFound()
    ensures Find("does-not-exist").None?
  {
    assert forall i | 0 <= i < |Apps| :: Apps[i].key != "does-not-exist";
  }
}

=== FILE: clock.dfy ===
/** The `mm:ss` and `mm:ss.cc` read-outs the timer, the pomodoro and the stopwatch show, each
    field `String(n).padStart(2, '0')`. */
module Clock {
  import opened Text

  /** `a`, the separator, then `b`; each part can be cut back out. */
  function Join(a: string, sep: char, b: string): (r: string)
    ensures |r| == |a| + 1 + |b|
    ensures r[..|a|] == a && r[|a|] == sep && r[|a| + 1..] == b
  {
    a + [sep] + b
  }

  /** Cutting a joined read-out at the separator gives back both digit fields. */
  lemma JoinDigits(a: string, sep: char, b: string)
    requires AllDigits(a) && AllDigits(b) && |b| == 2
    ensures var r := Join(a, sep, b);
      && |r| == |a| + 3 && r[|r| - 3] == sep
      && AllDigits(r[..|r| - 3]) && AllDigits(r[|r| - 2..])
      && DecimalValue(r[..|r| - 3]) == DecimalValue(a) && DecimalValue(r[|r| - 2..]) == DecimalValue(b)
  {
    var r := Join(a, sep, b);
    assert r[..|r| - 3] == a;
    assert r[|r| - 2..] == b;
  }

  /** Minutes and seconds of a count of seconds, `mm:ss`; five characters below 100 minutes. */
  function MinSec(total: nat): (r: string)
    ensures |r| >= 5 && r[|r| - 3] == ':'
    ensures total < 6000 ==> |r| == 5
  {
    Join(Pad2(total / 60), ':', Pad2(total % 60))
  }

  /** `r` reads as `total` seconds in `mm:ss` form: the digits before the last ':' are the
      minutes, the two after it the seconds, below 60. */
  predicate ShowsMinSec(r: string, total: nat) {
    && |r| >= 5 && r[|r| - 3] == ':'
    && AllDigits(r[..|r| - 3]) && AllDigits(r[|r| - 2..])
    && DecimalValue(r[|r| - 2..]) < 60
    && DecimalValue(r[..|r| - 3]) * 60 + DecimalValue(r[|r| - 2..]) == total
  }

  /** The `mm:ss` read-out parses back to the count: the digits before the last ':' are the
      minutes, the two after it the seconds, below 60. */
  lemma MinSecReadsBack(total: nat)
    ensures var r := MinSec(total);
      && AllDigits(r[..|r| - 3]) && AllDigits(r[|r| - 2..])
      && DecimalValue(r[|r| - 2..]) < 60
      && DecimalValue(r[..|r| - 3]) * 60 + DecimalValue(r[|r| - 2..]) == total
  {
    var m, sec := total / 60, total % 60;
    MinSecSplit(total);
    var a, b := Pad2(m), Pad2(sec);
    assert MinSec(total) == Join(a, ':', b);
    JoinDigits(a, ':', b);
  }

  lemma MinSecSplit(total: nat)
    ensures total % 60 < 60
    ensures (total / 60) * 60 + total % 60 == total
  {
  }

  /** Minutes, seconds and hundredths of a count of milliseconds, `mm:ss.cc`. */
  function MinSecCenti(ms: nat): (r: string)
    ensures |r| >= 8 && r[|r| - 6] == ':' && r[|r| - 3] == '.'
  {
    Join(Pad2(ms / 60000), ':', Join(Pad2((ms % 60000) / 1000), '.', Pad2((ms % 1000) / 10)))
  }

  /** Cutting `mm:ss.cc` at the ':' gives back the minutes and the `ss.cc` tail. */
  lemma JoinTail(a: string, t: string)
    requires |t| == 5
    ensures var r := Join(a, ':', t);
      && |r| == |a| + 6 && r[|r| - 6] == ':' && r[|r| - 3] == t[2]
      && r[..|r| - 6] == a && r[|r| - 5..] == t
  {
    var r := Join(a, ':', t);
    assert r[|r| - 5..] == t;
  }

  /** The `mm:ss.cc` read-out parses back to the count in hundredths of a second. */
  lemma MinSecCentiReadsBack(ms: nat)
    ensures var r := MinSecCenti(ms);
      && AllDigits(r[..|r| - 6]) && AllDigits(r[|r| - 5..|r| - 3]) && AllDigits(r[|r| - 2..])
      && DecimalValue(r[|r| - 5..|r| - 3]) < 60 && DecimalValue(r[|r| - 2..]) < 100
      && DecimalValue(r[..|r| - 6]) * 6000 + DecimalValue(r[|r| - 5..|r| - 3]) * 100 + DecimalValue(r[|r| - 2..]) == ms / 10
  {
    CentiSplit(ms);
    CentiFieldsReadBack(ms / 60000, (ms % 60000) / 1000, (ms % 1000) / 10);
  }

  lemma CentiFieldsReadBack(m: nat, s: nat, c: nat)
    requires s < 60 && c < 100
    ensures var r := Join(Pad2(m), ':', Join(Pad2(s), '.', Pad2(c)));
      && |r| >= 8 && r[|r| - 6] == ':' && r[|r| - 3] == '.'
      && AllDigits(r[..|r| - 6]) && AllDigits(r[|r| - 5..|r| - 3]) && AllDigits(r[|r| - 2..])
      && DecimalValue(r[..|r| - 6]) == m && DecimalValue(r[|r| - 5..|r| - 3]) == s && DecimalValue(r[|r| - 2..]) == c
  {
    var a, t := Pad2(m), Join(Pad2(s), '.', Pad2(c));
    JoinDigits(Pad2(s), '.', Pad2(c));
    JoinTail(a, t);
    var r := Join(a, ':', t);
    assert r[|r| - 5..|r| - 3] == t[..|t| - 3];
    assert r[|r| - 2..] == t[|t| - 2..];
  }

  lemma CentiSplit(ms: nat)
    ensures (ms % 60000) / 1000 < 60 && (ms % 1000) / 10 < 100
    ensures (ms / 60000) * 6000 + ((ms % 60000) / 1000) * 100 + (ms % 1000) / 10 == ms / 10
  {
    var m, rest := ms / 60000, ms % 60000;
    var s, t := rest / 1000, rest % 1000;
    assert ms == 1000 * (60 * m + s) + t;
    DivModBy(ms, 60 * m + s, t, 1000);
    assert ms == 10 * (6000 * m + 100 * s + t / 10) + t % 10;
    DivModBy(ms, 6000 * m + 100 * s + t / 10, t % 10, 10);
  }

  /** Division with remainder is unique. */
  lemma DivModBy(x: int, q: int, r: int, d: int)
    requires d > 0 && 0 <= r < d && x == d * q + r
    ensures x / d == q && x % d == r
  {
    if x / d > q {
      MulAtLeast(d, x / d - q);
    } else if x / d < q {
      MulAtLeast(d, q - x / d);
    }
  }

  lemma MulAtLeast(d: int, k: int)
    requires d > 0 && k >= 1
    ensures d * k >= d
  {
  }
}

=== FILE: content.dfy ===
/** Values shared by the window manager, the launchers and the catalogs. */
module Content {
  import opened Wrappers

  /** A window size in pixels. */
  datatype Size = Size(width: int, height: int)

  /** How the component of a dynamically installed app is obtained the first time its
      window renders (the body of the lazy loader built for an installed entry). */
  datatype LoadPlan =
    | InvalidManifestPlaceholder      // no manifestUrl and no stored `manifest.load`: a 'Invalid manifest' placeholder
    | StoredManifestLoad              // no manifestUrl: call the stored `manifest.load()`
    | EvaluateCode(code: string)      // evaluate the inline manifest code saved at install time
    | FetchAndEvaluate(url: string)   // fetch the manifest text from an absolute url, then evaluate it

  /** The content of a window: a built-in component, or a lazily loaded installed app.
      `blobKey` is the blob-url cache key used by the launcher (none when launched by key). */
  datatype Content =
    | Builtin(component: string)
    | Lazy(plan: LoadPlan, blobKey: Option<string>)
}

=== FILE: desktop.dfy ===
/** The desktop's double-tap detector for touch and pen input: the last tap's time and icon,
    and the rule that a second tap on the same icon within 450 ms launches it. Mouse input is
    left to the browser's native double click. The clock reading is a parameter. */
module Desktop {

  datatype Tap = Tap(time: int, key: string)

  const DoubleTapMs := 450

  /** Before any tap: time 0 and no icon. */
  function Initial(): Tap {
    Tap(0, "")
  }

  /** A quick second tap on the same icon. */
  predicate IsDoubleTap(last: Tap, appKey: string, now: int) {
    last.key == appKey && now - last.time < DoubleTapMs
  }

  /** Pointer-up on an icon: the new last tap and whether the icon launches. A mouse event
      changes nothing; any other records this tap and launches on a double tap. */
  function PointerUp(last: Tap, appKey: string, pointerType: string, now: int): (r: (Tap, bool))
    ensures pointerType == "mouse" ==> r == (last, false)
    ensures pointerType != "mouse" ==> r.0 == Tap(now, appKey)
    ensures pointerType != "mouse" ==> (r.1 <==> last.key == appKey && now - last.time < 450)
  {
    if pointerType == "mouse" then (last, false)
    else (Tap(now, appKey), IsDoubleTap(last, appKey, now))
  }

  /** Two taps on one icon launch it exactly when the second comes less than 450 ms after
      the first, whatever came before. */
  lemma TwoTapsLaunch(last: Tap, appKey: string, kind: string, t1: int, t2: int)
    requires kind != "mouse"
    ensures PointerUp(PointerUp(last, appKey, kind, t1).0, appKey, kind, t2).1 <==> t2 - t1 < 450
  {
  }

  /** A tap on another icon in between breaks a double tap. */
  lemma OtherIconInterrupts(last: Tap, a: string, b: string, kind: string, t1: int, t2: int, t3: int)
    requires kind != "mouse" && a != b
    ensures var s1 := PointerUp(PointerUp(last, a, kind, t1).0, b, kind, t2).0;
      !PointerUp(s1, a, kind, t3).1
  {
  }

  /** A mouse event in between is invisible to the detector. */
  lemma MouseIsTransparent(last: Tap, appKey: string, other: string, kind: string, t: int, now: int)
    requires kind != "mouse"
    ensures PointerUp(PointerUp(last, other, "mouse", t).0, appKey, kind, now) == PointerUp(last, appKey, kind, now)
  {
  }

  /** A tap that launches also counts as the first tap of the next pair, so three quick taps
      launch twice. */
  lemma TripleTapLaunchesTwice(last: Tap, appKey: string, kind: string, t1: int, t2: int, t3: int)
    requires kind != "mouse" && t1 <= t2 < t1 + 450 && t2 <= t3 < t2 + 450
    ensures var s1 := PointerUp(last, appKey, kind, t1).0;
      var s2 := PointerUp(s1, appKey, kind, t2);
      s2.1 && PointerUp(s2.0, appKey, kind, t3).1
  {
  }
}

=== FILE: entries.dfy ===
/** How the shell reads one stored registry entry when it builds a window or a menu item:
    the `entry.x ?? entry.manifest?.x` fallbacks, the defaults, and the plan of the lazy
    loader. The launch dispatcher and the start menu read entries identically. */
module Entries {
  import opened Wrappers
  import opened Content
  import opened Text
  import opened Urls
  import opened Registry

  const DefaultTitle := "App"
  const DefaultIcon := "\U{1F9E9}"

  /** `entry.key ?? entry.manifest?.key`. */
  function EntryKey(e: StoredEntry): (r: Option<string>)
    ensures e.key.Some? ==> r == e.key
    ensures e.key.None? && e.manifest.Some? ==> r == e.manifest.value.key
    ensures e.key.None? && e.manifest.None? ==> r.None?
  {
    e.key.OrElse(if e.manifest.Some? then e.manifest.value.key else None)
  }

  /** `entry.title ?? entry.manifest?.title ?? 'App'`. */
  function EntryTitle(e: StoredEntry): (r: string)
    ensures e.title.Some? ==> r == e.title.value
    ensures e.title.None? && e.manifest.Some? && e.manifest.value.title.Some? ==> r == e.manifest.value.title.value
    ensures e.title.None? && (e.manifest.None? || e.manifest.value.title.None?) ==> r == DefaultTitle
  {
    e.title.OrElse(if e.manifest.Some? then e.manifest.value.title else None).GetOr(DefaultTitle)
  }

  /** `entry.icon ?? entry.manifest?.icon ?? '🧩'`. */
  function EntryIcon(e: StoredEntry): (r: string)
    ensures e.icon.Some? ==> r == e.icon.value
    ensures e.icon.None? && e.manifest.Some? && e.manifest.value.icon.Some? ==> r == e.manifest.value.icon.value
    ensures e.icon.None? && (e.manifest.None? || e.manifest.value.icon.None?) ==> r == DefaultIcon
  {
    e.icon.OrElse(if e.manifest.Some? then e.manifest.value.icon else None).GetOr(DefaultIcon)
  }

  /** `entry.initialSize ?? entry.manifest?.initialSize`. */
  function EntrySize(e: StoredEntry): (r: Option<Size>)
    ensures e.initialSize.Some? ==> r == e.initialSize
    ensures e.initialSize.None? && e.manifest.Some? ==> r == e.manifest.value.initialSize
    ensures e.initialSize.None? && e.manifest.None? ==> r.None?
  {
    e.initialSize.OrElse(if e.manifest.Some? then e.manifest.value.initialSize else None)
  }

  /** The branch the lazy loader takes. A missing or empty `manifestUrl` falls back to the
      stored manifest's `load` (or the placeholder); otherwise the saved inline code wins over
      fetching, and a fetched url is absolutised against the page origin. */
  function PlanFor(e: StoredEntry, origin: string): (p: LoadPlan)
    ensures e.manifestUrl.None? || e.manifestUrl == Some("") ==>
      (p.StoredManifestLoad? <==> e.manifest.Some? && e.manifest.value.hasLoad)
      && (p.StoredManifestLoad? || p.InvalidManifestPlaceholder?)
    ensures e.manifestUrl.Some? && e.manifestUrl != Some("") && e.inlineManifestCode.Some? ==>
      p == EvaluateCode(e.inlineManifestCode.value)
    ensures p.FetchAndEvaluate? <==>
      e.manifestUrl.Some? && e.manifestUrl != Some("") && e.inlineManifestCode.None?
    ensures p.FetchAndEvaluate? ==> p.url == Absolutize(origin, e.manifestUrl.value)
  {
    if e.manifestUrl.None? || e.manifestUrl.value == "" then
      if e.manifest.Some? && e.manifest.value.hasLoad then StoredManifestLoad else InvalidManifestPlaceholder
    else if e.inlineManifestCode.Some? then EvaluateCode(e.inlineManifestCode.value)
    else FetchAndEvaluate(Absolutize(origin, e.manifestUrl.value))
  }

  /** An entry as `Registry.Install` writes it (no nested manifest) reads back the installed
      manifest's key, title, icon and size, with the defaults for absent title and icon, and
      loads from its inline code when it has some, else from its manifest url. */
  lemma InstalledEntryReadsBack(m: Manifest, url: string, inline: Option<string>, origin: string)
    ensures var e := EntryFor(m, url, inline);
      && EntryKey(e) == m.key
      && EntryTitle(e) == m.title.GetOr(DefaultTitle)
      && EntryIcon(e) == m.icon.GetOr(DefaultIcon)
      && EntrySize(e) == m.initialSize
      && (url != "" && inline.Some? ==> PlanFor(e, origin) == EvaluateCode(inline.value))
      && (url != "" && inline.None? ==> PlanFor(e, origin) == FetchAndEvaluate(Absolutize(origin, url)))
      && (url == "" ==> PlanFor(e, origin) == InvalidManifestPlaceholder)
  {
  }

  /** The top-level fields win over the nested manifest's, field by field. */
  lemma TopLevelWins(e: StoredEntry)
    ensures e.key.Some? ==> EntryKey(e) == e.key
    ensures e.title.Some? ==> EntryTitle(e) == e.title.value
    ensures e.icon.Some? ==> EntryIcon(e) == e.icon.value
    ensures e.initialSize.Some? ==> EntrySize(e) == e.initialSize
    ensures e.manifest.None? ==> EntryKey(e) == e.key && EntrySize(e) == e.initialSize
  {
  }

  /** The position of the first entry whose effective key is `key` (`installed.find`). */
  function FindEntry(es: seq<StoredEntry>, key: string): (r: Option<nat>)
    ensures r.Some? ==> r.value < |es| && EntryKey(es[r.value]) == Some(key)
    ensures r.Some? ==> forall j :: 0 <= j < r.value ==> EntryKey(es[j]) != Some(key)
    ensures r.None? <==> forall j :: 0 <= j < |es| ==> EntryKey(es[j]) != Some(key)
  {
    if es == [] then None
    else if EntryKey(es[0]) == Some(key) then Some(0)
    else
      var rest := FindEntry(es[1..], key);
      if rest.None? then None else Some(rest.value + 1)
  }
}

=== FILE: file_names.dfy ===
/** The key and title the installer derives from a dropped file's name when the file is a
    bare component rather than a manifest. */
module FileNames {
  import opened Text
  import Seqs

  /** The position of the last '.' in `s`, if any. */
  function LastDot(s: string): (r: int)
    ensures -1 <= r < |s|
    ensures r >= 0 ==> s[r] == '.'
    ensures forall i :: r < i < |s| ==> s[i] != '.'
  {
    if s == [] then -1
    else if s[|s| - 1] == '.' then |s| - 1
    else LastDot(s[..|s| - 1])
  }

  /** `name.replace(/\.[^.]+$/, '')`: drop the last extension, a '.' followed by at least one
      character up to the end with no further '.'. A name ending in '.' keeps it. */
  function BaseName(name: string): (r: string)
    ensures StartsWith(name, r)
    ensures r != name ==>
      (|name| - |r| >= 2 && name[|r|] == '.' && forall i :: |r| < i < |name| ==> name[i] != '.')
    ensures r == name ==> forall i :: 0 <= i < |name| - 1 ==> name[i] != '.' || exists j | i < j < |name| :: name[j] == '.'
  {
    var d := LastDot(name);
    if d >= 0 && d < |name| - 1 then name[..d] else name
  }

  /** The two character classes whose runs the derivations collapse: `[^a-z0-9]` for the key
      and `[-_]` for the title. */
  datatype RunClass = NonSlug | Separators

  predicate InClass(k: RunClass, c: char) {
    match k
    case NonSlug => !IsSlugChar(c)
    case Separators => IsSeparator(c)
  }

  /** No two neighbouring characters are both in the class. */
  predicate NoAdjacent(s: string, k: RunClass) {
    forall i, j | 0 <= i < |s| && 0 <= j < |s| && j == i + 1 :: !(InClass(k, s[i]) && InClass(k, s[j]))
  }

  /** `s` without its maximal leading run of class characters. */
  function DropRun(s: string, k: RunClass): (r: string)
    ensures |r| <= |s| && r == s[|s| - |r|..]
    ensures r == [] || !InClass(k, r[0])
  {
    if s == [] || !InClass(k, s[0]) then s else DropRun(s[1..], k)
  }

  /** The replacement read one character at a time: a character outside the class is copied,
      a class character that opens a run (`prevIn` false: nothing or a character outside the
      class comes before it) becomes `rep`, and every later character of the run is dropped. */
  function RunwiseCollapse(s: string, k: RunClass, rep: char, prevIn: bool): string
    decreases |s|
  {
    if s == [] then []
    else if !InClass(k, s[0]) then [s[0]] + RunwiseCollapse(s[1..], k, rep, false)
    else if prevIn then RunwiseCollapse(s[1..], k, rep, true)
    else [rep] + RunwiseCollapse(s[1..], k, rep, true)
  }

  /** Inside a run, reading on is the same as skipping to the run's end. */
  lemma {:induction false} DropRunRunwise(s: string, k: RunClass, rep: char)
    ensures RunwiseCollapse(s, k, rep, true) == RunwiseCollapse(DropRun(s, k), k, rep, false)
    decreases |s|
  {
    if s != [] && InClass(k, s[0]) {
      DropRunRunwise(s[1..], k, rep);
    }
  }

  /** `s.replace(/[class]+/g, rep)`: every maximal run of characters in the class becomes one
      `rep`, and every character outside the class is kept, in order. */
  function CollapseRuns(s: string, k: RunClass, rep: char): (r: string)
    ensures |r| <= |s|
    ensures r == [] <==> s == []
    ensures r == RunwiseCollapse(s, k, rep, false)
    decreases |s|
  {
    if s == [] then []
    else if InClass(k, s[0]) then
      DropRunRunwise(s[1..], k, rep);
      [rep] + CollapseRuns(DropRun(s, k), k, rep)
    else [s[0]] + CollapseRuns(s[1..], k, rep)
  }

  /** Letters and digits pass through the key's collapse unchanged and in order. */
  lemma {:induction false} RunwiseKeepsSlugChars(s: string, prevIn: bool)
    ensures Seqs.Filter(RunwiseCollapse(s, NonSlug, '-', prevIn), IsSlugChar) == Seqs.Filter(s, IsSlugChar)
    decreases |s|
  {
    if s != [] {
      RunwiseKeepsSlugChars(s[1..], InClass(NonSlug, s[0]));
      var t := RunwiseCollapse(s[1..], NonSlug, '-', InClass(NonSlug, s[0]));
      if !InClass(NonSlug, s[0]) || !prevIn {
        var h := if InClass(NonSlug, s[0]) then '-' else s[0];
        assert ([h] + t)[0] == h && ([h] + t)[1..] == t;
      }
    }
  }

  /** Text without class characters reads through unchanged, wherever it starts. */
  lemma {:induction false} RunwiseNoRuns(s: string, k: RunClass, rep: char, prevIn: bool)
    requires forall i :: 0 <= i < |s| ==> !InClass(k, s[i])
    ensures RunwiseCollapse(s, k, rep, prevIn) == s
    decreases |s|
  {
    if s != [] {
      RunwiseNoRuns(s[1..], k, rep, false);
    }
  }

  lemma CollapseKeepsSlugChars(s: string)
    ensures Seqs.Filter(CollapseRuns(s, NonSlug, '-'), IsSlugChar) == Seqs.Filter(s, IsSlugChar)
  {
    RunwiseKeepsSlugChars(s, false);
  }

  /** Predicate form of the shape the collapse leaves: every character is `rep` or outside the
      class, and no two class characters are neighbours. */
  predicate Collapsed(r: string, k: RunClass, rep: char) {
    (forall i :: 0 <= i < |r| ==> r[i] == rep || !InClass(k, r[i])) && NoAdjacent(r, k)
  }

  lemma {:induction false} CollapseRunsShape(s: string, k: RunClass, rep: char)
    ensures Collapsed(CollapseRuns(s, k, rep), k, rep)
    ensures s != [] && !InClass(k, s[0]) ==> CollapseRuns(s, k, rep)[0] == s[0]
    decreases |s|
  {
    if s != [] {
      if InClass(k, s[0]) {
        var rest := DropRun(s, k);
        CollapseRunsShape(rest, k, rep);
        ConsCollapsed(rep, CollapseRuns(rest, k, rep), k, rep);
      } else {
        CollapseRunsShape(s[1..], k, rep);
        ConsCollapsed(s[0], CollapseRuns(s[1..], k, rep), k, rep);
      }
    }
  }

  lemma ConsCollapsed(c: char, tail: string, k: RunClass, rep: char)
    requires Collapsed(tail, k, rep)
    requires c == rep || !InClass(k, c)
    requires InClass(k, c) && tail != [] ==> !InClass(k, tail[0])
    ensures Collapsed([c] + tail, k, rep)
  {
    var r := [c] + tail;
    forall i, j | 0 <= i < |r| && 0 <= j < |r| && j == i + 1 ensures !(InClass(k, r[i]) && InClass(k, r[j])) {
      if i > 0 {
        assert r[i] == tail[i - 1] && r[j] == tail[j - 1];
      }
    }
  }

  /** A string whose class characters are isolated copies of `rep` is left as it is. */
  lemma {:induction false} CollapseIsolated(s: string, k: RunClass, rep: char)
    requires forall i :: 0 <= i < |s| && InClass(k, s[i]) ==> s[i] == rep
    requires NoAdjacent(s, k)
    ensures CollapseRuns(s, k, rep) == s
    decreases |s|
  {
    if s != [] {
      var rest := s[1..];
      TailIsolated(s, k, rep);
      CollapseIsolated(rest, k, rep);
      if InClass(k, s[0]) {
        DropSingle(s, k);
      }
    }
  }

  lemma TailIsolated(s: string, k: RunClass, rep: char)
    requires s != []
    requires forall i :: 0 <= i < |s| && InClass(k, s[i]) ==> s[i] == rep
    requires NoAdjacent(s, k)
    ensures forall i :: 0 <= i < |s[1..]| && InClass(k, s[1..][i]) ==> s[1..][i] == rep
    ensures NoAdjacent(s[1..], k)
  {
    var t := s[1..];
    forall i, j | 0 <= i < |t| && 0 <= j < |t| && j == i + 1 ensures !(InClass(k, t[i]) && InClass(k, t[j])) {
      assert t[i] == s[i + 1] && t[j] == s[j + 1];
    }
  }

  lemma DropSingle(s: string, k: RunClass)
    requires s != [] && InClass(k, s[0]) && NoAdjacent(s, k)
    ensures DropRun(s, k) == s[1..]
  {
    assert |s| == 1 || !InClass(k, s[1]);
  }

  /** A string without class characters is left as it is. */
  lemma CollapseNoRuns(s: string, k: RunClass, rep: char)
    requires forall i :: 0 <= i < |s| ==> !InClass(k, s[i])
    ensures CollapseRuns(s, k, rep) == s
  {
    CollapseIsolated(s, k, rep);
  }

  predicate IsSlugChar(c: char) {
    'a' <= c <= 'z' || '0' <= c <= '9'
  }

  /** A derived key: non-empty, only `[a-z0-9-]`, no '-' at either end, no two '-' in a row. */
  predicate IsSlug(s: string) {
    && s != []
    && (forall i :: 0 <= i < |s| ==> IsSlugChar(s[i]) || s[i] == '-')
    && s[0] != '-' && s[|s| - 1] != '-'
    && NoAdjacent(s, NonSlug)
  }

  /** `r` is `s` from `i` on with exactly the '-' characters at its two ends removed: one at the
      front when `i` is 1, one at the back when `r` stops short of the end. */
  predicate EdgeDashesOff(s: string, r: string, i: nat) {
    && i + |r| <= |s| && r == s[i..i + |r|]
    && (i == 1 <==> |s| > 0 && s[0] == '-')
    && (i + |r| < |s| <==> |s| > i && s[|s| - 1] == '-')
    && |s| - (i + |r|) <= 1
  }

  /** `.replace(/(^-|-$)/g, '')`: one '-' off the front and one off the end. */
  function TrimDash(s: string): (r: string)
    ensures exists i | 0 <= i <= 1 :: EdgeDashesOff(s, r, i)
  {
    var i := if |s| > 0 && s[0] == '-' then 1 else 0;
    var a := s[i..];
    var r := if |a| > 0 && a[|a| - 1] == '-' then a[..|a| - 1] else a;
    assert EdgeDashesOff(s, r, i);
    r
  }

  /** Taking a '-' off either end leaves the letters and digits as they were. */
  lemma TrimDashKeepsSlugChars(s: string)
    ensures Seqs.Filter(TrimDash(s), IsSlugChar) == Seqs.Filter(s, IsSlugChar)
  {
    var i := if |s| > 0 && s[0] == '-' then 1 else 0;
    var a := s[i..];
    var r := TrimDash(s);
    if |a| > 0 && a[|a| - 1] == '-' {
      assert a == r + "-";
    }
    if i == 1 {
      assert s == "-" + a;
    }
    EdgeDashesKeepSlugChars(s, a, r);
  }

  /** Text that differs from `s` by at most a '-' at each end has the same letters and digits. */
  lemma EdgeDashesKeepSlugChars(s: string, a: string, r: string)
    requires s == a || s == "-" + a
    requires a == r || a == r + "-"
    ensures Seqs.Filter(r, IsSlugChar) == Seqs.Filter(s, IsSlugChar)
  {
    if s != a {
      DashesDropOut("-", a);
    }
    if a != r {
      DashesDropOut(r, "-");
    }
  }

  /** Appending or prepending text with no letters or digits leaves the filtered text alone. */
  lemma DashesDropOut(x: string, y: string)
    requires x == [] || x == "-" || y == [] || y == "-"
    ensures x == [] || x == "-" ==> Seqs.Filter(x + y, IsSlugChar) == Seqs.Filter(y, IsSlugChar)
    ensures y == [] || y == "-" ==> Seqs.Filter(x + y, IsSlugChar) == Seqs.Filter(x, IsSlugChar)
  {
    Seqs.FilterConcat(x, y, IsSlugChar);
    if x == "-" {
      assert Seqs.Filter(x, IsSlugChar) == Seqs.Filter(x[1..], IsSlugChar);
    }
    if y == "-" {
      assert Seqs.Filter(y, IsSlugChar) == Seqs.Filter(y[1..], IsSlugChar);
    }
  }

  const FallbackKey := "my-app"

  /** The slug key: lower-case the base name, turn every run of characters outside `[a-z0-9]`
      into '-', strip an edge '-', fall back to 'my-app'. */
  function DeriveKey(base: string): (r: string)
    ensures IsSlug(r)
    ensures Seqs.Filter(Lower(base), IsSlugChar) != [] ==> Seqs.Filter(r, IsSlugChar) == Seqs.Filter(Lower(base), IsSlugChar)
    ensures Seqs.Filter(Lower(base), IsSlugChar) == [] ==> r == FallbackKey
    ensures Seqs.Filter(Lower(base), IsSlugChar) != [] ==> r == TrimDash(RunwiseCollapse(Lower(base), NonSlug, '-', false))
  {
    var c := CollapseRuns(Lower(base), NonSlug, '-');
    CollapseRunsShape(Lower(base), NonSlug, '-');
    CollapseKeepsSlugChars(Lower(base));
    var t := TrimDash(c);
    TrimDashSlug(c);
    TrimDashKeepsSlugChars(c);
    assert t != "" ==> t[0] in Seqs.Filter(t, IsSlugChar);
    if t == "" then FallbackKey else t
  }

  /** A sample: the file 'Hello World.jsx' installs under the key 'hello-world'. */
  lemma SampleDeriveKey()
    ensures DeriveKey("Hello World") == "hello-world"
  {
    assert Lower("Hello World") == "hello" + [' '] + "world";
    RunwiseOneGap("hello", ' ', "world", NonSlug, '-');
    assert "hello" + ['-'] + "world" == "hello-world";
    SampleKeyTrim();
  }

  /** Two runs of non-class text around one class character read as the two runs around one
      `rep`. */
  lemma {:induction false} RunwiseOneGap(a: string, g: char, c: string, k: RunClass, rep: char)
    requires forall i :: 0 <= i < |a| ==> !InClass(k, a[i])
    requires forall i :: 0 <= i < |c| ==> !InClass(k, c[i])
    requires InClass(k, g)
    ensures RunwiseCollapse(a + [g] + c, k, rep, false) == a + [rep] + c
    decreases |a|
  {
    var s := a + [g] + c;
    if a == [] {
      assert s == [g] + c && s[0] == g && s[1..] == c;
      RunwiseNoRuns(c, k, rep, true);
    } else {
      assert s[0] == a[0] && s[1..] == a[1..] + [g] + c;
      RunwiseOneGap(a[1..], g, c, k, rep);
      assert a + [rep] + c == [a[0]] + (a[1..] + [rep] + c);
    }
  }

  lemma SampleKeyTrim()
    ensures TrimDash("hello-world") == "hello-world"
  {
  }

  lemma TrimDashSlug(c: string)
    requires forall i :: 0 <= i < |c| ==> c[i] == '-' || IsSlugChar(c[i])
    requires NoAdjacent(c, NonSlug)
    ensures TrimDash(c) == [] || IsSlug(TrimDash(c))
  {
    var a := if |c| > 0 && c[0] == '-' then c[1..] else c;
    assert forall i :: 0 <= i < |a| ==> a[i] == '-' || IsSlugChar(a[i]);
    assert NoAdjacent(a, NonSlug) by {
      forall i, j | 0 <= i && j == i + 1 && j < |a| ensures !(InClass(NonSlug, a[i]) && InClass(NonSlug, a[j])) {
        if a != c {
          assert a[i] == c[i + 1] && a[j] == c[j + 1];
        }
      }
    }
    assert |a| > 0 ==> a[0] != '-';
  }

  /** A name that is already a slug is its own key, so deriving a key twice changes nothing. */
  lemma DeriveKeyOfSlug(s: string)
    requires IsSlug(s)
    ensures DeriveKey(s) == s
  {
    assert Lower(s) == s;
    CollapseIsolated(s, NonSlug, '-');
  }

  lemma DeriveKeyIdempotent(base: string)
    ensures DeriveKey(DeriveKey(base)) == DeriveKey(base)
  {
    DeriveKeyOfSlug(DeriveKey(base));
  }

  /** A file name with nothing usable in it gets the fallback key. */
  lemma DeriveKeyFallback()
    ensures DeriveKey("") == FallbackKey
    ensures DeriveKey("--") == FallbackKey
  {
    assert Lower("--") == "--";
    assert DropRun("--", NonSlug) == "";
    assert CollapseRuns("--", NonSlug, '-') == "-";
  }

  /** `\w`. */
  predicate IsWordChar(c: char) {
    'a' <= c <= 'z' || 'A' <= c <= 'Z' || '0' <= c <= '9' || c == '_'
  }

  predicate IsSeparator(c: char) {
    c == '-' || c == '_'
  }

  /** `.replace(/\b\w/g, m => m.toUpperCase())`: a word character with no word character
      before it is upper-cased. */
  function CapitalizeWords(t: string): (r: string)
    ensures |r| == |t|
    ensures forall i :: 0 <= i < |t| ==> r[i] == (if IsWordChar(t[i]) && (i == 0 || !IsWordChar(t[i - 1])) then UpperChar(t[i]) else t[i])
  {
    seq(|t|, i requires 0 <= i < |t| =>
      if IsWordChar(t[i]) && (i == 0 || !IsWordChar(t[i - 1])) then UpperChar(t[i]) else t[i])
  }

  /** The derived title: every run of '-' and '_' becomes one space, then every word starts
      with a capital letter. */
  function DeriveTitle(base: string): (r: string)
    ensures |r| <= |base|
    ensures forall i :: 0 <= i < |r| ==> !IsSeparator(r[i])
    ensures forall i :: 0 <= i < |r| && IsWordChar(r[i]) && (i == 0 || !IsWordChar(r[i - 1])) ==> !('a' <= r[i] <= 'z')
    ensures Lower(r) == Lower(CollapseRuns(base, Separators, ' '))
    ensures |r| == |CollapseRuns(base, Separators, ' ')|
    ensures var t := CollapseRuns(base, Separators, ' ');
      forall i :: 0 <= i < |t| && !(IsWordChar(t[i]) && (i == 0 || !IsWordChar(t[i - 1]))) ==> r[i] == t[i]
  {
    var t := CollapseRuns(base, Separators, ' ');
    CollapseRunsShape(base, Separators, ' ');
    CapitalizeCollapsed(t);
    CapitalizeWords(t)
  }

  /** Capitalising collapsed text leaves no separator, starts every word upper-case and
      changes nothing but case. */
  lemma CapitalizeCollapsed(t: string)
    requires Collapsed(t, Separators, ' ')
    ensures var r := CapitalizeWords(t);
      && (forall i :: 0 <= i < |r| ==> !IsSeparator(r[i]))
      && (forall i :: 0 <= i < |r| && IsWordChar(r[i]) && (i == 0 || !IsWordChar(r[i - 1])) ==> !('a' <= r[i] <= 'z'))
      && Lower(r) == Lower(t)
  {
    var r := CapitalizeWords(t);
    assert forall i :: 0 <= i < |t| ==> IsWordChar(r[i]) == IsWordChar(t[i]);
    assert forall i :: 0 <= i < |t| ==> LowerChar(r[i]) == LowerChar(t[i]);
  }

  /** Deriving a title from a title changes nothing. */
  lemma DeriveTitleIdempotent(base: string)
    ensures DeriveTitle(DeriveTitle(base)) == DeriveTitle(base)
  {
    var r := DeriveTitle(base);
    CollapseNoRuns(r, Separators, ' ');
    var t := CollapseRuns(base, Separators, ' ');
    assert forall i :: 0 <= i < |t| ==> IsWordChar(r[i]) == IsWordChar(t[i]);
  }

  /** A sample: the base name 'hi_there' gets the title 'Hi There'. */
  lemma SampleDeriveTitle()
    ensures DeriveTitle("hi_there") == "Hi There"
  {
    SampleTitleCollapse();
    SampleCapitalize();
  }

  lemma SampleTitleCollapse()
    ensures RunwiseCollapse("hi_there", Separators, ' ', false) == "hi there"
  {
    assert "hi_there" == "hi" + ['_'] + "there";
    RunwiseOneGap("hi", '_', "there", Separators, ' ');
  }

  lemma SampleCapitalize()
    ensures CapitalizeWords("hi there") == "Hi There"
  {
    var r := CapitalizeWords("hi there");
    assert r[0] == 'H' && r[1] == 'i' && r[2] == ' ' && r[3] == 'T';
    assert r[4] == 'h' && r[5] == 'e' && r[6] == 'r' && r[7] == 'e';
  }

  /** A sample: the file 'hi_there.js' has the base name 'hi_there'. */
  lemma SampleBaseName()
    ensures BaseName("hi_there.js") == "hi_there"
  {
    assert "hi_there.js"[..10] == "hi_there.j";
    assert "hi_there.j"[..9] == "hi_there.";
    assert LastDot("hi_there.js") == 8;
    assert "hi_there.js"[..8] == "hi_there";
  }
}

=== FILE: import_strip.dfy ===
/** The two global regular-expression replacements the installer applies to a dropped file to
    remove its React imports:
      `/\n\s*import\s+React[^\n]*\n/g` and
      `/\n\s*import\s+\{[^}]*\}\s+from\s+['"]react['"];?\s*\n/g`, each replaced by one newline.
    Every greedy repetition in these patterns is followed by a character it cannot match (or,
    for the last `\s*\n`, ends at the last newline of the blank run), so each match is
    determined by where it starts; a global replacement scans left to right and resumes after
    each match. */
module ImportStrip {
  import opened Wrappers
  import opened Text

  /** The end of the run of `\s` characters starting at `i`. */
  function SpacesEnd(s: string, i: nat): (j: nat)
    requires i <= |s|
    ensures i <= j <= |s|
    ensures forall k :: i <= k < j ==> IsSpace(s[k])
    ensures j == |s| || !IsSpace(s[j])
    decreases |s| - i
  {
    if i < |s| && IsSpace(s[i]) then SpacesEnd(s, i + 1) else i
  }

  /** The first position at or after `i` holding `c`, or `|s|`. */
  function NextChar(s: string, i: nat, c: char): (j: nat)
    requires i <= |s|
    ensures i <= j <= |s|
    ensures forall k :: i <= k < j ==> s[k] != c
    ensures j < |s| ==> s[j] == c
    decreases |s| - i
  {
    if i == |s| || s[i] == c then i else NextChar(s, i + 1, c)
  }

  /** Just after the last newline in `s[i..j]`, if there is one. */
  function AfterLastNewline(s: string, i: nat, j: nat): (r: Option<nat>)
    requires i <= j <= |s|
    ensures r.Some? ==> i < r.value <= j && s[r.value - 1] == '\n'
    ensures r.None? ==> forall k :: i <= k < j ==> s[k] != '\n'
    decreases j - i
  {
    if j == i then None
    else if s[j - 1] == '\n' then Some(j)
    else AfterLastNewline(s, i, j - 1)
  }

  predicate IsQuote(c: char) {
    c == '\'' || c == '"'
  }

  /** Where a match of `\n\s*import\s+` starting at `i` ends. */
  function ImportKeywordEnd(s: string, i: nat): (r: Option<nat>)
    requires i <= |s|
    ensures r.Some? ==> i < r.value <= |s| && s[i] == '\n'
  {
    if i < |s| && s[i] == '\n' then
      var a := SpacesEnd(s, i + 1);
      if OccursAt(s, "import", a) then
        var b := SpacesEnd(s, a + 6);
        if b > a + 6 then Some(b) else None
      else None
    else None
  }

  /** The end of a match of the default-import pattern starting at `i`. */
  function DefaultImportEnd(s: string, i: nat): (r: Option<nat>)
    requires i <= |s|
    ensures r.Some? ==> i + 1 < r.value <= |s| && s[i] == '\n' && s[r.value - 1] == '\n'
  {
    match ImportKeywordEnd(s, i)
    case None => None
    case Some(c) =>
      if OccursAt(s, "React", c) then
        var d := NextChar(s, c + 5, '\n');
        if d < |s| then Some(d + 1) else None
      else None
  }

  /** After `from\s+` at `e`: where `['"]react['"];?\s*\n` ends, the last `\s*` reaching back to
      the last newline of its run. */
  function ReactSourceEnd(s: string, e: nat): (r: Option<nat>)
    requires e <= |s|
    ensures r.Some? ==> e < r.value <= |s| && s[r.value - 1] == '\n'
  {
    if e + 7 <= |s| && IsQuote(s[e]) && OccursAt(s, "react", e + 1) && IsQuote(s[e + 6]) then
      var f := if e + 7 < |s| && s[e + 7] == ';' then e + 8 else e + 7;
      AfterLastNewline(s, f, SpacesEnd(s, f))
    else None
  }

  /** After `import\s+` at `b`: where `\{[^}]*\}\s+from\s+` and the react source end. */
  function NamedClauseEnd(s: string, b: nat): (r: Option<nat>)
    requires b <= |s|
    ensures r.Some? ==> b < r.value <= |s| && s[r.value - 1] == '\n'
  {
    if b < |s| && s[b] == '{' then
      var c := NextChar(s, b + 1, '}');
      if c < |s| then
        var d := SpacesEnd(s, c + 1);
        if d > c + 1 && OccursAt(s, "from", d) then
          var e := SpacesEnd(s, d + 4);
          if e > d + 4 then ReactSourceEnd(s, e) else None
        else None
      else None
    else None
  }

  /** The end of a match of the named-import pattern starting at `i`. */
  function NamedImportEnd(s: string, i: nat): (r: Option<nat>)
    requires i <= |s|
    ensures r.Some? ==> i + 1 < r.value <= |s| && s[i] == '\n' && s[r.value - 1] == '\n'
  {
    match ImportKeywordEnd(s, i)
    case None => None
    case Some(b) => NamedClauseEnd(s, b)
  }

  datatype Pattern = DefaultImport | NamedImport

  function MatchEnd(p: Pattern, s: string, i: nat): (r: Option<nat>)
    requires i <= |s|
    ensures r.Some? ==> i < r.value <= |s| && s[i] == '\n'
  {
    match p
    case DefaultImport => DefaultImportEnd(s, i)
    case NamedImport => NamedImportEnd(s, i)
  }

  /** A table of where a match starting at each position of `s` ends, if one does: every
      match starts on a newline and ends further on. */
  predicate IsTable(s: string, t: seq<Option<nat>>) {
    |t| == |s| && forall i :: 0 <= i < |s| && t[i].Some? ==> s[i] == '\n' && i < t[i].value <= |s|
  }

  /** The match ends of a pattern at every position of `s`. */
  function MatchTable(s: string, p: Pattern): (t: seq<Option<nat>>)
    ensures IsTable(s, t)
    ensures forall i :: 0 <= i < |s| ==> t[i] == MatchEnd(p, s, i)
  {
    seq(|s|, i requires 0 <= i < |s| => MatchEnd(p, s, i))
  }

  /** The global replacement from position `i` on, given the match table: each match becomes
      one newline and the scan resumes after it. */
  function ReplaceFrom(s: string, t: seq<Option<nat>>, i: nat): (r: string)
    requires IsTable(s, t) && i <= |s|
    ensures |r| <= |s| - i
    ensures i < |s| ==> |r| > 0 && (r[0] == s[i] || r[0] == '\n')
    ensures i < |s| && s[i] == '\n' ==> r[0] == '\n'
    decreases |s| - i
  {
    if i == |s| then []
    else
      match t[i]
      case Some(e) => "\n" + ReplaceFrom(s, t, e)
      case None => [s[i]] + ReplaceFrom(s, t, i + 1)
  }

  /** `s.replace(pattern, '\n')` for a global pattern. */
  function Replace(s: string, p: Pattern): (r: string)
    ensures |r| <= |s|
  {
    ReplaceFrom(s, MatchTable(s, p), 0)
  }

  /** The import stripping as written: the two replacements, one after the other. Both
      patterns start with a newline, so an import on the first line of a file is kept. */
  function StripImportsAsWritten(txt: string): (r: string)
    ensures |r| <= |txt|
  {
    Replace(Replace(txt, DefaultImport), NamedImport)
  }

  lemma ReplaceAtMatch(s: string, t: seq<Option<nat>>, i: nat, e: nat)
    requires IsTable(s, t) && i < |s| && t[i] == Some(e)
    ensures ReplaceFrom(s, t, i) == "\n" + ReplaceFrom(s, t, e)
  {
  }

  lemma ReplaceAtNoMatch(s: string, t: seq<Option<nat>>, i: nat)
    requires IsTable(s, t) && i < |s| && t[i].None?
    ensures ReplaceFrom(s, t, i) == [s[i]] + ReplaceFrom(s, t, i + 1)
  {
  }

  /** A stretch where no match starts is copied through unchanged. */
  lemma {:induction false} CopiedThrough(s: string, t: seq<Option<nat>>, i: nat, j: nat)
    requires IsTable(s, t) && i <= j <= |s|
    requires forall k :: i <= k < j ==> t[k].None?
    ensures ReplaceFrom(s, t, i) == s[i..j] + ReplaceFrom(s, t, j)
    decreases j - i
  {
    if i < j {
      ReplaceAtNoMatch(s, t, i);
      CopiedThrough(s, t, i + 1, j);
      CopyOneMore(s, i, j, ReplaceFrom(s, t, i), ReplaceFrom(s, t, i + 1), ReplaceFrom(s, t, j));
    }
  }

  /** One copied character in front of a copied stretch is a copied stretch one longer. */
  lemma CopyOneMore(s: string, i: nat, j: nat, whole: string, tail: string, rest: string)
    requires i < j <= |s|
    requires whole == [s[i]] + tail && tail == s[i + 1..j] + rest
    ensures whole == s[i..j] + rest
  {
    assert s[i..j] == [s[i]] + s[i + 1..j];
  }

  /** Characters before the first newline are copied through unchanged. */
  lemma FirstLineKept(s: string, j: nat, p: Pattern)
    requires j <= |s|
    requires forall k :: 0 <= k < j ==> s[k] != '\n'
    ensures StartsWith(Replace(s, p), s[..j])
  {
    CopiedThrough(s, MatchTable(s, p), 0, j);
  }

  /** The default-import pattern matches a newline, a line starting with `import React`, and
      the newline that ends it. */
  lemma DefaultMatchesLine(s: string, i: nat, line: string)
    requires StartsWith(line, "import React") && forall k :: 0 <= k < |line| ==> line[k] != '\n'
    requires i + |line| + 2 <= |s| && s[i] == '\n' && s[i + 1..i + 1 + |line|] == line
    requires s[i + 1 + |line|] == '\n'
    ensures MatchEnd(DefaultImport, s, i) == Some(i + |line| + 2)
  {
    assert line[..12] == "import React";
    var t := s[i + 1..i + 1 + |line|];
    assert t == line;
    assert line[..6] == line[..12][..6] == "import";
    assert line[7..12] == line[..12][7..12] == "React";
    assert forall k :: i + 1 <= k <= i + |line| ==> s[k] == line[k - i - 1];
    assert s[i + 1..i + 7] == line[..6];
    assert s[i + 8..i + 13] == line[7..12];
    assert line[0] == 'i' && line[6] == ' ' && line[7] == 'R';
    assert s[i + 1] == 'i' && s[i + 7] == ' ' && s[i + 8] == 'R';
    assert SpacesEnd(s, i + 1) == i + 1;
    assert SpacesEnd(s, i + 8) == i + 8;
    assert ImportKeywordEnd(s, i) == Some(i + 8);
    assert forall k :: i + 13 <= k < i + 1 + |line| ==> s[k] != '\n';
    assert NextChar(s, i + 13, '\n') == i + 1 + |line|;
  }

  /** Where the parts of `pre + "\n" + line + "\n" + post` sit. */
  lemma LineLayout(pre: string, line: string, post: string)
    ensures var s := pre + "\n" + line + "\n" + post;
      && s[..|pre|] == pre && s[|pre|] == '\n'
      && s[|pre| + 1..|pre| + 1 + |line|] == line && s[|pre| + 1 + |line|] == '\n'
      && s[|pre| + |line| + 2..] == post
      && (forall k :: 0 <= k < |pre| ==> s[k] == pre[k])
      && (forall k :: |pre| + |line| + 2 <= k < |s| ==> s[k] == post[k - |pre| - |line| - 2])
  {
  }

  lemma DefaultMatchInLayout(pre: string, line: string, post: string)
    requires StartsWith(line, "import React") && forall k :: 0 <= k < |line| ==> line[k] != '\n'
    ensures MatchEnd(DefaultImport, pre + "\n" + line + "\n" + post, |pre|) == Some(|pre| + |line| + 2)
  {
    LineLayout(pre, line, post);
    DefaultMatchesLine(pre + "\n" + line + "\n" + post, |pre|, line);
  }

  /** Outside the import line, `pre + "\n" + line + "\n" + post` has no newline. */
  lemma NoOtherNewline(pre: string, line: string, post: string)
    requires forall k :: 0 <= k < |pre| ==> pre[k] != '\n'
    requires forall k :: 0 <= k < |post| ==> post[k] != '\n'
    ensures var s := pre + "\n" + line + "\n" + post;
      && (forall k :: 0 <= k < |pre| ==> s[k] != '\n')
      && (forall k :: |pre| + |line| + 2 <= k < |s| ==> s[k] != '\n')
  {
    LineLayout(pre, line, post);
  }

  /** A pass over text with one match and no other newline around it replaces just that
      match. */
  lemma PassWithOneMatch(s: string, t: seq<Option<nat>>, i: nat, e: nat)
    requires IsTable(s, t) && i < |s| && t[i] == Some(e)
    requires forall k :: 0 <= k < i ==> s[k] != '\n'
    requires forall k :: e <= k < |s| ==> s[k] != '\n'
    ensures ReplaceFrom(s, t, 0) == s[..i] + "\n" + s[e..]
  {
    assert ReplaceFrom(s, t, 0) == s[..i] + ReplaceFrom(s, t, i) by {
      CopiedThrough(s, t, 0, i);
    }
    assert ReplaceFrom(s, t, i) == "\n" + ReplaceFrom(s, t, e) by {
      ReplaceAtMatch(s, t, i, e);
    }
    assert ReplaceFrom(s, t, e) == s[e..] by {
      CopiedThrough(s, t, e, |s|);
    }
  }

  /** A pass over text whose one newline starts no match leaves it alone. */
  lemma PassWithoutMatch(s: string, t: seq<Option<nat>>, i: nat)
    requires IsTable(s, t) && i < |s| && t[i].None?
    requires forall k :: 0 <= k < |s| && k != i ==> s[k] != '\n'
    ensures ReplaceFrom(s, t, 0) == s
  {
    assert forall k :: 0 <= k < |s| ==> t[k].None?;
    CopiedThrough(s, t, 0, |s|);
  }

  /** As written, a React import on any line but the first is removed with its newline, and
      the text around it is kept. */
  lemma ImportLineRemoved(pre: string, line: string, post: string)
    requires StartsWith(line, "import React") && forall k :: 0 <= k < |line| ==> line[k] != '\n'
    requires forall k :: 0 <= k < |pre| ==> pre[k] != '\n'
    requires forall k :: 0 <= k < |post| ==> post[k] != '\n'
    ensures StripImportsAsWritten(pre + "\n" + line + "\n" + post) == pre + "\n" + post
  {
    DefaultPassRemovesLine(pre, line, post);
    NamedPassKeepsLines(pre, post);
  }

  lemma DefaultPassRemovesLine(pre: string, line: string, post: string)
    requires StartsWith(line, "import React") && forall k :: 0 <= k < |line| ==> line[k] != '\n'
    requires forall k :: 0 <= k < |pre| ==> pre[k] != '\n'
    requires forall k :: 0 <= k < |post| ==> post[k] != '\n'
    ensures Replace(pre + "\n" + line + "\n" + post, DefaultImport) == pre + "\n" + post
  {
    var s := pre + "\n" + line + "\n" + post;
    var e := |pre| + |line| + 2;
    var t := MatchTable(s, DefaultImport);
    DefaultMatchInLayout(pre, line, post);
    NoOtherNewline(pre, line, post);
    PassWithOneMatch(s, t, |pre|, e);
    LineLayout(pre, line, post);
  }

  /** Two newline-free lines give the named-import pattern nothing to match. */
  lemma NamedPassKeepsLines(pre: string, post: string)
    requires forall k :: 0 <= k < |pre| ==> pre[k] != '\n'
    requires forall k :: 0 <= k < |post| ==> post[k] != '\n'
    ensures Replace(pre + "\n" + post, NamedImport) == pre + "\n" + post
  {
    var u := pre + "\n" + post;
    var t := MatchTable(u, NamedImport);
    assert forall k :: 0 <= k < |u| && k != |pre| ==> u[k] != '\n' by {
      assert forall k :: 0 <= k < |pre| ==> u[k] == pre[k];
      assert forall k :: |pre| < k < |u| ==> u[k] == post[k - |pre| - 1];
    }
    assert t[|pre|].None? by {
      assert NamedImportEnd(u, |pre|).None?;
    }
    PassWithoutMatch(u, t, |pre|);
  }

  /** As written, a file whose first line is a React import keeps that line. */
  lemma FirstLineImportKept(line: string, rest: string)
    requires StartsWith(line, "import React") && forall k :: 0 <= k < |line| ==> line[k] != '\n'
    ensures StartsWith(StripImportsAsWritten(line + "\n" + rest), line)
  {
    var txt := line + "\n" + rest;
    assert txt[..|line|] == line;
    FirstLineKept(txt, |line|, DefaultImport);
    var once := Replace(txt, DefaultImport);
    assert once[..|line|] == line;
    FirstLineKept(once, |line|, NamedImport);
  }

  /** A sample: the usual first line of a component file survives the stripping. */
  lemma UsualHeaderKept(rest: string)
    ensures StartsWith(StripImportsAsWritten("import React from 'react';\n" + rest), "import React from 'react';")
  {
    var line := "import React from 'react';";
    assert "import React from 'react';\n" + rest == line + "\n" + rest;
    assert line[..12] == "import React";
    FirstLineImportKept(line, rest);
  }

  /** One replacement pass that also matches at the very start of the text, as if the text
      were preceded by a newline. */
  function PassFromStart(txt: string, p: Pattern): (r: string)
    ensures |r| <= |txt|
  {
    Replace("\n" + txt, p)[1..]
  }

  /** The import stripping with both patterns also applied at the start of the file. */
  function StripImports(txt: string): (r: string)
    ensures |r| <= |txt|
  {
    PassFromStart(PassFromStart(txt, DefaultImport), NamedImport)
  }

  /** With the correction, a React default import on the first line is gone: nothing of that
      line or its newline is left, and a newline-free rest is all that remains. */
  lemma FirstLineImportRemoved(line: string, rest: string)
    requires StartsWith(line, "import React") && forall k :: 0 <= k < |line| ==> line[k] != '\n'
    ensures |StripImports(line + "\n" + rest)| <= |rest|
    ensures (forall k :: 0 <= k < |rest| ==> rest[k] != '\n') ==> StripImports(line + "\n" + rest) == rest
  {
    FirstLinePassShortens(line, rest);
    if forall k :: 0 <= k < |rest| ==> rest[k] != '\n' {
      FirstLineOnlyImport(line, rest);
    }
  }

  /** The corrected default-import pass takes the first line and its newline away. */
  lemma FirstLinePassShortens(line: string, rest: string)
    requires StartsWith(line, "import React") && forall k :: 0 <= k < |line| ==> line[k] != '\n'
    ensures |PassFromStart(line + "\n" + rest, DefaultImport)| <= |rest|
  {
    var txt := line + "\n" + rest;
    var s := "\n" + txt;
    LineLayout([], line, rest);
    assert s == [] + "\n" + line + "\n" + rest;
    DefaultMatchesLine(s, 0, line);
    var t := MatchTable(s, DefaultImport);
    ReplaceAtMatch(s, t, 0, |line| + 2);
  }

  /** The two corrected passes over an import line followed by one newline-free line. */
  lemma FirstLineOnlyImport(line: string, rest: string)
    requires StartsWith(line, "import React") && forall k :: 0 <= k < |line| ==> line[k] != '\n'
    requires forall k :: 0 <= k < |rest| ==> rest[k] != '\n'
    ensures StripImports(line + "\n" + rest) == rest
  {
    var txt := line + "\n" + rest;
    assert "\n" + txt == [] + "\n" + line + "\n" + rest;
    DefaultPassRemovesLine([], line, rest);
    assert PassFromStart(txt, DefaultImport) == rest by {
      assert Replace("\n" + txt, DefaultImport) == [] + "\n" + rest;
    }
    assert "\n" + rest == [] + "\n" + rest;
    NamedPassKeepsLines([], rest);
  }
}

=== FILE: js_value.dfy ===
/** The JavaScript values the installer inspects: the export of an evaluated module and the
    properties of a manifest object. Numbers are integers here. */
module JsValue {
  import opened Wrappers
  import opened Content

  datatype Val =
    | Undefined
    | Null
    | Bool(b: bool)
    | Num(n: int)
    | Text(s: string)
    | Callable
    | Record(fields: map<string, Val>)

  /** JavaScript truthiness. */
  predicate Truthy(v: Val) {
    match v
    case Undefined => false
    case Null => false
    case Bool(b) => b
    case Num(n) => n != 0
    case Text(s) => s != ""
    case Callable => true
    case Record(_) => true
  }

  predicate Nullish(v: Val) {
    v.Undefined? || v.Null?
  }

  /** `a ?? b`. */
  function Coalesce(a: Val, b: Val): (r: Val)
    ensures !Nullish(a) ==> r == a
    ensures Nullish(a) ==> r == b
  {
    if Nullish(a) then b else a
  }

  /** `v?.k`: the property of a record, undefined for anything else or a missing property. */
  function Get(v: Val, k: string): (r: Val)
    ensures v.Record? && k in v.fields ==> r == v.fields[k]
    ensures !(v.Record? && k in v.fields) ==> r == Undefined
  {
    if v.Record? && k in v.fields then v.fields[k] else Undefined
  }

  /** `'k' in v` for an object `v`: the property exists, whatever its value. */
  predicate Has(v: Val, k: string) {
    v.Record? && k in v.fields
  }

  /** `mod?.default ?? mod?.manifest ?? mod`: the manifest a module exports. */
  function ExportedManifest(mod: Val): (r: Val)
    ensures !Nullish(Get(mod, "default")) ==> r == Get(mod, "default")
    ensures Nullish(Get(mod, "default")) && !Nullish(Get(mod, "manifest")) ==> r == Get(mod, "manifest")
    ensures Nullish(Get(mod, "default")) && Nullish(Get(mod, "manifest")) ==> r == mod
  {
    Coalesce(Get(mod, "default"), Coalesce(Get(mod, "manifest"), mod))
  }

  /** What JSON storage keeps of a string-typed field. */
  function AsString(v: Val): Option<string> {
    if v.Text? then Some(v.s) else None
  }

  /** What JSON storage keeps of an `{ width, height }` field. */
  function AsSize(v: Val): Option<Size> {
    if Get(v, "width").Num? && Get(v, "height").Num? then Some(Size(Get(v, "width").n, Get(v, "height").n))
    else None
  }
}

=== FILE: notes_plus.dfy ===
/** The notes mini-app: a list of notes, newest first, and the id of the selected note. Ids
    and the clock are parameters. */
module NotesPlus {
  import opened Wrappers
  import Seqs

  datatype Note = Note(id: string, title: string, body: string, updatedMs: int)

  datatype State = State(notes: seq<Note>, selected: Option<string>)

  /** The editor's partial update: a new title, a new body, or both. */
  datatype Patch = Patch(title: Option<string>, body: Option<string>)

  /** `add`: an empty 'Untitled' note goes first and becomes the selection. */
  function Add(st: State, id: string, now: int): (r: State)
    ensures r.notes == [Note(id, "Untitled", "", now)] + st.notes
    ensures r.selected == Some(id)
  {
    State([Note(id, "Untitled", "", now)] + st.notes, Some(id))
  }

  /** `remove`: exactly the notes with the id go; the selection is cleared only when it was
      that id. */
  function Remove(st: State, id: string): (r: State)
    ensures forall i :: 0 <= i < |r.notes| ==> r.notes[i].id != id && r.notes[i] in st.notes
    ensures forall i :: 0 <= i < |st.notes| && st.notes[i].id != id ==> st.notes[i] in r.notes
    ensures st.selected == Some(id) ==> r.selected.None?
    ensures st.selected != Some(id) ==> r.selected == st.selected
  {
    State(Seqs.Filter(st.notes, Kept(id)), if st.selected == Some(id) then None else st.selected)
  }

  /** The test `remove` keeps a note by. */
  function Kept(id: string): Note -> bool {
    (n: Note) => n.id != id
  }

  /** Removing works note by note: over a concatenation it removes from each part, and a
      single note goes exactly when it has the id. So the kept notes stay in order, each as
      often as before. */
  lemma RemoveKeepsOrder(a: seq<Note>, b: seq<Note>, id: string, selected: Option<string>)
    ensures Remove(State(a + b, selected), id).notes
      == Remove(State(a, selected), id).notes + Remove(State(b, selected), id).notes
    ensures |a| == 1 ==> Remove(State(a, selected), id).notes == if a[0].id == id then [] else a
  {
    Seqs.FilterConcat(a, b, Kept(id));
    if |a| == 1 {
      assert a == [a[0]];
      Seqs.FilterSingle(a[0], Kept(id));
    }
  }

  function Apply(n: Note, patch: Patch, now: int): Note {
    Note(n.id, patch.title.GetOr(n.title), patch.body.GetOr(n.body), now)
  }

  /** `update`: the patch is merged into the notes with the id, whose time is refreshed;
      every other note is left as it is. */
  function Update(notes: seq<Note>, id: string, patch: Patch, now: int): (r: seq<Note>)
    ensures |r| == |notes|
    ensures forall i :: 0 <= i < |notes| && notes[i].id != id ==> r[i] == notes[i]
    ensures forall i :: 0 <= i < |notes| && notes[i].id == id ==>
      && r[i].id == id && r[i].updatedMs == now
      && (patch.title.Some? ==> r[i].title == patch.title.value)
      && (patch.title.None? ==> r[i].title == notes[i].title)
      && (patch.body.Some? ==> r[i].body == patch.body.value)
      && (patch.body.None? ==> r[i].body == notes[i].body)
  {
    seq(|notes|, i requires 0 <= i < |notes| => if notes[i].id == id then Apply(notes[i], patch, now) else notes[i])
  }

  /** `current`: the first note whose id is the selection, if any. */
  function Current(st: State): (r: Option<Note>)
    ensures r.Some? ==> r.value in st.notes && st.selected == Some(r.value.id)
    ensures r.None? ==> forall i :: 0 <= i < |st.notes| ==> st.selected != Some(st.notes[i].id)
    ensures r.Some? ==> (exists i :: 0 <= i < |st.notes| && st.notes[i] == r.value && (forall j :: 0 <= j < i ==> st.selected != Some(st.notes[j].id)))
    decreases |st.notes|
  {
    if st.notes == [] then None
    else if st.selected == Some(st.notes[0].id) then Some(st.notes[0])
    else Current(State(st.notes[1..], st.selected))
  }

  /** After `add` the editor shows the new note. */
  lemma AddSelectsNew(st: State, id: string, now: int)
    ensures Current(Add(st, id, now)) == Some(Note(id, "Untitled", "", now))
  {
  }

  /** After removing the selected note nothing is shown. */
  lemma RemoveSelectedShowsNothing(st: State, id: string)
    requires st.selected == Some(id)
    ensures Current(Remove(st, id)).None?
  {
  }

  /** Updating a note keeps the selection on it: an edit never changes which note is shown. */
  lemma {:induction false} UpdateKeepsCurrent(st: State, id: string, patch: Patch, now: int)
    ensures Current(State(Update(st.notes, id, patch, now), st.selected)).None? <==> Current(st).None?
    ensures Current(st).Some? ==> Current(State(Update(st.notes, id, patch, now), st.selected)).value.id == Current(st).value.id
    decreases |st.notes|
  {
    if st.notes != [] {
      var u := Update(st.notes, id, patch, now);
      assert u[1..] == Update(st.notes[1..], id, patch, now);
      UpdateKeepsCurrent(State(st.notes[1..], st.selected), id, patch, now);
    }
  }
}

=== FILE: phone.dfy ===
/** The phone mini-app: the dialled number (at most 32 characters), the recent-calls list
    (newest first, at most 20 after a call) and the call target. Ids, the clock and
    `encodeURIComponent` are parameters. */
module Phone {
  import opened Text
  import opened Storage
  import Seqs

  datatype RecentCall = RecentCall(id: string, phoneNumber: string, timestampMs: int)

  const MaxDigits := 32
  const MaxRecents := 20

  /** A keypad press: the key is appended, then the number is cut to its first 32 characters. */
  function AppendDigit(number: string, digit: string): (r: string)
    ensures |r| <= MaxDigits
    ensures StartsWith(number + digit, r)
    ensures |number + digit| <= MaxDigits ==> r == number + digit
    ensures |number + digit| > MaxDigits ==> |r| == MaxDigits
  {
    Seqs.Take(number + digit, MaxDigits)
  }

  /** `prev.slice(0, -1)`: the last character goes; an empty number stays empty. */
  function Backspace(number: string): (r: string)
    ensures number == "" ==> r == ""
    ensures number != "" ==> r + [number[|number| - 1]] == number
  {
    if number == "" then "" else number[..|number| - 1]
  }

  /** Typing a key and pressing backspace gives the number back while there is room. */
  lemma AppendThenBackspace(number: string, c: char)
    requires |number| < MaxDigits
    ensures Backspace(AppendDigit(number, [c])) == number
  {
    assert (number + [c])[..|number|] == number;
  }

  /** C: the number is emptied, leaving nothing for backspace to remove, and the next key
      press starts a new number. */
  function ClearAll(): (r: string)
    ensures |r| == 0 && Backspace(r) == r
    ensures forall digit :: |digit| <= MaxDigits ==> AppendDigit(r, digit) == digit
  {
    ""
  }

  /** `loadRecents`: the stored list, or empty when it is missing, unparsable or not a list. */
  function LoadRecents(slot: Slot<RecentCall>): (r: seq<RecentCall>)
    ensures slot.Items? ==> r == slot.items
    ensures !slot.Items? ==> r == []
  {
    LoadList(slot)
  }

  /** `placeCall` on the recents: blank input changes nothing; otherwise an entry with the
      trimmed number is put first and the list is cut to the 20 newest. */
  function PlaceCall(number: string, recents: seq<RecentCall>, id: string, now: int): (r: seq<RecentCall>)
    ensures Trim(number) == "" ==> r == recents
    ensures Trim(number) != "" ==>
      && |r| == (if |recents| < MaxRecents then |recents| + 1 else MaxRecents)
      && r[0] == RecentCall(id, Trim(number), now)
      && r[1..] == recents[..|r| - 1]
  {
    var trimmed := Trim(number);
    if trimmed == "" then recents
    else
      var all := [RecentCall(id, trimmed, now)] + recents;
      var r := Seqs.Take(all, MaxRecents);
      assert r[1..] == all[1..|r|] == recents[..|r| - 1];
      r
  }

  /** A call never leaves more than 20 recents when there were at most 20 before. */
  lemma PlaceCallBounded(number: string, recents: seq<RecentCall>, id: string, now: int)
    requires |recents| <= MaxRecents
    ensures |PlaceCall(number, recents, id, now)| <= MaxRecents
  {
  }

  /** `deleteRecent`: every entry with the id goes, the others stay in order. */
  function DeleteRecent(recents: seq<RecentCall>, id: string): (r: seq<RecentCall>)
    ensures forall i :: 0 <= i < |r| ==> r[i].id != id && r[i] in recents
    ensures forall i :: 0 <= i < |recents| && recents[i].id != id ==> recents[i] in r
  {
    Seqs.Filter(recents, Kept(id))
  }

  /** The test `deleteRecent` keeps an entry by. */
  function Kept(id: string): RecentCall -> bool {
    (c: RecentCall) => c.id != id
  }

  /** Deleting works entry by entry: over a concatenation it deletes from each part, and a
      single entry goes exactly when it has the id. So the kept entries stay in order, each
      as often as before. */
  lemma DeleteRecentKeepsOrder(a: seq<RecentCall>, b: seq<RecentCall>, id: string)
    ensures DeleteRecent(a + b, id) == DeleteRecent(a, id) + DeleteRecent(b, id)
    ensures |a| == 1 ==> DeleteRecent(a, id) == if a[0].id == id then [] else a
  {
    Seqs.FilterConcat(a, b, Kept(id));
    if |a| == 1 {
      assert a == [a[0]];
      Seqs.FilterSingle(a[0], Kept(id));
    }
  }

  /** Deleting an id that is not listed changes nothing, and deleting twice is deleting once. */
  lemma DeleteRecentMissing(recents: seq<RecentCall>, id: string)
    ensures (forall i :: 0 <= i < |recents| ==> recents[i].id != id) ==> DeleteRecent(recents, id) == recents
    ensures DeleteRecent(DeleteRecent(recents, id), id) == DeleteRecent(recents, id)
  {
    Seqs.FilterIdempotent(recents, Kept(id));
  }

  /** `/Macintosh|Mac OS X/i` on the user agent. */
  predicate IsMac(userAgent: string) {
    ContainsIgnoreCase(userAgent, "macintosh") || ContainsIgnoreCase(userAgent, "mac os x")
  }

  /** The Mac test ignores case: a user agent and its lower-case form agree. */
  lemma IsMacIgnoresCase(userAgent: string)
    ensures IsMac(userAgent) <==> IsMac(Lower(userAgent))
  {
    assert Lower(Lower(userAgent)) == Lower(userAgent);
  }

  /** Where the call goes: FaceTime audio on a Mac, a `tel:` link elsewhere. */
  function CallTarget(number: string, userAgent: string, encode: string -> string): (r: string)
    ensures IsMac(userAgent) ==> r == "facetime-audio://" + encode(Trim(number))
    ensures !IsMac(userAgent) ==> r == "tel:" + encode(Trim(number))
  {
    var n := encode(Trim(number));
    if IsMac(userAgent) then "facetime-audio://" + n else "tel:" + n
  }
}

=== FILE: pomodoro.dfy ===
/** The pomodoro mini-app: a 25-minute countdown in whole seconds with a start / pause button
    and a reset. The one-second interval is a sequence of `Tick` calls. */
module Pomodoro {
  import Clock

  datatype State = State(seconds: nat, running: bool)

  const Session := 25 * 60

  function Initial(): (st: State)
    ensures st.seconds == 1500 && !st.running
  {
    State(Session, false)
  }

  /** One interval tick. A paused timer ignores it. Otherwise one second goes, never below 0;
      the effect that stops the timer at 0 fires only when the count changes, so a tick that
      leaves 0 at 0 keeps it running. */
  function Tick(st: State): (r: State)
    ensures !st.running ==> r == st
    ensures st.running && st.seconds > 1 ==> r == State(st.seconds - 1, true)
    ensures st.running && st.seconds == 1 ==> r == State(0, false)
    ensures st.running && st.seconds == 0 ==> r == st
  {
    if !st.running then st
    else
      var s := if st.seconds == 0 then 0 else st.seconds - 1;
      State(s, if s == 0 && s != st.seconds then false else st.running)
  }

  /** The start / pause button. */
  function Toggle(st: State): (r: State)
    ensures r.seconds == st.seconds && r.running == !st.running
  {
    st.(running := !st.running)
  }

  /** Reset: stopped at 25:00. */
  function Reset(st: State): (r: State)
    ensures r == Initial()
  {
    State(Session, false)
  }

  /** The `mm:ss` read-out. */
  function Display(st: State): (r: string)
    ensures Clock.ShowsMinSec(r, st.seconds)
  {
    Clock.MinSecReadsBack(st.seconds);
    Clock.MinSec(st.seconds)
  }

  /** `n` ticks in a row. */
  function Run(st: State, n: nat): State
    decreases n
  {
    if n == 0 then st else Run(Tick(st), n - 1)
  }

  /** From a running count of `s > 0` seconds, `n <= s` ticks leave `s - n`, and the timer is
      still running exactly when some time is left. */
  lemma {:induction false} RunCountsDown(st: State, n: nat)
    requires st.running && 0 < st.seconds && n <= st.seconds
    ensures Run(st, n).seconds == st.seconds - n
    ensures Run(st, n).running <==> n < st.seconds
    decreases n
  {
    if n > 0 {
      if st.seconds == 1 {
        assert Run(Tick(st), n - 1) == Tick(st);
      } else {
        assert Run(st, n) == Run(Tick(st), n - 1);
        RunCountsDown(Tick(st), n - 1);
      }
    }
  }

  /** A session started from 25:00 ends after exactly 1500 ticks. */
  lemma SessionLength()
    ensures Run(Toggle(Initial()), Session).seconds == 0
    ensures !Run(Toggle(Initial()), Session).running
    ensures Run(Toggle(Initial()), Session - 1).running
  {
    RunCountsDown(Toggle(Initial()), Session);
    RunCountsDown(Toggle(Initial()), Session - 1);
  }

  /** Started at 00:00 the timer never stops by itself. */
  lemma {:induction false} StartAtZeroRunsOn(n: nat)
    ensures Run(State(0, true), n) == State(0, true)
    decreases n
  {
    if n > 0 {
      StartAtZeroRunsOn(n - 1);
    }
  }
}

=== FILE: registry.dfy ===
/** The registry of installed apps: an upsert/remove/list catalog kept as one JSON array under
    one storage key. Reads treat a missing or corrupt slot as the empty catalog; every write
    stores a full array. */
module Registry {
  import opened Wrappers
  import opened Content
  import opened Storage
  import Seqs

  /** The fields of an app manifest that the registry records (its `load` is not stored).
      They are optional because a manifest object may name a field whose value is undefined. */
  datatype Manifest = Manifest(
    key: Option<string>,
    title: Option<string>,
    icon: Option<string>,
    initialSize: Option<Size>)

  /** A manifest object nested in a stored entry, as older stored entries carry it. */
  datatype NestedManifest = NestedManifest(
    key: Option<string>,
    title: Option<string>,
    icon: Option<string>,
    initialSize: Option<Size>,
    hasLoad: bool)

  /** One element of the stored array, every field optional as in parsed JSON. */
  datatype StoredEntry = StoredEntry(
    key: Option<string>,
    title: Option<string>,
    icon: Option<string>,
    initialSize: Option<Size>,
    manifestUrl: Option<string>,
    inlineManifestCode: Option<string>,
    manifest: Option<NestedManifest>)

  type Store = Slot<StoredEntry>

  predicate HasKey(all: seq<StoredEntry>, key: Option<string>) {
    exists i | 0 <= i < |all| :: all[i].key == key
  }

  /** No two entries share a key. */
  predicate UniqueKeys(all: seq<StoredEntry>) {
    forall i, j | 0 <= i < j < |all| :: all[i].key != all[j].key
  }

  /** The entry an install records: the manifest's key, title, icon and size, with the
      given manifest url and inline code. */
  function EntryFor(m: Manifest, manifestUrl: string, inlineCode: Option<string>): (e: StoredEntry)
    ensures e.key == m.key && e.title == m.title && e.icon == m.icon && e.initialSize == m.initialSize
    ensures e.manifestUrl == Some(manifestUrl) && e.inlineManifestCode == inlineCode
    ensures e.manifest.None?
  {
    StoredEntry(m.key, m.title, m.icon, m.initialSize, Some(manifestUrl), inlineCode, None)
  }

  /** `Registry.list`: the stored array, or empty when the slot is missing, unparsable or not
      an array. */
  function List(store: Store): (r: seq<StoredEntry>)
    ensures store.Items? ==> r == store.items
    ensures store == Missing || store == Corrupt || store == NotArray ==> r == []
  {
    LoadList(store)
  }

  /** Every entry carrying `app`'s key replaced by `app`, in place. */
  function ReplaceKey(all: seq<StoredEntry>, app: StoredEntry): (r: seq<StoredEntry>)
    ensures |r| == |all|
    ensures forall i :: 0 <= i < |all| && all[i].key == app.key ==> r[i] == app
    ensures forall i :: 0 <= i < |all| && all[i].key != app.key ==> r[i] == all[i]
  {
    if all == [] then []
    else [if all[0].key == app.key then app else all[0]] + ReplaceKey(all[1..], app)
  }

  /** `Registry.installFromManifest`: upsert by key, returning the stored entry and the new
      slot contents. An existing key is replaced where it stands; a new key is appended. */
  function Install(store: Store, m: Manifest, manifestUrl: string, inlineCode: Option<string>): (r: (StoredEntry, Store))
    ensures r.0 == EntryFor(m, manifestUrl, inlineCode)
    ensures r.1.Items?
    ensures HasKey(List(store), m.key) ==> List(r.1) == ReplaceKey(List(store), r.0)
    ensures !HasKey(List(store), m.key) ==> List(r.1) == List(store) + [r.0]
    ensures HasKey(List(r.1), m.key)
    ensures forall i :: 0 <= i < |List(r.1)| && List(r.1)[i].key == m.key ==> List(r.1)[i] == r.0
    ensures forall i :: 0 <= i < |List(store)| && List(store)[i].key != m.key ==> List(store)[i] in List(r.1)
  {
    var app := EntryFor(m, manifestUrl, inlineCode);
    var all := List(store);
    var next := if HasKey(all, app.key) then ReplaceKey(all, app) else all + [app];
    assert HasKey(all, app.key) ==> exists i | 0 <= i < |next| :: next[i].key == app.key;
    assert !HasKey(all, app.key) ==> next[|all|] == app;
    assert forall i :: 0 <= i < |all| && all[i].key != m.key ==> next[i] == all[i];
    (app, Items(next))
  }

  /** Installing a key that is not yet stored grows the catalog by exactly one entry, at the end. */
  lemma InstallNewKeyAppends(store: Store, m: Manifest, manifestUrl: string, inlineCode: Option<string>)
    requires !HasKey(List(store), m.key)
    ensures |List(Install(store, m, manifestUrl, inlineCode).1)| == |List(store)| + 1
    ensures List(Install(store, m, manifestUrl, inlineCode).1)[|List(store)|] == EntryFor(m, manifestUrl, inlineCode)
  {
  }

  /** Installing keeps the keys unique. */
  lemma InstallKeepsKeysUnique(store: Store, m: Manifest, manifestUrl: string, inlineCode: Option<string>)
    requires UniqueKeys(List(store))
    ensures UniqueKeys(List(Install(store, m, manifestUrl, inlineCode).1))
  {
    var all := List(store);
    var next := List(Install(store, m, manifestUrl, inlineCode).1);
    if HasKey(all, m.key) {
      forall i, j | 0 <= i < j < |next| ensures next[i].key != next[j].key {
        assert all[i].key != all[j].key;
      }
    }
  }

  /** Installing the same key twice leaves one entry for it, holding the second manifest. */
  lemma InstallTwice(store: Store, m1: Manifest, m2: Manifest, url1: string, url2: string)
    requires UniqueKeys(List(store))
    requires m1.key == m2.key
    ensures var after := List(Install(Install(store, m1, url1, None).1, m2, url2, None).1);
      && UniqueKeys(after)
      && exists i | 0 <= i < |after| :: after[i].key == m2.key && after[i].title == m2.title
  {
    var once := Install(store, m1, url1, None).1;
    InstallKeepsKeysUnique(store, m1, url1, None);
    InstallKeepsKeysUnique(once, m2, url2, None);
  }

  /** `Registry.uninstall`: every entry with the key goes, the rest stay in order. */
  function Uninstall(store: Store, key: Option<string>): (r: Store)
    ensures r.Items?
    ensures !HasKey(List(r), key)
    ensures forall i :: 0 <= i < |List(store)| && List(store)[i].key != key ==> List(store)[i] in List(r)
    ensures forall e :: e in List(r) ==> e in List(store)
    ensures !HasKey(List(store), key) ==> List(r) == List(store)
  {
    Items(Seqs.Filter(List(store), (a: StoredEntry) => a.key != key))
  }

  /** Uninstalling twice is uninstalling once. */
  lemma UninstallIdempotent(store: Store, key: Option<string>)
    ensures List(Uninstall(Uninstall(store, key), key)) == List(Uninstall(store, key))
  {
  }

  /** Uninstalling keeps the relative order of the remaining entries: removing from a
      concatenation removes from each part. */
  lemma UninstallKeepsOrder(front: seq<StoredEntry>, back: seq<StoredEntry>, key: Option<string>)
    ensures List(Uninstall(Items(front + back), key))
         == List(Uninstall(Items(front), key)) + List(Uninstall(Items(back), key))
  {
    Seqs.FilterConcat(front, back, (a: StoredEntry) => a.key != key);
  }

  /** Sample valid manifests: the literals of the bundled example manifests. */
  const HelloWorld := Manifest(Some("hello-world"), Some("Hello World"), Some("\U{1F44B}"), Some(Size(320, 220)))
  const Pomodoro := Manifest(Some("pomodoro"), Some("Pomodoro"), Some("\U{1F345}"), Some(Size(320, 360)))

  /** Installing two different sample apps into an empty store lists both, in install order. */
  lemma InstallSamples()
    ensures var s := Install(Install(Missing, HelloWorld, "/apps/hello-world.manifest.mjs", None).1,
                             Pomodoro, "/apps/pomodoro.manifest.mjs", None).1;
      && |List(s)| == 2 && List(s)[0].key == Some("hello-world") && List(s)[1].key == Some("pomodoro")
  {
    var s1 := Install(Missing, HelloWorld, "/apps/hello-world.manifest.mjs", None).1;
    assert List(s1) == [EntryFor(HelloWorld, "/apps/hello-world.manifest.mjs", None)];
    assert !HasKey(List(s1), Pomodoro.key);
  }
}

=== FILE: shell.dfy ===
/** The shell root: the `app:launch` dispatcher, launching from the start menu, and the
    taskbar's focus request. Window ids (random in the shell) are passed in. */
module Shell {
  import opened Wrappers
  import opened Content
  import opened Storage
  import opened Registry
  import opened Entries
  import opened WindowManager
  import opened StartMenu
  import Catalog

  /** A freshly launched window: no flags, so the window manager cascades it and shows it. */
  function NewWindow(id: string, title: string, icon: string, content: Content, size: Option<Size>): (w: Descriptor)
    ensures w.id == id && w.focused.None? && w.minimized.None?
  {
    Descriptor(id, title, icon, content, size, None, None)
  }

  function CatalogWindow(id: string, a: Catalog.CatalogApp): Descriptor {
    NewWindow(id, a.title, a.icon, a.content, a.initialSize)
  }

  /** The window the dispatcher opens for an installed entry; its loader does not use the
      blob cache. */
  function InstalledWindow(id: string, e: StoredEntry, origin: string): Descriptor {
    NewWindow(id, EntryTitle(e), EntryIcon(e), Lazy(PlanFor(e, origin), None), EntrySize(e))
  }

  /** The `app:launch` handler. An absent or empty key does nothing; a catalog key opens the
      catalog app; otherwise the first installed entry whose effective key matches is opened.
      A stored value that cannot be read as an array throws inside the handler's `try` and
      nothing happens. At most one window is appended and the existing ones stay as they are. */
  function Launch(windows: seq<Descriptor>, key: Option<string>, store: Store, newId: string, origin: string): (r: seq<Descriptor>)
    ensures |r| == |windows| || |r| == |windows| + 1
    ensures r[..|windows|] == windows
    ensures key.None? || key == Some("") ==> r == windows
    ensures key.Some? && key != Some("") && Catalog.Find(key.value).Some? ==>
      r == windows + [CatalogWindow(newId, Catalog.Find(key.value).value)]
    ensures key.Some? && key != Some("") && Catalog.Find(key.value).None? ==>
      (|r| == |windows| + 1 <==> store.Items? && FindEntry(store.items, key.value).Some?)
    ensures (key.Some? && key != Some("") && Catalog.Find(key.value).None? && store.Items?
             && FindEntry(store.items, key.value).Some?) ==>
      r == windows + [InstalledWindow(newId, store.items[FindEntry(store.items, key.value).value], origin)]
  {
    if key.None? || key.value == "" then windows
    else
      match Catalog.Find(key.value)
      case Some(app) => windows + [CatalogWindow(newId, app)]
      case None =>
        if !store.Items? then windows
        else
          match FindEntry(store.items, key.value)
          case None => windows
          case Some(i) => windows + [InstalledWindow(newId, store.items[i], origin)]
  }

  /** A catalog key is served by the catalog whatever is installed under the same key. */
  lemma CatalogShadowsInstalled(windows: seq<Descriptor>, key: string, s1: Store, s2: Store, id: string, origin: string)
    requires key != "" && Catalog.Find(key).Some?
    ensures Launch(windows, Some(key), s1, id, origin) == Launch(windows, Some(key), s2, id, origin)
  {
  }

  /** With a fresh id, launching keeps window ids unique. */
  lemma LaunchKeepsIdsUnique(windows: seq<Descriptor>, key: Option<string>, store: Store, id: string, origin: string)
    requires UniqueIds(windows) && !HasId(windows, id)
    ensures UniqueIds(Launch(windows, key, store, id, origin))
  {
    var r := Launch(windows, key, store, id, origin);
    if |r| == |windows| + 1 {
      assert r == windows + [r[|windows|]];
      assert r[|windows|].id == id;
    }
  }

  /** The App Store's own 'app-store' key opens the App Store component. */
  lemma LaunchAppStore(windows: seq<Descriptor>, store: Store, id: string, origin: string)
    ensures var r := Launch(windows, Some("app-store"), store, id, origin);
      |r| == |windows| + 1 && r[|windows|].content == Builtin("AppStore") && r[|windows|].title == "App Store"
  {
    Catalog.AppStorePresent();
  }

  /** An app installed under a key the catalog does not use, into a store whose entries all
      have the shape the registry writes, can be launched by that key afterwards: the window
      shows the manifest's title and icon (or the defaults) at its size and loads from the
      inline code saved at install time, or else from the absolutised manifest url. */
  lemma {:induction false} InstallThenLaunch(windows: seq<Descriptor>, store: Store, m: Manifest, url: string,
                                              inline: Option<string>, id: string, origin: string, key: string)
    requires m.key == Some(key) && key != "" && Catalog.Find(key).None?
    requires forall i :: 0 <= i < |List(store)| ==> List(store)[i].manifest.None?
    ensures var installed := Install(store, m, url, inline);
      Launch(windows, Some(key), installed.1, id, origin) == windows + [InstalledWindow(id, installed.0, origin)]
  {
    var installed := Install(store, m, url, inline);
    var es := List(installed.1);
    var app := installed.0;
    assert EntryKey(app) == Some(key);
    assert forall i :: 0 <= i < |es| ==> es[i].manifest.None? by {
      forall i | 0 <= i < |es| ensures es[i].manifest.None? {
        if es[i].key == m.key {
          assert es[i] == app;
        } else if HasKey(List(store), m.key) {
          assert es[i] == List(store)[i];
        } else {
          assert es == List(store) + [app];
        }
      }
    }
    assert HasKey(es, m.key);
    var k :| 0 <= k < |es| && es[k].key == m.key;
    assert EntryKey(es[k]) == Some(key);
    var j := FindEntry(es, key).value;
    assert EntryKey(es[j]) == Some(key);
    assert es[j].key == Some(key);
    assert es[j] == app;
  }

  /** The start menu's launch: append the item as a new window. */
  function MenuLaunch(windows: seq<Descriptor>, app: MenuApp, newId: string): (r: seq<Descriptor>)
    ensures |r| == |windows| + 1 && r[..|windows|] == windows
    ensures r[|windows|] == NewWindow(newId, app.title, app.icon, app.content, app.initialSize)
  {
    windows + [NewWindow(newId, app.title, app.icon, app.content, app.initialSize)]
  }

  /** Launching a catalog item from the menu opens the same window as dispatching its key. */
  lemma MenuMatchesDispatch(windows: seq<Descriptor>, i: nat, store: Store, id: string, origin: string)
    requires i < |Catalog.Apps|
    ensures MenuLaunch(windows, CatalogItem(Catalog.Apps[i]), id) == Launch(windows, Some(Catalog.Apps[i].key), store, id, origin)
  {
    Catalog.KeysDistinct();
    Catalog.FindFirst(Catalog.Apps, Catalog.Apps[i].key, i);
  }

  /** The taskbar click: the descriptors are re-flagged (the chosen window focused and
      unminimised, the rest unfocused), the window manager re-syncs, then serves the focus
      request, which brings a listed window to the front. Clearing the request afterwards
      is a request for nothing and changes nothing. */
  function TaskbarClick(d: Desk, id: string): (r: Desk)
    ensures r.windows == FocusFlags(d.windows, id)
    ensures Synced(r)
    ensures id != "" && HasId(d.windows, id) ==>
      id in r.states && !r.states[id].isMinimized
      && forall k :: k in r.states && k != id ==> r.states[k].z < r.states[id].z
    ensures !HasId(d.windows, id) ==> r == Sync(Desk(FocusFlags(d.windows, id), d.states))
  {
    var synced := Sync(Desk(FocusFlags(d.windows, id), d.states));
    if id != "" && HasId(d.windows, id) then
      assert synced.windows[IndexOf(d.windows, id)].id == id;
      FocusFlagsIdempotent(d.windows, id);
      FocusRequest(synced, Some(id))
    else if !HasId(d.windows, id) then
      FocusFlagsAbsent(d.windows, id);
      FocusRequest(synced, Some(id))
    else
      FocusRequest(synced, Some(id))
  }

  lemma FocusFlagsIdempotent(ws: seq<Descriptor>, id: string)
    ensures FocusFlags(FocusFlags(ws, id), id) == FocusFlags(ws, id)
  {
  }

  lemma FocusFlagsAbsent(ws: seq<Descriptor>, id: string)
    requires !HasId(ws, id)
    ensures !HasId(FocusFlags(ws, id), id)
  {
  }

  /** After a taskbar click every window but the chosen one is unfocused, and the chosen one
      is focused and not minimised in both the descriptors and the states. */
  lemma TaskbarFocusesOne(d: Desk, id: string)
    requires id != "" && HasId(d.windows, id)
    ensures var r := TaskbarClick(d, id);
      forall i :: 0 <= i < |r.windows| ==>
        (r.windows[i].focused == Some(true) <==> r.windows[i].id == id)
        && (r.windows[i].id == id ==> r.windows[i].minimized == Some(false) && !r.states[id].isMinimized)
  {
  }
}

=== FILE: shortcuts.dfy ===
/** The external-shortcuts mini-app: a list of titled links kept in one storage slot, the two
    input boxes and the chosen icon. Every change goes through `save`, which sets the list
    and writes the same list to storage. Ids are parameters. */
module Shortcuts {
  import opened Wrappers
  import opened Text
  import opened Storage
  import Seqs

  datatype Shortcut = Shortcut(id: string, title: string, url: string, icon: Option<string>)

  datatype State = State(items: seq<Shortcut>, stored: Slot<Shortcut>, title: string, url: string, icon: string)

  const DefaultIcon := "\U{1F680}"

  /** The first render's list: the stored list, or empty when nothing is stored or the text
      does not parse. A stored value that parses but is not a list is kept as it is in the
      app and breaks its rendering; it is `None` here. */
  function InitialItems(slot: Slot<Shortcut>): (r: Option<seq<Shortcut>>)
    ensures slot.Items? ==> r == Some(slot.items)
    ensures slot == Missing || slot == Corrupt ==> r == Some([])
    ensures r.None? <==> slot == NotArray
  {
    match slot
    case Missing => Some([])
    case Corrupt => Some([])
    case NotArray => None
    case Items(items) => Some(items)
  }

  /** The first state when the slot holds a list (or nothing readable). */
  function Initial(slot: Slot<Shortcut>): (st: State)
    requires slot != NotArray
    ensures st.items == LoadList(slot) && st.stored == slot
    ensures st.title == "" && st.url == "" && st.icon == DefaultIcon
  {
    State(InitialItems(slot).value, slot, "", "", DefaultIcon)
  }

  /** `save`: the list shown and the list stored become `next`. */
  function Save(st: State, next: seq<Shortcut>): (r: State)
    ensures r.items == next && LoadList(r.stored) == next
    ensures r.title == st.title && r.url == st.url && r.icon == st.icon
  {
    st.(items := next, stored := Items(next))
  }

  /** The list shown is the list stored. */
  predicate Persisted(st: State) {
    st.stored == Items(st.items)
  }

  /** `add`: nothing unless both the trimmed url and the trimmed title are non-empty; then a
      shortcut with them and the current icon goes last, is saved, and both boxes clear. */
  function Add(st: State, id: string): (r: State)
    ensures Trim(st.url) == "" || Trim(st.title) == "" ==> r == st
    ensures Trim(st.url) != "" && Trim(st.title) != "" ==>
      && r.items == st.items + [Shortcut(id, Trim(st.title), Trim(st.url), Some(st.icon))]
      && Persisted(r) && r.title == "" && r.url == "" && r.icon == st.icon
  {
    var u := Trim(st.url);
    var t := Trim(st.title);
    if u == "" || t == "" then st
    else Save(st, st.items + [Shortcut(id, t, u, Some(st.icon))]).(title := "", url := "")
  }

  /** `remove`: exactly the shortcuts with the id go, the others stay in order; the result
      is saved. */
  function Remove(st: State, id: string): (r: State)
    ensures Persisted(r)
    ensures forall i :: 0 <= i < |r.items| ==> r.items[i].id != id && r.items[i] in st.items
    ensures forall i :: 0 <= i < |st.items| && st.items[i].id != id ==> st.items[i] in r.items
  {
    Save(st, Seqs.Filter(st.items, Kept(id)))
  }

  /** The test `remove` keeps a shortcut by. */
  function Kept(id: string): Shortcut -> bool {
    (s: Shortcut) => s.id != id
  }

  /** Removing works shortcut by shortcut: over a concatenation it removes from each part,
      and a single shortcut goes exactly when it has the id. So the kept shortcuts stay in
      order, each as often as before. */
  lemma RemoveKeepsOrder(st: State, a: seq<Shortcut>, b: seq<Shortcut>, id: string)
    ensures Remove(st.(items := a + b), id).items
      == Remove(st.(items := a), id).items + Remove(st.(items := b), id).items
    ensures |a| == 1 ==> Remove(st.(items := a), id).items == if a[0].id == id then [] else a
  {
    Seqs.FilterConcat(a, b, Kept(id));
    if |a| == 1 {
      assert a == [a[0]];
      Seqs.FilterSingle(a[0], Kept(id));
    }
  }

  /** After any add or remove the list shown is the list a reload would find. */
  lemma ChangesPersist(st: State, id: string)
    requires Persisted(st)
    ensures Persisted(Add(st, id)) && Persisted(Remove(st, id))
    ensures InitialItems(Add(st, id).stored) == Some(Add(st, id).items)
    ensures InitialItems(Remove(st, id).stored) == Some(Remove(st, id).items)
  {
  }
}

=== FILE: snake.dfy ===
/** The snake mini-app's rules: a grid of 16-pixel cells, a tick that moves the head one cell
    with wrap-around, stops on a collision and grows on food, and the arrow-key rule that
    forbids reversing. Food placement is random in the app; the next food cell is passed in. */
module Snake {

  datatype Point = Point(x: int, y: int)

  datatype Game = Game(snake: seq<Point>, dir: Point, food: Point, running: bool, score: nat)

  datatype Key = ArrowUp | ArrowDown | ArrowLeft | ArrowRight | OtherKey

  const CellSize := 16

  /** Columns and rows of a canvas `width` x `height` pixels: whole cells only. */
  function GridSize(width: nat, height: nat): (r: (nat, nat))
    ensures r.0 * CellSize <= width < (r.0 + 1) * CellSize
    ensures r.1 * CellSize <= height < (r.1 + 1) * CellSize
  {
    (width / CellSize, height / CellSize)
  }

  /** The app's 300 x 300 canvas is 18 x 18 cells. */
  lemma CanvasGrid()
    ensures GridSize(300, 300) == (18, 18)
  {
  }

  predicate OnGrid(p: Point, cols: nat, rows: nat) {
    0 <= p.x < cols && 0 <= p.y < rows
  }

  predicate AllOnGrid(s: seq<Point>, cols: nat, rows: nat) {
    forall i :: 0 <= i < |s| ==> OnGrid(s[i], cols, rows)
  }

  /** One of the four unit directions. */
  predicate IsDirection(d: Point) {
    d == Point(0, -1) || d == Point(0, 1) || d == Point(-1, 0) || d == Point(1, 0)
  }

  /** No cell holds two segments. */
  predicate Distinct(s: seq<Point>) {
    forall i, j :: 0 <= i < j < |s| ==> s[i] != s[j]
  }

  /** The head moved one step: a coordinate that left the grid re-enters on the far side. */
  function Wrap(v: int, n: nat): (r: int)
    ensures 0 <= v < n ==> r == v
    ensures v < 0 ==> r == n - 1
    ensures v >= n ==> r == 0
  {
    if v < 0 then n - 1 else if v >= n then 0 else v
  }

  /** A coordinate at most one step off the grid wraps back onto it. */
  lemma WrapOnGrid(v: int, n: nat)
    requires n > 0 && -1 <= v <= n
    ensures 0 <= Wrap(v, n) < n
  {
  }

  function NextHead(g: Game, cols: nat, rows: nat): (r: Point)
    requires |g.snake| > 0
    ensures var step := Point(g.snake[0].x + g.dir.x, g.snake[0].y + g.dir.y);
      OnGrid(step, cols, rows) ==> r == step
    ensures OnGrid(g.snake[0], cols, rows) && IsDirection(g.dir) ==> OnGrid(r, cols, rows)
    ensures OnGrid(g.snake[0], cols, rows) && IsDirection(g.dir) ==>
      (r.x == g.snake[0].x + g.dir.x || (g.dir.x != 0 && (r.x == 0 || r.x == cols - 1))) &&
      (r.y == g.snake[0].y + g.dir.y || (g.dir.y != 0 && (r.y == 0 || r.y == rows - 1)))
  {
    Point(Wrap(g.snake[0].x + g.dir.x, cols), Wrap(g.snake[0].y + g.dir.y, rows))
  }

  /** The start: one segment at (5, 5), heading right. */
  function Initial(food: Point): (g: Game)
    ensures |g.snake| == 1 && g.running && g.score == 0 && IsDirection(g.dir)
  {
    Game([Point(5, 5)], Point(1, 0), food, true, 0)
  }

  /** One tick. A stopped game stays as it is. A head landing on any segment, the tail
      included, stops the game and leaves the snake alone. Otherwise the head is prepended;
      on food the score goes up and `newFood` becomes the food, else the tail is dropped. */
  function Tick(g: Game, cols: nat, rows: nat, newFood: Point): (r: Game)
    requires |g.snake| > 0
    ensures !g.running ==> r == g
    ensures g.running && NextHead(g, cols, rows) in g.snake ==> r == g.(running := false)
    ensures g.running && NextHead(g, cols, rows) !in g.snake && NextHead(g, cols, rows) == g.food ==>
      r.snake == [NextHead(g, cols, rows)] + g.snake && r.score == g.score + 1 && r.food == newFood && r.running
    ensures g.running && NextHead(g, cols, rows) !in g.snake && NextHead(g, cols, rows) != g.food ==>
      r.snake == [NextHead(g, cols, rows)] + g.snake[..|g.snake| - 1] && r.score == g.score && r.food == g.food && r.running
    ensures r.dir == g.dir && |r.snake| > 0
  {
    if !g.running then g
    else
      var head := NextHead(g, cols, rows);
      if head in g.snake then g.(running := false)
      else if head == g.food then g.(snake := [head] + g.snake, score := g.score + 1, food := newFood)
      else g.(snake := [head] + g.snake[..|g.snake| - 1])
  }

  /** Eating adds one segment and one point; any other move keeps the length. */
  lemma TickLength(g: Game, cols: nat, rows: nat, newFood: Point)
    requires |g.snake| > 0
    ensures var r := Tick(g, cols, rows, newFood);
      (|r.snake| == |g.snake| + 1 && r.score == g.score + 1) || (|r.snake| == |g.snake| && r.score == g.score)
  {
  }

  /** The snake stays on the grid and never overlaps itself, tick after tick. */
  lemma TickKeepsShape(g: Game, cols: nat, rows: nat, newFood: Point)
    requires cols > 0 && rows > 0 && |g.snake| > 0
    requires AllOnGrid(g.snake, cols, rows) && IsDirection(g.dir) && Distinct(g.snake)
    ensures var r := Tick(g, cols, rows, newFood);
      AllOnGrid(r.snake, cols, rows) && Distinct(r.snake)
  {
    if g.running {
      var head := NextHead(g, cols, rows);
      WrapOnGrid(g.snake[0].x + g.dir.x, cols);
      WrapOnGrid(g.snake[0].y + g.dir.y, rows);
      if head !in g.snake {
        var body := if head == g.food then g.snake else g.snake[..|g.snake| - 1];
        assert head !in body;
        PrependDistinct(head, body);
      }
    }
  }

  lemma PrependDistinct(p: Point, s: seq<Point>)
    requires Distinct(s) && p !in s
    ensures Distinct([p] + s)
  {
    var t := [p] + s;
    forall i, j | 0 <= i < j < |t| ensures t[i] != t[j] {
      if i == 0 {
        assert t[j] == s[j - 1];
      } else {
        assert t[i] == s[i - 1] && t[j] == s[j - 1];
      }
    }
  }

  function Negate(d: Point): Point {
    Point(-d.x, -d.y)
  }

  /** The key handler: an arrow turns the snake unless it points straight back. */
  function OnKey(dir: Point, k: Key): (r: Point)
    ensures r == dir || (IsDirection(r) && r != Negate(dir))
    ensures k == ArrowUp ==> r == (if dir.y != 1 then Point(0, -1) else dir)
    ensures k == ArrowDown ==> r == (if dir.y != -1 then Point(0, 1) else dir)
    ensures k == ArrowLeft ==> r == (if dir.x != 1 then Point(-1, 0) else dir)
    ensures k == ArrowRight ==> r == (if dir.x != -1 then Point(1, 0) else dir)
    ensures k == OtherKey ==> r == dir
  {
    if k == ArrowUp && dir.y != 1 then Point(0, -1)
    else if k == ArrowDown && dir.y != -1 then Point(0, 1)
    else if k == ArrowLeft && dir.x != 1 then Point(-1, 0)
    else if k == ArrowRight && dir.x != -1 then Point(1, 0)
    else dir
  }

  /** From a unit direction, one key press never reverses it, and the result is still a unit
      direction. */
  lemma KeyNeverReverses(dir: Point, k: Key)
    requires IsDirection(dir)
    ensures IsDirection(OnKey(dir, k)) && OnKey(dir, k) != Negate(dir)
  {
  }
}

=== FILE: start_menu.dfy ===
/** The start menu: the launchable list (catalog first, then installed entries) and the
    blob-url cache its lazy loaders share. */
module StartMenu {
  import opened Wrappers
  import opened Content
  import opened Storage
  import opened Registry
  import opened Entries
  import Catalog

  /** A launchable item. Catalog items always carry a key; an installed entry may not. */
  datatype MenuApp = MenuApp(key: Option<string>, title: string, icon: string, initialSize: Option<Size>, content: Content)

  function CatalogItem(a: Catalog.CatalogApp): MenuApp {
    MenuApp(Some(a.key), a.title, a.icon, a.initialSize, a.content)
  }

  /** The cache key of an entry's manifest blob, `${key}:manifest`; an absent key prints as
      'undefined'. */
  function BlobKey(key: Option<string>): (r: string)
    ensures |r| >= |":manifest"| && r[|r| - |":manifest"|..] == ":manifest"
    ensures key.Some? ==> r[..|r| - |":manifest"|] == key.value
  {
    (if key.Some? then key.value else "undefined") + ":manifest"
  }

  /** Different keys never share a cache slot. */
  lemma BlobKeyInjective(a: string, b: string)
    requires BlobKey(Some(a)) == BlobKey(Some(b))
    ensures a == b
  {
    assert a == BlobKey(Some(a))[..|BlobKey(Some(a))| - |":manifest"|];
  }

  /** The menu item of an installed entry: the same fallbacks as the launch dispatcher, with a
      loader that goes through the blob cache under the entry's blob key. */
  function InstalledItem(e: StoredEntry, origin: string): MenuApp {
    MenuApp(EntryKey(e), EntryTitle(e), EntryIcon(e), EntrySize(e),
      Lazy(PlanFor(e, origin), Some(BlobKey(EntryKey(e)))))
  }

  /** The menu list. When the stored value cannot be read as an array the exception is caught
      and only the catalog is listed, which is what an empty list gives too. */
  function MenuApps(store: Store, origin: string): (r: seq<MenuApp>)
    ensures |r| == |Catalog.Apps| + |List(store)|
    ensures forall i :: 0 <= i < |Catalog.Apps| ==> r[i] == CatalogItem(Catalog.Apps[i])
    ensures forall i :: 0 <= i < |List(store)| ==> r[|Catalog.Apps| + i] == InstalledItem(List(store)[i], origin)
  {
    var dynamic := seq(|List(store)|, i requires 0 <= i < |List(store)| => InstalledItem(List(store)[i], origin));
    seq(|Catalog.Apps|, i requires 0 <= i < |Catalog.Apps| => CatalogItem(Catalog.Apps[i])) + dynamic
  }

  /** A store that cannot be read lists exactly the catalog. */
  lemma UnreadableStoreListsCatalog(store: Store, origin: string)
    requires !store.Items?
    ensures |MenuApps(store, origin)| == 15
    ensures forall i :: 0 <= i < 15 ==> MenuApps(store, origin)[i].key == Some(Catalog.Apps[i].key)
  {
    Catalog.KeysDistinct();
  }

  /** The catalog's keys come before every installed entry, whatever is stored: an installed
      entry never displaces a built-in one. */
  lemma CatalogFirst(s1: Store, s2: Store, origin: string)
    ensures MenuApps(s1, origin)[..|Catalog.Apps|] == MenuApps(s2, origin)[..|Catalog.Apps|]
  {
  }

  /** One entry of the blob-url cache: the object url and when its eviction timer fires. */
  datatype CacheEntry = CacheEntry(url: string, expiresAt: int)

  type Cache = map<string, CacheEntry>

  /** The eviction delay in milliseconds. */
  const Ttl := 60000

  /** The cache as seen at time `now`: every entry whose timer has fired is gone (and its url
      revoked). */
  function Expire(c: Cache, now: int): (r: Cache)
    ensures forall k :: k in r <==> k in c && c[k].expiresAt > now
    ensures forall k :: k in r ==> r[k] == c[k]
  {
    map k | k in c && c[k].expiresAt > now :: c[k]
  }

  /** `getCachedBlobUrl` at time `now`. `freshUrl` is the object url a new blob of the code
      would get. A live entry returns its old url and has its timer restarted (the code is not
      looked at); otherwise the fresh url is stored with a new timer. */
  function GetCachedBlobUrl(c: Cache, key: string, now: int, freshUrl: string): (r: (string, Cache))
    ensures key in Expire(c, now) ==> r.0 == c[key].url
    ensures key !in Expire(c, now) ==> r.0 == freshUrl
    ensures r.1 == Expire(c, now)[key := CacheEntry(r.0, now + Ttl)]
  {
    var live := Expire(c, now);
    var url := if key in live then live[key].url else freshUrl;
    (url, live[key := CacheEntry(url, now + Ttl)])
  }

  /** A second request for the same key less than a minute after the first returns the same
      url, whatever code it passes. */
  lemma ReusedWithinTtl(c: Cache, key: string, t1: int, t2: int, u1: string, u2: string)
    requires t1 <= t2 < t1 + Ttl
    ensures var first := GetCachedBlobUrl(c, key, t1, u1);
      GetCachedBlobUrl(first.1, key, t2, u2).0 == first.0
  {
  }

  /** A second request a minute or more after the first finds the entry evicted and mints a
      new url. */
  lemma EvictedAfterTtl(c: Cache, key: string, t1: int, t2: int, u1: string, u2: string)
    requires t2 >= t1 + Ttl
    ensures var first := GetCachedBlobUrl(c, key, t1, u1);
      GetCachedBlobUrl(first.1, key, t2, u2).0 == u2
  {
  }

  /** Requests for one key leave other keys' entries as they were, apart from eviction. */
  lemma OtherKeysUntouched(c: Cache, key: string, other: string, now: int, u: string)
    requires other != key
    ensures other in GetCachedBlobUrl(c, key, now, u).1 <==> other in c && c[other].expiresAt > now
    ensures other in GetCachedBlobUrl(c, key, now, u).1 ==> GetCachedBlobUrl(c, key, now, u).1[other] == c[other]
  {
  }
}

=== FILE: stopwatch.dfy ===
/** The stopwatch mini-app: the elapsed milliseconds, the running flag and the anchor, the
    clock reading the elapsed time is measured from. The animation-frame loop is a sequence of
    `Tick` calls; the clock reading of each call is a parameter. */
module Stopwatch {
  import opened Wrappers

  datatype State = State(elapsed: int, running: bool, anchor: Option<int>)

  function Initial(): (st: State)
    ensures st.elapsed == 0 && !st.running && st.anchor.None?
  {
    State(0, false, None)
  }

  /** One animation frame. A stopped stopwatch ignores it. The first frame with no anchor
      fixes it so that the elapsed time carries on from its value; every frame then shows the
      time since the anchor. */
  function Tick(st: State, now: int): (r: State)
    ensures !st.running ==> r == st
    ensures st.running && st.anchor.None? ==> r.elapsed == st.elapsed && r.anchor == Some(now - st.elapsed)
    ensures st.running && st.anchor.Some? ==> r.elapsed == now - st.anchor.value && r.anchor == st.anchor
    ensures r.running == st.running
  {
    if !st.running then st
    else
      var a := st.anchor.GetOr(now - st.elapsed);
      st.(elapsed := now - a, anchor := Some(a))
  }

  /** The Start / Pause button as the app has it: only the flag flips; the anchor stays. */
  function ToggleAsWritten(st: State): (r: State)
    ensures r.running == !st.running && r.elapsed == st.elapsed && r.anchor == st.anchor
  {
    st.(running := !st.running)
  }

  /** The Start / Pause button as intended: pausing also drops the anchor, so that the next
      start measures on from the elapsed time shown. */
  function Toggle(st: State): (r: State)
    ensures r.running == !st.running && r.elapsed == st.elapsed
    ensures st.running ==> r.anchor.None?
    ensures !st.running ==> r.anchor == st.anchor
  {
    if st.running then st.(running := false, anchor := None) else st.(running := true)
  }

  /** Reset: stopped at zero with no anchor. */
  function Reset(st: State): (r: State)
    ensures r == Initial()
  {
    State(0, false, None)
  }

  /** A frame at `t`, a pause, a start and a frame at `now`: with the app's button the read-out
      includes the paused time, as if the stopwatch had never stopped. */
  lemma PausedTimeCounted(st: State, t: int, now: int)
    requires st.running
    ensures var s1 := Tick(st, t);
      Tick(ToggleAsWritten(ToggleAsWritten(s1)), now).elapsed == s1.elapsed + (now - t)
  {
  }

  /** With the intended button, after a pause the read-out holds still, and after the start it
      grows only by the time between the frames that follow. */
  lemma PausedTimeNotCounted(st: State, t: int, first: int, now: int)
    requires st.running
    ensures var s1 := Tick(st, t);
      var resumed := Toggle(Toggle(s1));
      && Tick(Toggle(s1), now) == Toggle(s1)
      && Tick(resumed, first).elapsed == s1.elapsed
      && Tick(Tick(resumed, first), now).elapsed == s1.elapsed + (now - first)
  {
  }

  /** Once the anchor is fixed, the read-out grows exactly as the clock does. */
  lemma TickTwice(st: State, t: int, now: int)
    requires st.running
    ensures Tick(Tick(st, t), now).elapsed == Tick(st, t).elapsed + (now - t)
  {
  }
}

=== FILE: text.dfy ===
/** String helpers with JavaScript semantics: `trim`, ASCII case folding, substring tests,
    and decimal rendering with `padStart(2, '0')`. */
module Text {

  /** JavaScript's WhiteSpace and LineTerminator code points: what `trim` strips and `\s` matches. */
  predicate IsSpace(c: char) {
    || c == ' ' || c == '\t' || c == '\n' || c == '\r' || c == '\U{B}' || c == '\U{C}'
    || c == '\U{A0}' || c == '\U{1680}' || ('\U{2000}' <= c <= '\U{200A}')
    || c == '\U{2028}' || c == '\U{2029}' || c == '\U{202F}' || c == '\U{205F}'
    || c == '\U{3000}' || c == '\U{FEFF}'
  }

  /** True when `s` has no whitespace at either end. */
  predicate Trimmed(s: string) {
    s == [] || (!IsSpace(s[0]) && !IsSpace(s[|s| - 1]))
  }

  function TrimStart(s: string): (r: string)
    ensures |r| <= |s| && r == s[|s| - |r|..]
    ensures r == [] || !IsSpace(r[0])
    ensures forall i :: 0 <= i < |s| - |r| ==> IsSpace(s[i])
  {
    if s == [] || !IsSpace(s[0]) then s else TrimStart(s[1..])
  }

  function TrimEnd(s: string): (r: string)
    ensures |r| <= |s| && r == s[..|r|]
    ensures r == [] || !IsSpace(r[|r| - 1])
    ensures forall i :: |r| <= i < |s| ==> IsSpace(s[i])
  {
    if s == [] || !IsSpace(s[|s| - 1]) then s else TrimEnd(s[..|s| - 1])
  }

  /** `r` sits at `a` in `s` with only whitespace before and after it. */
  predicate SpaceAround(s: string, r: string, a: int) {
    && OccursAt(s, r, a)
    && (forall i :: 0 <= i < a ==> IsSpace(s[i]))
    && (forall i :: a + |r| <= i < |s| ==> IsSpace(s[i]))
  }

  /** `String.prototype.trim`: the longest infix of `s` with no whitespace at its ends: what is
      cut off on either side is whitespace, and what is left starts and ends with none. */
  function Trim(s: string): (r: string)
    ensures Trimmed(r)
    ensures exists a :: SpaceAround(s, r, a)
  {
    TrimAround(s);
    TrimEnd(TrimStart(s))
  }

  lemma TrimAround(s: string)
    ensures SpaceAround(s, TrimEnd(TrimStart(s)), |s| - |TrimStart(s)|)
  {
    var t := TrimStart(s);
    CutsAround(s, t, TrimEnd(t));
  }

  /** Whitespace cut from the front, then from the back, is whitespace around what is left. */
  lemma CutsAround(s: string, t: string, r: string)
    requires |t| <= |s| && t == s[|s| - |t|..] && forall i :: 0 <= i < |s| - |t| ==> IsSpace(s[i])
    requires |r| <= |t| && r == t[..|r|] && forall i :: |r| <= i < |t| ==> IsSpace(t[i])
    ensures SpaceAround(s, r, |s| - |t|)
  {
    var a := |s| - |t|;
    assert OccursAt(s, r, a) by {
      assert s[a..a + |r|] == t[..|r|];
    }
    forall i | a + |r| <= i < |s|
      ensures IsSpace(s[i])
    {
      assert s[i] == t[i - a];
    }
  }

  /** A string with no whitespace at its ends is its own trim. */
  lemma TrimOfTrimmed(s: string)
    requires Trimmed(s)
    ensures Trim(s) == s
  {
  }

  /** Trimming is idempotent. */
  lemma TrimIdempotent(s: string)
    ensures Trim(Trim(s)) == Trim(s)
  {
    TrimOfTrimmed(Trim(s));
  }

  /** A string trims to empty exactly when it consists of whitespace only. */
  lemma {:induction false} TrimEmptyIffBlank(s: string)
    ensures Trim(s) == [] <==> forall i :: 0 <= i < |s| ==> IsSpace(s[i])
  {
    if s != [] && IsSpace(s[0]) {
      TrimEmptyIffBlank(s[1..]);
      assert forall i :: 1 <= i < |s| ==> s[1..][i - 1] == s[i];
    }
  }

  function LowerChar(c: char): (r: char)
    ensures 'A' <= c <= 'Z' ==> 'a' <= r <= 'z'
    ensures !('A' <= c <= 'Z') ==> r == c
  {
    if 'A' <= c <= 'Z' then (c as int + 32) as char else c
  }

  function UpperChar(c: char): (r: char)
    ensures 'a' <= c <= 'z' ==> 'A' <= r <= 'Z' && LowerChar(r) == c
    ensures !('a' <= c <= 'z') ==> r == c
  {
    if 'a' <= c <= 'z' then (c as int - 32) as char else c
  }

  /** ASCII lower-casing of a whole string. */
  function Lower(s: string): (r: string)
    ensures |r| == |s|
    ensures forall i :: 0 <= i < |s| ==> r[i] == LowerChar(s[i])
  {
    seq(|s|, i requires 0 <= i < |s| => LowerChar(s[i]))
  }

  predicate StartsWith(s: string, prefix: string) {
    |prefix| <= |s| && s[..|prefix|] == prefix
  }

  /** A prefix test ignoring ASCII case: what a `/^…/i` regular expression over an ASCII
      pattern checks. */
  predicate StartsWithIgnoreCase(s: string, prefix: string) {
    |prefix| <= |s| && Lower(s[..|prefix|]) == Lower(prefix)
  }

  /** `sub` occurs in `s` starting at index `i`. */
  predicate OccursAt(s: string, sub: string, i: int) {
    0 <= i <= |s| - |sub| && s[i..i + |sub|] == sub
  }

  /** `s.includes(sub)`. */
  predicate Contains(s: string, sub: string) {
    exists i | 0 <= i <= |s| :: OccursAt(s, sub, i)
  }

  /** `/sub/i.test(s)` for an ASCII pattern `sub`. */
  predicate ContainsIgnoreCase(s: string, sub: string) {
    Contains(Lower(s), Lower(sub))
  }

  lemma ContainsPrefix(s: string, t: string)
    ensures Contains(s + t, s)
  {
    assert OccursAt(s + t, s, 0);
  }

  lemma ContainsExtend(p: string, s: string, sub: string)
    requires Contains(s, sub)
    ensures Contains(p + s, sub)
  {
    var i :| 0 <= i <= |s| && OccursAt(s, sub, i);
    assert (p + s)[|p| + i..|p| + i + |sub|] == sub;
    assert OccursAt(p + s, sub, |p| + i);
  }

  lemma ContainsInPrefix(s: string, t: string, sub: string)
    requires Contains(s, sub)
    ensures Contains(s + t, sub)
  {
    var i :| 0 <= i <= |s| && OccursAt(s, sub, i);
    assert (s + t)[i..i + |sub|] == s[i..i + |sub|];
    assert OccursAt(s + t, sub, i);
  }

  predicate IsDigit(c: char) {
    '0' <= c <= '9'
  }

  predicate AllDigits(s: string) {
    forall i :: 0 <= i < |s| ==> IsDigit(s[i])
  }

  function DigitChar(d: nat): (c: char)
    requires d < 10
    ensures IsDigit(c)
  {
    ('0' as int + d) as char
  }

  /** The decimal rendering of a natural number, as `String(n)` gives it. */
  function NatToString(n: nat): (r: string)
    ensures |r| >= 1 && AllDigits(r)
    ensures |r| > 1 ==> r[0] != '0'
  {
    if n < 10 then [DigitChar(n)] else NatToString(n / 10) + [DigitChar(n % 10)]
  }

  /** The value of a string of decimal digits (the empty string is 0). */
  function DecimalValue(s: string): nat
    requires AllDigits(s)
  {
    if s == [] then 0 else 10 * DecimalValue(s[..|s| - 1]) + (s[|s| - 1] as int - '0' as int)
  }

  /** Reading back a rendered number gives the number. */
  lemma {:induction false} DecimalOfNatToString(n: nat)
    ensures DecimalValue(NatToString(n)) == n
  {
    if n >= 10 {
      var s := NatToString(n);
      assert s[..|s| - 1] == NatToString(n / 10);
      DecimalOfNatToString(n / 10);
    }
  }

  function Zeros(k: nat): (r: string)
    ensures |r| == k && AllDigits(r)
    ensures forall i :: 0 <= i < k ==> r[i] == '0'
  {
    seq(k, i => '0')
  }

  /** `s.padStart(2, '0')`. */
  function PadStart2(s: string): (r: string)
    ensures |r| == if |s| >= 2 then |s| else 2
    ensures r[|r| - |s|..] == s
    ensures forall i :: 0 <= i < |r| - |s| ==> r[i] == '0'
  {
    Zeros(if |s| >= 2 then 0 else 2 - |s|) + s
  }

  /** `String(n).padStart(2, '0')`: at least two digits whose value is `n`. */
  function Pad2(n: nat): (r: string)
    ensures |r| >= 2 && AllDigits(r)
    ensures DecimalValue(r) == n
    ensures n < 100 ==> |r| == 2
  {
    DecimalOfNatToString(n);
    NatToStringShort(n);
    if n < 10 then
      assert ['0', DigitChar(n)][..1] == ['0'];
      ['0', DigitChar(n)]
    else NatToString(n)
  }

  /** `Pad2` is the rendering padded on the left with '0' to two characters. */
  lemma Pad2IsPadStart(n: nat)
    ensures Pad2(n) == PadStart2(NatToString(n))
  {
    if n >= 10 {
      assert |NatToString(n)| >= 2;
    }
  }

  lemma NatToStringShort(n: nat)
    ensures n < 100 ==> |NatToString(n)| <= 2
  {
  }
}

=== FILE: tic_tac_toe.dfy ===
/** The tic-tac-toe mini-app: a board of nine cells, whose turn it is, the winner test over
    the eight lines, and the status line. */
module TicTacToe {
  import opened Wrappers

  datatype Mark = X | O

  /** Nine cells, row by row; `None` is an empty cell. */
  type Board = b: seq<Option<Mark>> | |b| == 9 witness [None, None, None, None, None, None, None, None, None]

  datatype Game = Game(board: Board, xTurn: bool)

  const Empty: Board := [None, None, None, None, None, None, None, None, None]

  /** The eight lines, in the order they are tested: rows, columns, diagonals. */
  const Lines: seq<(nat, nat, nat)> := [(0, 1, 2), (3, 4, 5), (6, 7, 8), (0, 3, 6), (1, 4, 7), (2, 5, 8), (0, 4, 8), (2, 4, 6)]

  lemma LinesInRange()
    ensures |Lines| == 8
    ensures forall k :: 0 <= k < 8 ==> Lines[k].0 < 9 && Lines[k].1 < 9 && Lines[k].2 < 9
  {
  }

  /** Line `k` holds three equal marks. */
  predicate LineWon(b: Board, k: nat)
    requires k < 8
  {
    LinesInRange();
    var (a, c, d) := Lines[k];
    b[a].Some? && b[a] == b[c] && b[a] == b[d]
  }

  function LineMark(b: Board, k: nat): Mark
    requires k < 8 && LineWon(b, k)
  {
    LinesInRange();
    b[Lines[k].0].value
  }

  /** The first winning line from `k` on, as `getWinner` scans them. */
  function WinnerFrom(b: Board, k: nat): (r: Option<Mark>)
    requires k <= 8
    ensures r.Some? <==> exists j :: k <= j < 8 && LineWon(b, j)
    ensures r.Some? ==> (exists j :: k <= j < 8 && LineWon(b, j) && LineMark(b, j) == r.value && (forall i :: k <= i < j ==> !LineWon(b, i)))
    decreases 8 - k
  {
    if k == 8 then None
    else if LineWon(b, k) then Some(LineMark(b, k))
    else WinnerFrom(b, k + 1)
  }

  /** `getWinner`: a mark exactly when some line holds three of it. */
  function GetWinner(b: Board): (r: Option<Mark>)
    ensures r.Some? <==> exists k :: 0 <= k < 8 && LineWon(b, k)
    ensures r.Some? ==> (exists k :: 0 <= k < 8 && LineWon(b, k) && LineMark(b, k) == r.value && (forall i :: 0 <= i < k ==> !LineWon(b, i)))
  {
    WinnerFrom(b, 0)
  }

  predicate Full(b: Board) {
    forall i :: 0 <= i < 9 ==> b[i].Some?
  }

  function MarkName(m: Mark): string {
    match m
    case X => "X"
    case O => "O"
  }

  function Current(g: Game): Mark {
    if g.xTurn then X else O
  }

  /** The status line. */
  function Status(g: Game): (r: string)
    ensures GetWinner(g.board).Some? ==> r == MarkName(GetWinner(g.board).value) + " wins!"
    ensures GetWinner(g.board).None? && Full(g.board) ==> r == "Draw"
    ensures GetWinner(g.board).None? && !Full(g.board) ==> r == MarkName(Current(g)) + " to move"
  {
    match GetWinner(g.board)
    case Some(m) => MarkName(m) + " wins!"
    case None => if Full(g.board) then "Draw" else MarkName(Current(g)) + " to move"
  }

  /** A click on cell `i`: ignored on a filled cell or a decided game, otherwise the cell gets
      the current mark and the turn passes. */
  function Click(g: Game, i: nat): (r: Game)
    requires i < 9
    ensures g.board[i].Some? || GetWinner(g.board).Some? ==> r == g
    ensures g.board[i].None? && GetWinner(g.board).None? ==>
      r.board[i] == Some(Current(g)) && r.xTurn == !g.xTurn
      && forall j :: 0 <= j < 9 && j != i ==> r.board[j] == g.board[j]
  {
    if g.board[i].Some? || GetWinner(g.board).Some? then g
    else Game(g.board[i := Some(Current(g))], !g.xTurn)
  }

  /** Nine empty cells and X to move. */
  function Reset(): (r: Game)
    ensures forall i :: 0 <= i < 9 ==> r.board[i].None?
    ensures r.xTurn
  {
    Game(Empty, true)
  }

  /** The number of cells holding `m`. */
  function Count(s: seq<Option<Mark>>, m: Mark): (n: nat)
    ensures n <= |s|
  {
    if s == [] then 0 else (if s[0] == Some(m) then 1 else 0) + Count(s[1..], m)
  }

  /** Writing one cell changes the counts by what was taken out and what was put in. */
  lemma {:induction false} CountUpdate(s: seq<Option<Mark>>, i: nat, v: Option<Mark>, m: Mark)
    requires i < |s|
    ensures Count(s[i := v], m) == Count(s, m) - (if s[i] == Some(m) then 1 else 0) + (if v == Some(m) then 1 else 0)
  {
    if i > 0 {
      assert s[i := v][1..] == s[1..][i - 1 := v];
      CountUpdate(s[1..], i - 1, v, m);
    } else {
      assert s[i := v][1..] == s[1..];
    }
  }

  lemma {:induction false} CountEmpty(s: seq<Option<Mark>>, m: Mark)
    requires forall i :: 0 <= i < |s| ==> s[i].None?
    ensures Count(s, m) == 0
  {
    if s != [] {
      CountEmpty(s[1..], m);
    }
  }

  /** Play alternates: X has as many marks as O or one more, and it is X's turn exactly when
      the counts are equal. */
  predicate Balanced(g: Game) {
    var x := Count(g.board, X);
    var o := Count(g.board, O);
    (x == o || x == o + 1) && (g.xTurn <==> x == o)
  }

  lemma ResetBalanced()
    ensures Balanced(Reset())
  {
    CountEmpty(Empty, X);
    CountEmpty(Empty, O);
  }

  /** Every click keeps play balanced. */
  lemma ClickBalanced(g: Game, i: nat)
    requires i < 9 && Balanced(g)
    ensures Balanced(Click(g, i))
  {
    if g.board[i].None? && GetWinner(g.board).None? {
      CountUpdate(g.board, i, Some(Current(g)), X);
      CountUpdate(g.board, i, Some(Current(g)), O);
    }
  }

  /** Once a line is won, no click changes anything. */
  lemma WonGameFrozen(g: Game, i: nat, k: nat)
    requires i < 9 && k < 8 && LineWon(g.board, k)
    ensures Click(g, i) == g
  {
  }

  /** A full board accepts no more clicks. */
  lemma FullBoardFrozen(g: Game, i: nat)
    requires i < 9 && Full(g.board)
    ensures Click(g, i) == g
  {
  }
}

=== FILE: timer.dfy ===
/** The countdown timer mini-app: the minutes and seconds inputs, the seconds still to go, the
    running flag and the end time of the countdown. The animation-frame loop is a sequence of
    `Tick` calls; the clock reading of each call is a parameter. The effect that shows the full
    duration whenever the timer is not running is folded into every operation (`Settle`). */
module Timer {
  import opened Wrappers
  import Clock

  datatype State = State(minutes: nat, seconds: nat, remaining: nat, running: bool, end: Option<int>)

  /** The first render: 00:30, stopped, no end time. */
  function Initial(): (st: State)
    ensures Idle(st) && st.end.None? && Full(st) == 30
  {
    State(0, 30, 30, false, None)
  }

  /** The whole duration, in seconds and in milliseconds. */
  function Full(st: State): nat {
    st.minutes * 60 + st.seconds
  }

  function TotalMs(st: State): nat {
    Full(st) * 1000
  }

  /** While the timer is not running it shows the whole duration. */
  predicate Idle(st: State) {
    !st.running ==> st.remaining == Full(st)
  }

  /** The effect on a change of the inputs or of the running flag. */
  function Settle(st: State): (r: State)
    ensures Idle(r)
    ensures r.minutes == st.minutes && r.seconds == st.seconds && r.running == st.running && r.end == st.end
    ensures st.running ==> r == st
  {
    if st.running then st else st.(remaining := Full(st))
  }

  /** The `mm:ss` read-out of the seconds still to go. */
  function Display(st: State): (r: string)
    ensures Clock.ShowsMinSec(r, st.remaining)
  {
    Clock.MinSecReadsBack(st.remaining);
    Clock.MinSec(st.remaining)
  }

  /** The minutes box: a negative entry becomes 0. The countdown in progress keeps its end. */
  function SetMinutes(st: State, v: int): (r: State)
    ensures r.minutes == (if v < 0 then 0 else v) && r.seconds == st.seconds
    ensures r.running == st.running && r.end == st.end
    ensures Idle(r)
  {
    Settle(st.(minutes := if v < 0 then 0 else v))
  }

  /** The seconds box: the entry is clamped to 0 .. 59. */
  function SetSeconds(st: State, v: int): (r: State)
    ensures r.seconds <= 59 && r.minutes == st.minutes
    ensures 0 <= v <= 59 ==> r.seconds == v
    ensures v < 0 ==> r.seconds == 0
    ensures v > 59 ==> r.seconds == 59
    ensures r.running == st.running && r.end == st.end
    ensures Idle(r)
  {
    Settle(st.(seconds := if v < 0 then 0 else if v > 59 then 59 else v))
  }

  /** `Math.ceil(ms / 1000)` for a whole number of milliseconds. */
  function CeilSeconds(ms: nat): (r: nat)
    ensures r * 1000 >= ms
    ensures r > 0 ==> (r - 1) * 1000 < ms
    ensures r == 0 <==> ms == 0
  {
    (ms + 999) / 1000
  }

  /** Milliseconds to the end, never negative. A missing end reads as 0, as `null - now` does. */
  function MsLeft(st: State, now: int): nat {
    var d := st.end.GetOr(0) - now;
    if d < 0 then 0 else d
  }

  /** One animation frame. A stopped timer ignores it. Otherwise the seconds shown are the time
      to the end rounded up; at the end the timer stops and shows the whole duration again. */
  function Tick(st: State, now: int): (r: State)
    ensures !st.running ==> r == st
    ensures st.running && MsLeft(st, now) > 0 ==>
      r.running && r.remaining == CeilSeconds(MsLeft(st, now)) && r.remaining > 0
    ensures st.running && MsLeft(st, now) == 0 ==> !r.running && r.remaining == Full(st)
    ensures r.minutes == st.minutes && r.seconds == st.seconds && r.end == st.end
    ensures Idle(st) ==> Idle(r)
  {
    if !st.running then st
    else
      var ms := MsLeft(st, now);
      if ms > 0 then st.(remaining := CeilSeconds(ms))
      else Settle(st.(remaining := 0, running := false))
  }

  /** The Start button as the app has it: it clears the end time and sets the running flag. The
      effect that sets a new end only runs when the flag changes, so a second press while the
      countdown runs leaves no end time at all. */
  function StartAsWritten(st: State, now: int): (r: State)
    ensures !st.running ==> r.running && r.end == Some(now + TotalMs(st))
    ensures st.running ==> r.running && r.end.None?
    ensures r.minutes == st.minutes && r.seconds == st.seconds && r.remaining == st.remaining
  {
    if st.running then st.(end := None)
    else st.(running := true, end := Some(now + TotalMs(st)))
  }

  /** Start while running: the next frame finds no end, reads the time left as zero and stops
      the timer, instead of starting the countdown again. */
  lemma StartWhileRunningStops(st: State, now: int, later: int)
    requires st.running && later >= 0
    ensures !Tick(StartAsWritten(st, now), later).running
  {
  }

  /** The Start button as intended: every press begins the whole countdown from `now`. */
  function Start(st: State, now: int): (r: State)
    ensures r.running && r.end == Some(now + TotalMs(st))
    ensures r.minutes == st.minutes && r.seconds == st.seconds && r.remaining == st.remaining
  {
    st.(running := true, end := Some(now + TotalMs(st)))
  }

  /** After a press of Start, running or not, every frame before the end keeps the countdown
      going and shows between 1 and the whole duration, and the first frame at or after the end
      stops it. */
  lemma StartCountsDown(st: State, now: int, later: int)
    requires now <= later
    ensures later < now + TotalMs(st) ==>
      && Tick(Start(st, now), later).running
      && 1 <= Tick(Start(st, now), later).remaining <= Full(st)
    ensures later >= now + TotalMs(st) ==> !Tick(Start(st, now), later).running
  {
    var s := Start(st, now);
    if later < now + TotalMs(st) {
      assert MsLeft(s, later) <= TotalMs(st);
    }
  }

  /** Pause: the flag drops, and the effect shows the whole duration again. */
  function Pause(st: State): (r: State)
    ensures !r.running && r.remaining == Full(st) && r.end == st.end
    ensures r.minutes == st.minutes && r.seconds == st.seconds
  {
    Settle(st.(running := false))
  }

  /** Reset: stopped, no end time, the whole duration shown. */
  function Reset(st: State): (r: State)
    ensures !r.running && r.end.None? && r.remaining == Full(st)
    ensures r.minutes == st.minutes && r.seconds == st.seconds
  {
    st.(running := false, end := None, remaining := Full(st))
  }

  /** Pausing and starting again begins from the whole duration: the progress is not kept. */
  lemma PauseThenStartRestarts(st: State, now: int, later: int)
    requires now <= later < now + 1000
    requires Full(st) > 0
    ensures Tick(StartAsWritten(Pause(st), now), later).remaining == Full(st)
  {
    var s := StartAsWritten(Pause(st), now);
    var ms := MsLeft(s, later);
    assert TotalMs(st) - 1000 < ms <= TotalMs(st);
  }
}

=== FILE: todo.dfy ===
/** The todo mini-app: a list of items, newest first, with a done flag and a count of the
    items still open. Ids are parameters. */
module Todo {
  import opened Text
  import Seqs

  datatype Item = Item(id: string, text: string, done: bool)

  datatype State = State(items: seq<Item>, text: string)

  /** `add`: blank text changes nothing; otherwise an open item with the trimmed text goes
      first and the input is cleared. */
  function Add(st: State, id: string): (r: State)
    ensures Trim(st.text) == "" ==> r == st
    ensures Trim(st.text) != "" ==> r.items == [Item(id, Trim(st.text), false)] + st.items && r.text == ""
  {
    var t := Trim(st.text);
    if t == "" then st else State([Item(id, t, false)] + st.items, "")
  }

  /** `toggle`: the items with the id flip their flag; everything else stays. */
  function Toggle(items: seq<Item>, id: string): (r: seq<Item>)
    ensures |r| == |items|
    ensures forall i :: 0 <= i < |items| && items[i].id == id ==> r[i] == items[i].(done := !items[i].done)
    ensures forall i :: 0 <= i < |items| && items[i].id != id ==> r[i] == items[i]
  {
    seq(|items|, i requires 0 <= i < |items| => if items[i].id == id then items[i].(done := !items[i].done) else items[i])
  }

  /** Toggling twice is the identity. */
  lemma ToggleTwice(items: seq<Item>, id: string)
    ensures Toggle(Toggle(items, id), id) == items
  {
  }

  /** `remove`: exactly the items with the id go, the others stay in order. */
  function Remove(items: seq<Item>, id: string): (r: seq<Item>)
    ensures forall i :: 0 <= i < |r| ==> r[i].id != id && r[i] in items
    ensures forall i :: 0 <= i < |items| && items[i].id != id ==> items[i] in r
  {
    Seqs.Filter(items, Kept(id))
  }

  /** The test `remove` keeps an item by. */
  function Kept(id: string): Item -> bool {
    (it: Item) => it.id != id
  }

  /** Removing works item by item: over a concatenation it removes from each part, and a
      single item goes exactly when it has the id. So the kept items stay in order, each as
      often as before. */
  lemma RemoveKeepsOrder(a: seq<Item>, b: seq<Item>, id: string)
    ensures Remove(a + b, id) == Remove(a, id) + Remove(b, id)
    ensures |a| == 1 ==> Remove(a, id) == if a[0].id == id then [] else a
  {
    Seqs.FilterConcat(a, b, Kept(id));
    if |a| == 1 {
      assert a == [a[0]];
      Seqs.FilterSingle(a[0], Kept(id));
    }
  }

  /** `remaining`: how many items are not done. */
  function Remaining(items: seq<Item>): (n: nat)
    ensures n <= |items|
    ensures n == 0 <==> forall i :: 0 <= i < |items| ==> items[i].done
    ensures n == |OpenPositions(items)|
  {
    var open := Seqs.Filter(items, Open);
    assert open != [] ==> !open[0].done;
    OpenCount(items);
    |open|
  }

  /** The positions of the items still to do. */
  function OpenPositions(items: seq<Item>): set<int> {
    set i | 0 <= i < |items| && !items[i].done
  }

  /** There are as many open items as positions holding one. */
  lemma OpenCount(items: seq<Item>)
    ensures |Seqs.Filter(items, Open)| == |OpenPositions(items)|
  {
    var keep := Open;
    Seqs.FilterCountsPositions(items, keep);
    assert Seqs.Positions(items, keep) == OpenPositions(items);
  }

  /** An item still to do. */
  predicate Open(it: Item) {
    !it.done
  }

  /** Adding an item opens one more. */
  lemma AddOpensOne(st: State, id: string)
    requires Trim(st.text) != ""
    ensures Remaining(Add(st, id).items) == Remaining(st.items) + 1
  {
    var item := Item(id, Trim(st.text), false);
    assert ([item] + st.items)[1..] == st.items;
  }

  /** Toggling one open item closes it, so one fewer remains. */
  lemma {:induction false} ToggleClosesOne(items: seq<Item>, id: string)
    requires exists i :: 0 <= i < |items| && items[i].id == id && !items[i].done
    requires forall i, j :: 0 <= i < j < |items| ==> items[i].id != items[j].id
    ensures Remaining(Toggle(items, id)) + 1 == Remaining(items)
  {
    var t := Toggle(items, id);
    if items[0].id == id {
      assert t[1..] == items[1..];
      assert t[0] == items[0].(done := true);
    } else {
      assert t[1..] == Toggle(items[1..], id);
      ToggleClosesOne(items[1..], id);
    }
  }
}

=== FILE: urls.dfy ===
/** URL shaping shared by the launchers, the installer and the browser app. */
module Urls {
  import opened Text

  /** `/^https?:\/\//i.test(s)`. */
  predicate HasScheme(s: string) {
    StartsWithIgnoreCase(s, "http://") || StartsWithIgnoreCase(s, "https://")
  }

  /** A url with a scheme is kept; anything else is taken relative to the page origin, with
      a '/' inserted unless the url already starts with one. */
  function Absolutize(origin: string, url: string): (r: string)
    ensures HasScheme(url) ==> r == url
    ensures !HasScheme(url) ==> StartsWith(r, origin) && |r| > |origin| && r[|origin|] == '/'
    ensures !HasScheme(url) && StartsWith(url, "/") ==> r == origin + url
    ensures !HasScheme(url) && !StartsWith(url, "/") ==> r == origin + "/" + url
  {
    if HasScheme(url) then url
    else origin + (if StartsWith(url, "/") then "" else "/") + url
  }

  lemma HasSchemePrefix(s: string, t: string)
    requires HasScheme(s)
    ensures HasScheme(s + t)
  {
    assert (s + t)[..7] == s[..7];
    if |s| >= 8 {
      assert (s + t)[..8] == s[..8];
    }
  }

  /** Against an origin that has a scheme, the result always has one, so absolutising
      twice changes nothing. */
  lemma AbsolutizeIdempotent(origin: string, url: string)
    requires HasScheme(origin)
    ensures HasScheme(Absolutize(origin, url))
    ensures Absolutize(origin, Absolutize(origin, url)) == Absolutize(origin, url)
  {
    if !HasScheme(url) {
      var rest := (if StartsWith(url, "/") then "" else "/") + url;
      assert Absolutize(origin, url) == origin + rest;
      HasSchemePrefix(origin, rest);
    }
  }

  /** `ensureHttpUrl`: blank input gives '', a url with a scheme is returned trimmed, anything
      else gets 'https://' in front of its trimmed text. */
  function EnsureHttpUrl(raw: string): (r: string)
    ensures Trim(raw) == "" ==> r == ""
    ensures Trim(raw) != "" ==> HasScheme(r)
    ensures Trim(raw) != "" && HasScheme(Trim(raw)) ==> r == Trim(raw)
    ensures Trim(raw) != "" && !HasScheme(Trim(raw)) ==> r == "https://" + Trim(raw)
  {
    var t := Trim(raw);
    if t == "" then ""
    else if HasScheme(t) then t
    else
      HttpsHasScheme(t);
      "https://" + t
  }

  lemma HttpsHasScheme(t: string)
    ensures HasScheme("https://" + t)
  {
    assert ("https://" + t)[..8] == "https://";
  }

  /** `ensureHttpUrl` is idempotent. */
  lemma EnsureHttpUrlIdempotent(raw: string)
    ensures EnsureHttpUrl(EnsureHttpUrl(raw)) == EnsureHttpUrl(raw)
  {
    var t := Trim(raw);
    var r := EnsureHttpUrl(raw);
    if t != "" {
      if !HasScheme(t) {
        PrefixKeepsTrimmed("https://", t);
      }
      TrimOfTrimmed(r);
    }
  }

  /** Prepending a non-blank-edged prefix to a trimmed, non-empty string keeps it trimmed. */
  lemma PrefixKeepsTrimmed(p: string, t: string)
    requires p != [] && !IsSpace(p[0]) && Trimmed(t) && t != []
    ensures Trimmed(p + t)
  {
    assert (p + t)[|p + t| - 1] == t[|t| - 1];
  }
}

=== FILE: web_app.dfy ===
/** The browser app's address handling: deciding whether typed text is a url, the search url
    otherwise, the input normalisation for the frame and the reader-proxy url. The WHATWG
    `URL` parse with its Google host test, and `encodeURIComponent`, are parameters. */
module WebApp {
  import opened Wrappers
  import opened Text
  import opened Urls

  /** `isProbablyUrl`: blank is not a url, a scheme makes one; otherwise text without a space
      is a url when it has a '.' that is not its first character. */
  function IsProbablyUrl(raw: string): (r: bool)
    ensures Trim(raw) == "" ==> !r
    ensures Trim(raw) != "" && HasScheme(Trim(raw)) ==> r
    ensures Trim(raw) != "" && !HasScheme(Trim(raw)) && ' ' in Trim(raw) ==> !r
    ensures Trim(raw) != "" && !HasScheme(Trim(raw)) && ' ' !in Trim(raw) ==>
      (r <==> '.' in Trim(raw) && Trim(raw)[0] != '.')
  {
    var s := Trim(raw);
    if s == "" then false
    else if HasScheme(s) then true
    else if ' ' in s then false
    else '.' in s && s[0] != '.'
  }

  const Https := "https://"
  const SearchPrefix := Https + "www.google.com/search?q="
  const DuckDuckGo := Https + "html.duckduckgo.com/html/"
  const DuckDuckGoQuery := Https + "html.duckduckgo.com/html/?q="
  const ReaderProxy := Https + "r.jina.ai/http/"

  /** `buildSearchUrl`: a Google search for the trimmed text. */
  function BuildSearchUrl(query: string, encode: string -> string): (r: string)
    ensures StartsWith(r, SearchPrefix) && r[|SearchPrefix|..] == encode(Trim(query))
  {
    SearchPrefix + encode(Trim(query))
  }

  /** The target opened in a new tab on Enter or the open button. */
  function OpenTarget(input: string, encode: string -> string): (r: string)
    ensures IsProbablyUrl(input) ==> r == EnsureHttpUrl(input)
    ensures !IsProbablyUrl(input) ==> r == BuildSearchUrl(input, encode)
  {
    if IsProbablyUrl(input) then EnsureHttpUrl(input) else BuildSearchUrl(input, encode)
  }

  /** The open target always carries a scheme, so the guard before `window.open` always
      passes: every Enter opens a tab, even for blank input (a search for nothing). */
  lemma OpenTargetHasScheme(input: string, encode: string -> string)
    ensures HasScheme(OpenTarget(input, encode))
    ensures OpenTarget(input, encode) != ""
  {
    if !IsProbablyUrl(input) {
      HttpsHasScheme("www.google.com/search?q=" + encode(Trim(input)));
    }
  }

  /** `normalizeInput`: blank gives ''; text with a scheme or any '.' goes through
      `ensureHttpUrl`; anything else becomes a DuckDuckGo query. */
  function NormalizeInput(raw: string, encode: string -> string): (r: string)
    ensures Trim(raw) == "" ==> r == ""
    ensures Trim(raw) != "" && (HasScheme(Trim(raw)) || '.' in Trim(raw)) ==> r == EnsureHttpUrl(Trim(raw))
    ensures Trim(raw) != "" && !(HasScheme(Trim(raw)) || '.' in Trim(raw)) ==> r == DuckDuckGoQuery + encode(Trim(raw))
  {
    var t := Trim(raw);
    if t == "" then ""
    else if HasScheme(t) || '.' in t then EnsureHttpUrl(t)
    else DuckDuckGoQuery + encode(t)
  }

  /** Normalised input is empty exactly for blank input and has a scheme otherwise. */
  lemma NormalizeInputHasScheme(raw: string, encode: string -> string)
    ensures NormalizeInput(raw, encode) == "" <==> Trim(raw) == ""
    ensures Trim(raw) != "" ==> HasScheme(NormalizeInput(raw, encode))
  {
    var t := Trim(raw);
    if t != "" {
      TrimIdempotent(raw);
      if HasScheme(t) || '.' in t {
        assert NormalizeInput(raw, encode) == EnsureHttpUrl(t);
        assert HasScheme(EnsureHttpUrl(t));
      } else {
        DuckDuckGoHasScheme(encode(t));
      }
    }
  }

  lemma DuckDuckGoHasScheme(q: string)
    ensures HasScheme(DuckDuckGoQuery + q)
  {
    HttpsHasScheme("html.duckduckgo.com/html/?q=" + q);
  }

  /** Whatever `isProbablyUrl` accepts, the frame normalisation turns into the same url as the
      new-tab target. */
  lemma ProbableUrlNormalizesAlike(raw: string, encode: string -> string)
    requires IsProbablyUrl(raw)
    ensures NormalizeInput(raw, encode) == OpenTarget(raw, encode)
  {
    TrimIdempotent(raw);
  }

  /** A normalised url normalises to itself. */
  lemma NormalizeUrlStable(raw: string, encode: string -> string)
    requires Trim(raw) != "" && (HasScheme(Trim(raw)) || '.' in Trim(raw))
    ensures NormalizeInput(NormalizeInput(raw, encode), encode) == NormalizeInput(raw, encode)
  {
    var t := Trim(raw);
    TrimIdempotent(raw);
    var r := EnsureHttpUrl(t);
    EnsureHttpUrlIdempotent(t);
    var t2 := Trim(r);
    assert HasScheme(r);
    EnsureHttpUrlIdempotent(r);
    TrimIdempotent(r);
    TrimIsHttp(t);
    assert t2 == r;
  }

  /** `ensureHttpUrl` gives trimmed text. */
  lemma TrimIsHttp(t: string)
    ensures Trim(EnsureHttpUrl(t)) == EnsureHttpUrl(t)
  {
    var r := EnsureHttpUrl(t);
    if Trim(t) != "" {
      if !HasScheme(Trim(t)) {
        PrefixKeepsTrimmed("https://", Trim(t));
      }
      TrimOfTrimmed(r);
    }
  }

  /** `mapToSupported`. `googleQuery` stands for the `URL` parse of the ensured url: it gives
      the search text (the `q` parameter, else the decoded path) when the url parses and its
      host is google.com or a subdomain of it, and nothing otherwise, including when the parse
      throws. A Google url goes to DuckDuckGo's html search, bare when the text is empty;
      any other url is the ensured url. */
  function MapToSupported(raw: string, googleQuery: string -> Option<string>, encode: string -> string): (r: string)
    ensures googleQuery(EnsureHttpUrl(raw)).None? ==> r == EnsureHttpUrl(raw)
    ensures googleQuery(EnsureHttpUrl(raw)) == Some("") ==> r == DuckDuckGo
    ensures googleQuery(EnsureHttpUrl(raw)).Some? && googleQuery(EnsureHttpUrl(raw)) != Some("") ==>
      r == DuckDuckGoQuery + encode(googleQuery(EnsureHttpUrl(raw)).value)
  {
    var ensured := EnsureHttpUrl(raw);
    match googleQuery(ensured)
    case None => ensured
    case Some(q) => if q == "" then DuckDuckGo else DuckDuckGoQuery + encode(q)
  }

  /** `toProxyUrl`: '' when the supported url is empty, else the reader proxy's '/http/' path
      followed by the url with its own scheme. */
  function ToProxyUrl(raw: string, googleQuery: string -> Option<string>, encode: string -> string): (r: string)
    ensures MapToSupported(raw, googleQuery, encode) == "" ==> r == ""
    ensures MapToSupported(raw, googleQuery, encode) != "" ==>
      StartsWith(r, ReaderProxy) && r[|ReaderProxy|..] == MapToSupported(raw, googleQuery, encode)
  {
    var supported := MapToSupported(raw, googleQuery, encode);
    if supported != "" then ReaderProxy + supported else ""
  }

  /** Away from Google, the proxy url is empty exactly for blank input, and otherwise the
      proxied part carries a scheme. */
  lemma ProxyOfPlainUrl(raw: string, googleQuery: string -> Option<string>, encode: string -> string)
    requires googleQuery(EnsureHttpUrl(raw)).None?
    ensures ToProxyUrl(raw, googleQuery, encode) == "" <==> Trim(raw) == ""
    ensures Trim(raw) != "" ==> HasScheme(ToProxyUrl(raw, googleQuery, encode)[|ReaderProxy|..])
  {
    if Trim(raw) != "" {
      assert HasScheme(EnsureHttpUrl(raw));
    }
  }
}

=== FILE: window_manager.dfy ===
/** The window manager: a state machine over the open-window list (owned by the shell)
    and a map from window id to geometry, z-order and visibility. */
module WindowManager {
  import opened Wrappers
  import opened Content
  import Seqs

  /** The externally visible record of one open window. `focused` and `minimized` are
      optional because a freshly launched window carries neither flag. */
  datatype Descriptor = Descriptor(
    id: string,
    title: string,
    icon: string,
    content: Content,
    initialSize: Option<Size>,
    focused: Option<bool>,
    minimized: Option<bool>)

  /** The manager's private record of one window. */
  datatype WindowState = WindowState(
    x: int, y: int,
    width: int, height: int,
    isMaximized: bool,
    isMinimized: bool,
    z: int)

  /** The descriptor list and the state map together. */
  datatype Desk = Desk(windows: seq<Descriptor>, states: map<string, WindowState>)

  const DefaultWidth := 320
  const DefaultHeight := 420
  const MinWidth := 260
  const MinHeight := 220

  predicate HasId(ws: seq<Descriptor>, id: string) {
    exists i | 0 <= i < |ws| :: ws[i].id == id
  }

  function Ids(ws: seq<Descriptor>): set<string> {
    set i | 0 <= i < |ws| :: ws[i].id
  }

  predicate UniqueIds(ws: seq<Descriptor>) {
    forall i, j | 0 <= i < j < |ws| :: ws[i].id != ws[j].id
  }

  /** Every listed window has a state and every state belongs to a listed window. */
  predicate Synced(d: Desk) {
    d.states.Keys == Ids(d.windows)
  }

  /** The first window with the given id (`windows.find`). */
  function IndexOf(ws: seq<Descriptor>, id: string): (i: nat)
    requires HasId(ws, id)
    ensures i < |ws| && ws[i].id == id
    ensures forall j :: 0 <= j < i ==> ws[j].id != id
  {
    if ws[0].id == id then 0 else IndexOf(ws[1..], id) + 1
  }

  /** Two descriptors for the same window: they agree on everything but the two flags. */
  predicate SameWindow(a: Descriptor, b: Descriptor) {
    a.id == b.id && a.title == b.title && a.icon == b.icon
    && a.content == b.content && a.initialSize == b.initialSize
  }

  /** The state a window gets on first appearance at list index `idx`: a cascade that cycles
      through three offsets, the requested or default size, bottom of the z-order. */
  function InitialState(w: Descriptor, idx: nat): (s: WindowState)
    ensures s.x in {24, 48, 72} && s.y == s.x + 40
    ensures s.width == (if w.initialSize.Some? then w.initialSize.value.width else DefaultWidth)
    ensures s.height == (if w.initialSize.Some? then w.initialSize.value.height else DefaultHeight)
    ensures s.z == 1 && !s.isMaximized
    ensures s.isMinimized <==> w.minimized == Some(true)
  {
    var size := w.initialSize.GetOr(Size(DefaultWidth, DefaultHeight));
    WindowState(24 + (idx % 3) * 24, 64 + (idx % 3) * 24, size.width, size.height,
                false, w.minimized == Some(true), 1)
  }

  /** The cascade repeats every three windows and its three slots are distinct. */
  lemma CascadeCycle(w: Descriptor, v: Descriptor, i: nat)
    ensures InitialState(w, i + 3).x == InitialState(v, i).x
    ensures InitialState(w, i + 3).y == InitialState(v, i).y
    ensures InitialState(w, i).x != InitialState(v, i + 1).x
    ensures InitialState(w, i).x != InitialState(v, i + 2).x
  {
  }

  /** The first two cascade positions. */
  lemma CascadeStart(w: Descriptor, v: Descriptor)
    ensures InitialState(w, 0).x == 24 && InitialState(w, 0).y == 64
    ensures InitialState(v, 1).x == 48 && InitialState(v, 1).y == 88
  {
  }

  /** What the sync step keeps for a window seen in the previous state map: the old state,
      with `isMinimized` following the descriptor when it carries a `minimized` flag. */
  function FollowFlag(s: WindowState, minimized: Option<bool>): WindowState {
    if minimized.Some? then s.(isMinimized := minimized.value) else s
  }

  /** The state the sync step settles on for window `w` at index `i`. */
  function SyncedState(prev: map<string, WindowState>, w: Descriptor, i: nat): WindowState {
    if w.id in prev then FollowFlag(prev[w.id], w.minimized) else InitialState(w, i)
  }

  /** The sync step's loop over the window list from index `i` on. */
  function SyncFrom(ws: seq<Descriptor>, i: nat, next: map<string, WindowState>): (r: map<string, WindowState>)
    requires i <= |ws|
    ensures r.Keys == next.Keys + (set j | i <= j < |ws| :: ws[j].id)
    decreases |ws| - i
  {
    if i == |ws| then next
    else
      var w := ws[i];
      var next' :=
        if w.id !in next then next[w.id := InitialState(w, i)]
        else if w.minimized.Some? then next[w.id := next[w.id].(isMinimized := w.minimized.value)]
        else next;
      SyncFrom(ws, i + 1, next')
  }

  lemma {:induction false} SyncFromValues(ws: seq<Descriptor>, prev: map<string, WindowState>, i: nat, next: map<string, WindowState>)
    requires UniqueIds(ws) && i <= |ws|
    requires forall j :: 0 <= j < i ==> ws[j].id in next && next[ws[j].id] == SyncedState(prev, ws[j], j)
    requires forall j :: i <= j < |ws| ==> (ws[j].id in next <==> ws[j].id in prev)
    requires forall j :: i <= j < |ws| && ws[j].id in prev ==> next[ws[j].id] == prev[ws[j].id]
    ensures forall j :: 0 <= j < |ws| ==> ws[j].id in SyncFrom(ws, i, next)
    ensures forall j :: 0 <= j < |ws| ==> SyncFrom(ws, i, next)[ws[j].id] == SyncedState(prev, ws[j], j)
    decreases |ws| - i
  {
    if i < |ws| {
      var w := ws[i];
      var next' :=
        if w.id !in next then next[w.id := InitialState(w, i)]
        else if w.minimized.Some? then next[w.id := next[w.id].(isMinimized := w.minimized.value)]
        else next;
      assert next'[w.id] == SyncedState(prev, w, i);
      SyncFromValues(ws, prev, i + 1, next');
    }
  }

  lemma SyncValues(ws: seq<Descriptor>, prev: map<string, WindowState>)
    ensures UniqueIds(ws) ==> forall j :: 0 <= j < |ws| ==>
      ws[j].id in SyncFrom(ws, 0, prev) && SyncFrom(ws, 0, prev)[ws[j].id] == SyncedState(prev, ws[j], j)
  {
    if UniqueIds(ws) {
      SyncFromValues(ws, prev, 0, prev);
    }
  }

  /** The sync effect: give every listed window a state (initial on first appearance, the old
      one otherwise, with `isMinimized` following a boolean `minimized` flag), then drop the
      states of windows no longer listed. */
  function Sync(d: Desk): (r: Desk)
    ensures r.windows == d.windows && Synced(r)
    ensures UniqueIds(d.windows) ==>
      forall i :: 0 <= i < |d.windows| ==> r.states[d.windows[i].id] == SyncedState(d.states, d.windows[i], i)
  {
    var ws := d.windows;
    var all := SyncFrom(ws, 0, d.states);
    var r := Desk(ws, map k | k in all && k in Ids(ws) :: all[k]);
    assert forall j :: 0 <= j < |ws| ==> ws[j].id in all;
    SyncValues(ws, d.states);
    r
  }

  /** A synced desk is left alone by another sync exactly when no listed window carries a
      `minimized` flag that disagrees with its state. */
  lemma SyncStable(d: Desk)
    requires Synced(d) && UniqueIds(d.windows)
    requires forall i :: 0 <= i < |d.windows| && d.windows[i].minimized.Some? ==>
      d.states[d.windows[i].id].isMinimized == d.windows[i].minimized.value
    ensures Sync(d) == d
  {
    var r := Sync(d);
    forall k | k in d.states ensures r.states[k] == d.states[k] {
      var i :| 0 <= i < |d.windows| && d.windows[i].id == k;
    }
  }

  /** The largest z in the map, or 0 (`Math.max(0, ...zs)`). */
  function MaxZ(states: map<string, WindowState>): (r: int)
    ensures r >= 0
    ensures forall k :: k in states ==> states[k].z <= r
    ensures r == 0 || exists k :: k in states && states[k].z == r
  {
    var zs := set k | k in states :: states[k].z;
    assert forall k :: k in states ==> states[k].z in zs;
    if zs == {} then 0
    else
      MaxExists(zs);
      var m :| m in zs && forall z :: z in zs ==> z <= m;
      if m < 0 then 0 else m
  }

  lemma PickFrom(s: set<int>) returns (x: int)
    requires s != {}
    ensures x in s
  {
    ElementOf(s);
    x :| x in s;
  }

  lemma ElementOf(s: set<int>)
    ensures s == {} || exists x :: x in s
  {
    if forall x :: x !in s {
      assert s == {};
    }
  }

  lemma {:induction false} MaxExists(s: set<int>)
    requires s != {}
    ensures exists m :: m in s && forall z :: z in s ==> z <= m
  {
    var x := PickFrom(s);
    if s != {x} {
      MaxExists(s - {x});
      var m :| m in s - {x} && forall z :: z in s - {x} ==> z <= m;
      assert forall z :: z in s ==> z == x || z in s - {x};
      if x > m {
        assert forall z :: z in s ==> z <= x;
      } else {
        assert forall z :: z in s ==> z <= m;
      }
    }
  }

  /** The state an operation starts from: the stored one, or, for a listed window not yet
      synced, the initial state at slot 0. */
  function Base(d: Desk, id: string): WindowState
    requires id in d.states || HasId(d.windows, id)
  {
    if id in d.states then d.states[id] else InitialState(d.windows[IndexOf(d.windows, id)], 0)
  }

  /** The flag update shared by focusing a window and by the taskbar: the chosen window is
      focused and unminimised, every other window loses focus and keeps its `minimized`. */
  function FocusFlags(ws: seq<Descriptor>, id: string): (r: seq<Descriptor>)
    ensures |r| == |ws|
    ensures forall i :: 0 <= i < |ws| ==> SameWindow(r[i], ws[i])
    ensures forall i :: 0 <= i < |ws| ==> r[i].focused == Some(ws[i].id == id)
    ensures forall i :: 0 <= i < |ws| ==>
      r[i].minimized == (if ws[i].id == id then Some(false) else ws[i].minimized)
  {
    seq(|ws|, i requires 0 <= i < |ws| =>
      ws[i].(focused := Some(ws[i].id == id), minimized := if ws[i].id == id then Some(false) else ws[i].minimized))
  }

  /** `bringToFront`: the window rises strictly above every other, is unminimised, and is the
      only focused descriptor. */
  function BringToFront(d: Desk, id: string): (r: Desk)
    requires id in d.states || HasId(d.windows, id)
    ensures r.windows == FocusFlags(d.windows, id)
    ensures r.states.Keys == d.states.Keys + {id}
    ensures forall k :: k in d.states && k != id ==> r.states[k] == d.states[k]
    ensures forall k :: k in r.states && k != id ==> r.states[k].z < r.states[id].z
    ensures forall k :: k in d.states ==> d.states[k].z < r.states[id].z
    ensures !r.states[id].isMinimized
    ensures r.states[id] == Base(d, id).(isMinimized := false, z := r.states[id].z)
    ensures Synced(d) && HasId(d.windows, id) ==> Synced(r)
  {
    var base := Base(d, id);
    Desk(FocusFlags(d.windows, id), d.states[id := base.(isMinimized := false, z := MaxZ(d.states) + 1)])
  }

  /** The external focus request (a taskbar click): ignored when absent, empty, or naming a
      window that is not listed. */
  function FocusRequest(d: Desk, request: Option<string>): (r: Desk)
    ensures request.None? || request == Some("") || !HasId(d.windows, request.value) ==> r == d
    ensures request.Some? && request != Some("") && HasId(d.windows, request.value) ==>
      r == BringToFront(d, request.value)
  {
    if request.None? || request.value == "" || !HasId(d.windows, request.value) then d
    else BringToFront(d, request.value)
  }

  /** `closeWindow`: the window leaves both the list and the map; nothing else changes. */
  function Close(d: Desk, id: string): (r: Desk)
    ensures !HasId(r.windows, id) && id !in r.states
    ensures forall i :: 0 <= i < |d.windows| && d.windows[i].id != id ==> d.windows[i] in r.windows
    ensures forall w :: w in r.windows ==> w in d.windows
    ensures !HasId(d.windows, id) ==> r.windows == d.windows
    ensures r.states.Keys == d.states.Keys - {id}
    ensures forall k :: k in r.states ==> r.states[k] == d.states[k]
    ensures Synced(d) ==> Synced(r)
  {
    var ws := Seqs.Filter(d.windows, Kept(id));
    CloseKeepsSynced(d, id, ws);
    Desk(ws, d.states - {id})
  }

  /** The filter `closeWindow` applies to the list: every window but the closed one. */
  function Kept(id: string): Descriptor -> bool {
    (w: Descriptor) => w.id != id
  }

  /** Closing keeps the other windows in their order, each as often as it was listed: it
      distributes over a split of the list, and a one-window list is kept or emptied. */
  lemma CloseKeepsOrder(a: seq<Descriptor>, b: seq<Descriptor>, s: map<string, WindowState>, id: string)
    ensures Close(Desk(a + b, s), id).windows == Close(Desk(a, s), id).windows + Close(Desk(b, s), id).windows
    ensures |a| == 1 ==> Close(Desk(a, s), id).windows == if a[0].id == id then [] else a
  {
    Seqs.FilterConcat(a, b, Kept(id));
    if |a| == 1 {
      assert a == [a[0]];
      Seqs.FilterSingle(a[0], Kept(id));
    }
  }

  lemma CloseKeepsSynced(d: Desk, id: string, ws: seq<Descriptor>)
    requires ws == Seqs.Filter(d.windows, Kept(id))
    ensures Synced(d) ==> Ids(ws) == d.states.Keys - {id}
  {
    if Synced(d) {
      forall k | k in Ids(ws) ensures k in d.states.Keys - {id} {
        var i :| 0 <= i < |ws| && ws[i].id == k;
        assert ws[i] in d.windows;
        var j :| 0 <= j < |d.windows| && d.windows[j] == ws[i];
      }
      forall k | k in d.states.Keys - {id} ensures k in Ids(ws) {
        var i :| 0 <= i < |d.windows| && d.windows[i].id == k;
        assert d.windows[i] in ws;
        var j :| 0 <= j < |ws| && ws[j] == d.windows[i];
      }
    }
  }

  /** `toggleMaximize`: flips `isMaximized` and nothing else. */
  function ToggleMaximize(d: Desk, id: string): (r: Desk)
    requires id in d.states || HasId(d.windows, id)
    ensures r.windows == d.windows
    ensures r.states.Keys == d.states.Keys + {id}
    ensures forall k :: k in d.states && k != id ==> r.states[k] == d.states[k]
    ensures r.states[id] == Base(d, id).(isMaximized := !Base(d, id).isMaximized)
  {
    var base := Base(d, id);
    Desk(d.windows, d.states[id := base.(isMaximized := !base.isMaximized)])
  }

  /** Maximising twice restores the window. */
  lemma ToggleMaximizeTwice(d: Desk, id: string)
    requires id in d.states
    ensures ToggleMaximize(ToggleMaximize(d, id), id) == d
  {
    var r := ToggleMaximize(ToggleMaximize(d, id), id);
    assert r.states == d.states;
  }

  /** `minimizeWindow`: hides the window and clears its focus; it stays listed and keeps its state. */
  function Minimize(d: Desk, id: string): (r: Desk)
    requires id in d.states
    ensures r.states.Keys == d.states.Keys
    ensures r.states[id] == d.states[id].(isMinimized := true)
    ensures forall k :: k in d.states && k != id ==> r.states[k] == d.states[k]
    ensures |r.windows| == |d.windows|
    ensures forall i :: 0 <= i < |d.windows| ==> SameWindow(r.windows[i], d.windows[i])
    ensures forall i :: 0 <= i < |d.windows| && d.windows[i].id == id ==>
      r.windows[i].minimized == Some(true) && r.windows[i].focused == Some(false)
    ensures forall i :: 0 <= i < |d.windows| && d.windows[i].id != id ==> r.windows[i] == d.windows[i]
  {
    var ws := seq(|d.windows|, i requires 0 <= i < |d.windows| =>
      if d.windows[i].id == id then d.windows[i].(minimized := Some(true), focused := Some(false))
      else d.windows[i]);
    Desk(ws, d.states[id := d.states[id].(isMinimized := true)])
  }

  /** Minimising keeps a synced desk synced: no window is listed or dropped. */
  lemma MinimizeKeepsSynced(d: Desk, id: string)
    requires id in d.states
    ensures Synced(d) ==> Synced(Minimize(d, id))
  {
    var r := Minimize(d, id);
    assert forall i :: 0 <= i < |d.windows| ==> r.windows[i].id == d.windows[i].id;
    assert Ids(r.windows) == Ids(d.windows);
  }

  /** `onDrag`: moves the window by the delta without clamping; nothing else changes. */
  function Drag(d: Desk, id: string, dx: int, dy: int): (r: Desk)
    requires id in d.states || HasId(d.windows, id)
    ensures r.windows == d.windows
    ensures r.states.Keys == d.states.Keys + {id}
    ensures forall k :: k in d.states && k != id ==> r.states[k] == d.states[k]
    ensures r.states[id].x - Base(d, id).x == dx && r.states[id].y - Base(d, id).y == dy
    ensures r.states[id].(x := Base(d, id).x, y := Base(d, id).y) == Base(d, id)
  {
    var base := Base(d, id);
    Desk(d.windows, d.states[id := base.(x := base.x + dx, y := base.y + dy)])
  }

  /** Dragging back by the opposite delta restores the desk. */
  lemma DragBack(d: Desk, id: string, dx: int, dy: int)
    requires id in d.states
    ensures Drag(Drag(d, id, dx, dy), id, -dx, -dy) == d
  {
    var r := Drag(Drag(d, id, dx, dy), id, -dx, -dy);
    assert r.states == d.states;
  }

  /** `onResize`: grows or shrinks the window, never below 260 by 220. */
  function Resize(d: Desk, id: string, dw: int, dh: int): (r: Desk)
    requires id in d.states || HasId(d.windows, id)
    ensures r.windows == d.windows
    ensures r.states.Keys == d.states.Keys + {id}
    ensures forall k :: k in d.states && k != id ==> r.states[k] == d.states[k]
    ensures r.states[id].width >= MinWidth && r.states[id].height >= MinHeight
    ensures r.states[id].width >= Base(d, id).width + dw && r.states[id].height >= Base(d, id).height + dh
    ensures r.states[id].width == Base(d, id).width + dw || r.states[id].width == MinWidth
    ensures r.states[id].height == Base(d, id).height + dh || r.states[id].height == MinHeight
    ensures r.states[id].(width := Base(d, id).width, height := Base(d, id).height) == Base(d, id)
  {
    var base := Base(d, id);
    var w := if base.width + dw > MinWidth then base.width + dw else MinWidth;
    var h := if base.height + dh > MinHeight then base.height + dh else MinHeight;
    Desk(d.windows, d.states[id := base.(width := w, height := h)])
  }

  /** Any sequence of resizes keeps the floors, however negative the deltas. */
  lemma {:induction false} ResizeFloorsHold(d: Desk, id: string, deltas: seq<(int, int)>)
    requires id in d.states
    requires |deltas| > 0
    decreases |deltas|
    ensures id in ResizeAll(d, id, deltas).states
    ensures ResizeAll(d, id, deltas).states[id].width >= MinWidth
    ensures ResizeAll(d, id, deltas).states[id].height >= MinHeight
  {
    if |deltas| > 1 {
      ResizeFloorsHold(Resize(d, id, deltas[0].0, deltas[0].1), id, deltas[1..]);
    }
  }

  /** Resizing by each delta of a drag gesture in turn. */
  function ResizeAll(d: Desk, id: string, deltas: seq<(int, int)>): (r: Desk)
    requires id in d.states
    ensures id in r.states
    decreases |deltas|
  {
    if deltas == [] then d else ResizeAll(Resize(d, id, deltas[0].0, deltas[0].1), id, deltas[1..])
  }

  /** The per-window error boundary's fallback text: the thrown error's message, or
      'App crashed' when it has none. */
  function CrashText(message: Option<string>): (r: string)
    ensures message.Some? && message.value != "" ==> r == "Error: " + message.value
    ensures message.None? || message.value == "" ==> r == "Error: App crashed"
  {
    "Error: " + (if message.Some? && message.value != "" then message.value else "App crashed")
  }
}

=== FILE: wrappers.dfy ===
/** Optional values, standing for JavaScript's `undefined`/`null` versus a present value. */
module Wrappers {

  datatype Option<+T> = None | Some(value: T) {

    /** The value, or `default` when absent: JavaScript's `x ?? default`. */
    function GetOr(default: T): T {
      match this
      case Some(v) => v
      case None => default
    }

    /** The first present value of `this` and `other`: `x ?? y`. */
    function OrElse(other: Option<T>): Option<T> {
      if Some? then this else other
    }
  }
}

/** A persisted list slot (one browser storage key holding a JSON array). */
module Storage {

  /** What reading and parsing one storage key can yield. */
  datatype Slot<T> =
    | Missing              // no value stored, or the empty string
    | Corrupt              // the stored text is not JSON
    | NotArray             // valid JSON whose value is not an array
    | Items(items: seq<T>) // a JSON array

  /** The list a slot holds, with a missing or corrupt slot read as the empty list. */
  function LoadList<T>(slot: Slot<T>): (r: seq<T>)
    ensures slot.Items? ==> r == slot.items
    ensures !slot.Items? ==> r == []
  {
    if slot.Items? then slot.items else []
  }

  /** Writing a list and reading it back yields the same list. */
  lemma StoreLoad<T>(items: seq<T>)
    ensures LoadList(Items(items)) == items
  {
  }
}

/** Order-preserving filtering, the model of `Array.prototype.filter`, and `slice(0, n)`. */
module Seqs {

  /** `s.slice(0, n)`: the first `n` elements, or all of them when there are fewer. */
  function Take<T>(s: seq<T>, n: nat): (r: seq<T>)
    ensures |r| == if |s| <= n then |s| else n
    ensures r == s[..|r|]
  {
    if |s| <= n then s else s[..n]
  }

  function Filter<T>(s: seq<T>, keep: T -> bool): (r: seq<T>)
    ensures |r| <= |s|
    ensures forall i :: 0 <= i < |r| ==> r[i] in s && keep(r[i])
    ensures forall i :: 0 <= i < |s| && keep(s[i]) ==> s[i] in r
    ensures (forall i :: 0 <= i < |s| ==> keep(s[i])) ==> r == s
  {
    if s == [] then []
    else if keep(s[0]) then [s[0]] + Filter(s[1..], keep)
    else Filter(s[1..], keep)
  }

  /** Filtering distributes over concatenation, so the kept elements keep their relative order. */
  lemma {:induction false} FilterConcat<T>(a: seq<T>, b: seq<T>, keep: T -> bool)
    ensures Filter(a + b, keep) == Filter(a, keep) + Filter(b, keep)
  {
    if a == [] {
      assert a + b == b;
    } else {
      assert (a + b)[0] == a[0];
      assert (a + b)[1..] == a[1..] + b;
      FilterConcat(a[1..], b, keep);
    }
  }

  /** A one-element list keeps its element exactly when the element passes the test. */
  lemma FilterSingle<T>(x: T, keep: T -> bool)
    ensures Filter([x], keep) == if keep(x) then [x] else []
  {
    assert [x][1..] == [];
  }

  /** The positions whose element passes the test. */
  function Positions<T>(s: seq<T>, keep: T -> bool): set<int> {
    set i | 0 <= i < |s| && keep(s[i])
  }

  /** The filtered list is as long as the set of positions whose element passes the test. */
  lemma {:induction false} FilterCountsPositions<T>(s: seq<T>, keep: T -> bool)
    ensures |Filter(s, keep)| == |Positions(s, keep)|
    decreases |s|
  {
    if s != [] {
      var p := s[..|s| - 1];
      var x := s[|s| - 1];
      FilterCountsPositions(p, keep);
      assert s == p + [x];
      FilterConcat(p, [x], keep);
      FilterSingle(x, keep);
      var before := Positions(p, keep);
      var after := Positions(s, keep);
      if keep(x) {
        assert after == before + {|p|};
      } else {
        assert after == before;
      }
    }
  }

  /** Filtering twice by the same test is filtering once. */
  lemma FilterIdempotent<T>(s: seq<T>, keep: T -> bool)
    ensures Filter(Filter(s, keep), keep) == Filter(s, keep)
  {
    var r := Filter(s, keep);
  }
}
